=== FILE: README.md ===
# callagent, modelled in Dafny

callagent is an agent-orchestration engine. A hub is meant to create a team
of four worker agents (research, planning, execution, critic) and keeps task
records. As written, creating that team raises TypeError (see "## Findings");
the model follows the evidently intended wiring from there on.
It runs each task through the four agents, scores the critique by counting
keywords, and repeats with a "discussion" until the score is good enough or
an iteration bound is reached. Around the hub sit:

- a short-term memory with time-to-live;
- a SQLite store of memories, conversations and planning rows;
- a conversation manager;
- a message router with broadcast and groups;
- an agent factory;
- a task planner and a plan executor;
- a set of text helpers.

This project models that engine as pure functions over immutable values.

- **State threading.** Every operation takes the state it reads and returns
  the state it leaves: the agent, the hub, the database, the planner's ledger
  or the executor's records.
- **Clock and identifiers.** The clock is an explicit `now: nat` (whole
  seconds, one value per top-level call). Every `uuid` the source draws is a
  parameter: eight hex digits, or a 36-character string for the planner.
- **Replies.** The shipped agents answer with the fixed, keyword-chosen texts
  of their source. An agent of kind `Custom` answers through an uninterpreted
  function of (agent id, sender, message).
- **Tables.** The database is three in-memory tables of rows with increasing
  ids. "Newest first" is reverse insertion order. A read is "filter, order,
  take `limit`", and a delete is a filter.

One Dafny module follows each source component:

| module | source |
|---|---|
| `ShortTerm` | app/memory/short_term.py |
| `Db` | app/database/db_manager.py |
| `LongTerm` | app/memory/long_term.py |
| `Conversation` | app/communication/conversation.py |
| `Router` | app/communication/agent_hub.py |
| `Agents` | app/agents/base.py, research.py, planning.py, execution.py, critic.py (and their copies in specialized_agent.py) |
| `Factory` | app/agents/agent_factory.py |
| `Planner` | app/planning/task_planner.py |
| `Executor` | app/planning/plan_executor.py |
| `Quality` | the quality score of app/agents/agent_hub.py |
| `Admin` and `Orchestrator` | the rest of app/agents/agent_hub.py |
| `Helpers` | app/utils/helpers.py |

`Wrappers`, `Dicts` (insertion-ordered Python dictionaries), `Text`
(ASCII `lower`, `strip`, `split`, `join`, substring search) and `Tables`
(filtered, ordered and limited reads) are shared support.

Some behaviours of the code that the proofs make explicit:

- **`initialize_team` never forms a team.** The hub's `create_agent` calls
  every class with `auto_save` and `is_debug`, which no shipped constructor
  accepts, so the first call raises TypeError (`Orchestrator.HubCreate`).
  Everything below that needs a team assumes the repaired wiring of
  `Orchestrator.InitializeTeam`.
- **The shipped critic always scores one half.** Once a team exists, the orchestrator's critique
  request always contains "evaluate", and the critic's answer to that keyword
  contains no quality keyword, so every run scores 0.5
  (`Orchestrator.ShippedReview`).
- **The improvement loop then always runs to its bound.** With a minimum
  quality above 0.5, `improve_task_results` runs until its iteration bound
  (`Orchestrator.ImproveTaskResults`).
- **Without a team the loop raises.** With no team initialised, its first
  discussion raises `AttributeError`.
- **The planner never finds the hub's task ids.** The hub's task ids
  (`task_` plus eight hex digits) are never the planner's (36-character
  uuids). So every `decompose_task` the stages make hits the unknown-id
  guard, and a run writes no planning rows.
- **`get` and `clear_expired` disagree at the boundary.** An entry whose age
  equals its time-to-live is no longer returned by `get`, yet the sweep keeps
  it (`ShortTerm.BoundaryEntrySurvivesSweep`).
- **`__contains__` misses stored `None` values.** It reports a key stored
  with the value `None` as absent (`ShortTerm.NoneStoredNotContained`).
- **Step numbering restarts per call.** Decomposing a task twice repeats
  subtask ids.
- **Negative subtask indices are accepted.** They read from the end, and an
  index below `-len` raises `IndexError`.
- **Executions and plans in the same second overwrite each other.** They are
  keyed by the second (`Executor.SameSecondOverwrites`,
  `Agents.SameSecondPlansOverwrite`).

## Model

| member | source | states |
|---|---|---|
| ShortTerm.Add | app/memory/short_term.py:31-49 | `add` always reports success and overwrites: the key then reads back as the new value with the new stamp and time-to-live, and no other key changes |
| ShortTerm.Get | app/memory/short_term.py:51-70 | a value comes back exactly when the key is present and has no time-to-live or is younger than it; a stale entry is deleted and nothing else changes |
| ShortTerm.Update | app/memory/short_term.py:72-91 | fails exactly when the key is absent, even a stale entry updates; with `reset_ttl` the stamp becomes `now`, otherwise it and the time-to-live are kept; key order and other keys unchanged |
| ShortTerm.Delete | app/memory/short_term.py:93-107 | true exactly when the key was present; afterwards it is absent and every other key reads as before |
| ShortTerm.Empty | app/memory/short_term.py:109-114 | `clear` leaves a well-formed memory holding no key |
| ShortTerm.ClearExpired | app/memory/short_term.py:116-133 | keeps exactly the entries without a time-to-live or not older than it, unchanged and in order, and the count plus the survivors is the old size |
| ShortTerm.GetAll | app/memory/short_term.py:143-156 | exactly the live keys, in insertion order, each with its stored value; the memory is not changed |
| ShortTerm.Len | app/memory/short_term.py:167-174 | the length is the number of live keys |
| ShortTerm.Has | app/memory/short_term.py:176-186 | true exactly when the key is live and its value is not `None`; as with `get`, a stale or missing key is removed and nothing else changes, and a live one leaves the cache as it was |
| ShortTerm.NoneStoredNotContained | app/memory/short_term.py:186 | a live key holding `None` is returned by `get` as present in the map yet reported as not contained |
| ShortTerm.AddThenGetForever | app/memory/short_term.py:31-70 | a value stored without time-to-live is read back at any later time |
| ShortTerm.AddThenGetWithTtl | app/memory/short_term.py:31-70 | a value stored with time-to-live `ttl` is read back exactly while its age is below `ttl` |
| ShortTerm.BoundaryEntrySurvivesSweep | app/memory/short_term.py:61-133 | an entry whose age equals its time-to-live is neither live for `get` nor expired for the sweep |
| ShortTerm.SweepAndGetAgreeOffBoundary | app/memory/short_term.py:61-133 | away from that boundary an entry is live for `get` exactly when the sweep keeps it |
| Db.InitDb | app/database/db_manager.py:31-76 | `init_db` makes the three tables exist and leaves every row as it was |
| Db.InitDbIdempotent | app/database/db_manager.py:31-76 | running `init_db` twice is the same as once |
| Db.StoredMetadata | app/database/db_manager.py:146 | metadata is stored exactly when given and non-empty, an empty dictionary becomes NULL |
| Db.StoreMemory | app/database/db_manager.py:125-148 | appends exactly one memory row with an id above every existing one, carrying the arguments; the other tables are untouched |
| Db.RetrieveMemories | app/database/db_manager.py:150-172 | the newest (at most `limit`) of the agent's memories of the given type, or of any type when none is given |
| Db.RecordConversation | app/database/db_manager.py:174-191 | appends exactly one conversation row with a fresh, larger id; the other tables are untouched |
| Db.ConversationHistory | app/database/db_manager.py:193-210 | the newest (at most `limit`) rows the agent sent or received |
| Db.RecordPlanning | app/database/db_manager.py:212-231 | appends exactly one planning row with a fresh, larger id; the other tables are untouched |
| Db.UpdatePlanningStatus | app/database/db_manager.py:233-250 | only the row with that id gets the new status and `updated_at`; every other row and table is unchanged |
| Db.PlanningByTask | app/database/db_manager.py:252-266 | exactly the task's planning rows, oldest first |
| LongTerm.RetrieveByContent | app/memory/long_term.py:63-86 | the newest (at most `limit`) of the agent's memories whose content contains the term without regard to ASCII case, of the type when one is given |
| LongTerm.DeleteMemory | app/memory/long_term.py:120-133 | the row with that id disappears, every other row stays in order |
| LongTerm.ClearMemories | app/memory/long_term.py:135-163 | a row is deleted exactly when it matches the given agent and type filters, all rows when neither is given |
| LongTerm.MemoryStatsOf | app/memory/long_term.py:165-200 | the total counts the selected memories; each type's count is exact, and only without an agent filter each agent's count over all memories is exact; each grouping adds up to the total |
| Conversation.Between | app/communication/conversation.py:52-70 | the newest (at most `limit`) rows exchanged between the two agents in either direction |
| Conversation.BetweenSymmetric | app/communication/conversation.py:52-70 | swapping the two agents selects the same rows |
| Conversation.AllConversations | app/communication/conversation.py:72-84 | the newest (at most `limit`) rows of the log |
| Conversation.Search | app/communication/conversation.py:86-99 | the newest (at most `limit`) rows whose message contains the term without regard to ASCII case |
| Conversation.SearchIgnoresCase | app/communication/conversation.py:97-98 | a search finds the same rows whatever the case of the term's letters, as SQLite's `LIKE` does |
| Conversation.Stats | app/communication/conversation.py:101-136 | the total counts the selected rows, and both the per-sender and the per-recipient counts are exact and add up to it |
| Conversation.ExportRows | app/communication/conversation.py:159-163 | the newest 1000 rows the agent sent or received when an agent is given, else the newest 1000 of all rows, newest first |
| Conversation.Export | app/communication/conversation.py:148-187 | only "json" gives rows, exactly those the reads select; a text export of no rows is empty, and when no line holds a newline it splits back at newlines into one `[timestamp] sender -> recipient: message` line per exported row; any other format gives the unsupported-format text |
| Conversation.ClearConversations | app/communication/conversation.py:204-220 | a row is deleted exactly when the agent sent or received it, every row when no agent is given; the other tables are untouched |
| Router.Register | app/communication/agent_hub.py:28-41 | refused exactly for an empty id; otherwise the agent is stored under its id, replacing a namesake, a new id going last |
| Router.Unregister | app/communication/agent_hub.py:43-56 | true exactly when the id was registered; only that id goes and the rest keep their order |
| Router.RegisterUnregister | app/communication/agent_hub.py:28-56 | registering a new agent and unregistering it gives back the hub |
| Router.Send | app/communication/agent_hub.py:79-105 | the message row is always written first; an unknown recipient answers "Agent … not found" after that one row, a registered one answers with its reply and a second, reverse row |
| Router.SendTrail | app/communication/agent_hub.py:79-105 | the answer and the rows written depend only on the registered ids and kinds |
| Router.Excluded | app/communication/agent_hub.py:119-123 | the exclusion list is the caller's list with the sender added once at the end, or a new list holding the sender |
| Router.Broadcast | app/communication/agent_hub.py:107-138 | exactly the registered agents outside the exclusion list and other than the sender are answered, in registration order, each with its own reply |
| Router.MulticastAnswers | app/communication/agent_hub.py:107-138 | the responses are the earlier ones plus one reply per member reached |
| Router.MulticastLog | app/communication/agent_hub.py:107-138 | the log gains the message and answer rows of each member reached, in order |
| Router.MulticastOrder | app/communication/agent_hub.py:107-138 | members listed once are answered in the order listed |
| Router.History | app/communication/agent_hub.py:140-156 | the newest (at most `limit`) rows involving the agent, or of the whole log without one |
| Router.CreateGroup | app/communication/agent_hub.py:178-206 | a group id exists exactly when the first member is registered; the group is then stored without expiry in that member's memory and nothing else changes |
| Router.SearchGroup | app/communication/agent_hub.py:220-229 | the value found is that of the first registered agent, in order, holding the key live; none exactly when no agent does |
| Router.SendGroupMessage | app/communication/agent_hub.py:208-257 | an unknown group gives the error entry and writes nothing; otherwise every registered member other than the sender gets the prefixed message |
| Router.GroupDelivery | app/communication/agent_hub.py:231-257 | the members answered and the rows written are exactly those of the registered members other than the sender |
| Router.OnlyHolder | app/communication/agent_hub.py:220-226 | when one agent alone holds the key, the search finds its value |
| Router.CreateThenFind | app/communication/agent_hub.py:178-229 | a group just created is the one a later group message finds |
| Agents.NewAgent | app/agents/base.py:18-31 | the id is the given one or `agent_` plus eight hex digits, the name the given one or the class default, memory empty, lists defaulted when empty |
| Agents.FirstMatch | app/agents/research.py:36-43 | the position found is that of the first keyword occurring in the text, none exactly when no keyword occurs |
| Agents.DispatchExact | app/agents/critic.py:36-43 | with distinct answers, the answer is keyword `i`'s exactly when keyword `i` is the first match, the fallback exactly when none matches |
| Agents.RepliesDistinct | app/agents/planning.py:34-41 | every shipped keyword chain has pairwise different answers |
| Agents.ReplyNamesBranch | app/agents/execution.py:36-43 | an agent's reply tells which keyword of the lower-cased message came first, or that none occurred |
| Agents.CriticHearsEvaluate | app/agents/critic.py:36-37 | a critic asked anything containing "evaluate" gives that keyword's answer |
| Agents.ExecutionHearsDoInWindow | app/agents/execution.py:36-43 | "do" matches as a plain substring, so "Close the window" is taken as a task |
| Agents.Thought | app/agents/research.py:51-77 | a thought starts with the agent's heading followed by the context |
| Agents.Think | app/agents/base.py:117-143 | `think` returns the thought and appends exactly one "thinking" memory holding it and the context |
| Agents.Store | app/agents/base.py:133-141 | storing a memory keeps every earlier row and adds one row of the agent, type, content and metadata |
| Agents.ProcessMessage | app/agents/base.py:102-115 | the reply of the agent's class; the shipped agents also record one thought, the base and custom ones nothing |
| Agents.ReceiveMessage | app/agents/base.py:48-100 | the reply is `process_message`'s; the message and reply are cached under their per-second keys for one hour, no other key moves; one "conversation" memory ends the log |
| Agents.CacheExchange | app/agents/base.py:60-84 | the message and the reply are each cached under their key with the default time-to-live and no other key changes |
| Agents.LogExchange | app/agents/base.py:72-100 | the log gains any thought and then the "conversation" memory quoting message and reply |
| Agents.SameSecondOverwrites | app/agents/base.py:60-84 | a second message from a sender in the same second replaces the first and adds no key |
| Agents.SameSecondPlansOverwrite | app/agents/planning.py:88-103 | a second plan made in the same second replaces the first under `plan_<second>`; the planning agent holds the same plan ids as before |
| Agents.Plan | app/agents/planning.py:77-118 | every plan starts "Plan for task: …"; the planning agent files it under `plan_<second>` as "created", the others return the header only; one "planning" memory either way |
| Agents.PlanStepsRoundTrip | app/agents/planning.py:88-103 | the planning agent's plan for a one-line task reads back through `extract_task_steps` as its five steps |
| Agents.UpdatePlanStatus | app/agents/planning.py:132-147 | true exactly for a filed plan, which then has the new status; nothing else changes |
| Agents.Execute | app/agents/execution.py:79-121 | the result quotes the plan; the execution agent reports "Status: Completed" and files the task as "completed" under `task_<second>`; one "execution" memory either way |
| Agents.UpdateTaskStatus | app/agents/execution.py:135-150 | true exactly for a filed task, which then has the new status; nothing else changes |
| Agents.ResearchTopic | app/agents/research.py:79-107 | one "research" memory holds the result, which reads back as the three findings about a one-line topic |
| Agents.ResearchSteps | app/agents/research.py:90-105 | the research text reads back through `extract_task_steps` as its three findings |
| Agents.CriterionLines | app/agents/critic.py:96-102 | one "- Criterion: 3/5" line per criterion, in order |
| Agents.Evaluate | app/agents/critic.py:79-134 | the report is filed under `eval_<second>` with the criteria used (the three defaults when none are given) and one "evaluation" memory; its lines after the header are exactly the criterion lines |
| Agents.EvaluationReadBack | app/agents/critic.py:96-110 | a report whose pieces hold no newline splits back into its lines, the criterion lines at positions 4 onwards |
| Agents.HeaderedStepsRoundTrip | app/agents/specialized_agent.py:216-221 | a header line followed by up to nine numbered one-line steps reads back as the steps |
| Agents.ToDict | app/agents/base.py:290-301 | id, name and creation time first; only the shipped classes add their type and their list or record count |
| Factory.CreateAgent | app/agents/agent_factory.py:27-60 | raises ValueError and files nothing exactly for an unknown type; otherwise an agent of that type is filed under the given or a fresh id, replacing a namesake |
| Factory.DeleteAgent | app/agents/agent_factory.py:83-96 | true exactly when the id was filed; only that entry goes |
| Factory.CreateThenDelete | app/agents/agent_factory.py:27-96 | deleting an agent just created under a new key gives back the factory |
| Factory.CreateTeam | app/agents/agent_factory.py:98-118 | the team builds exactly when every named type is supported, always for the default |
| Factory.DefaultTeam | app/agents/agent_factory.py:109-118 | with no types, one research, planning, execution and critic agent named "{team} {Type} Agent" under fresh ids, which the factory lists last |
| Factory.CreateSpecializedTeam | app/agents/agent_factory.py:120-137 | the team builds exactly when every type of the map is supported |
| Factory.SpecializedTeamMembers | app/agents/agent_factory.py:131-137 | a specialized team has exactly one member per key of the map, in order, of that key's type |
| Quality.Hits | app/agents/agent_hub.py:895-904 | the number of distinct keywords found is zero exactly when none occurs |
| Quality.Score | app/agents/agent_hub.py:883-916 | the score lies between 0 and 1 |
| Quality.ScoreNeutral | app/agents/agent_hub.py:895-907 | the score is one half exactly when praise and blame balance, including when neither is found |
| Quality.ScoreOne | app/agents/agent_hub.py:895-907 | the score is 1 exactly when praise and no blame is found |
| Quality.ScoreZero | app/agents/agent_hub.py:895-907 | the score is 0 exactly when blame and no praise is found, so such a critique never says "incomplete" or "inaccurate" |
| Quality.CriticAnswerNeutral | app/agents/critic.py:36-37 | the critic's answer to "evaluate" scores one half |
| Quality.CriticNotAvailableNeutral | app/agents/agent_hub.py:860-862 | the text of a missing critic scores one half |
| Admin.NewEngine | app/agents/agent_hub.py:26-37 | a new hub has no agents, no team, no tasks and no discussions |
| Orchestrator.HubCreate | app/agents/agent_hub.py:43-86 | as written the call always raises and leaves the hub unchanged: ValueError when the type names no class, TypeError for every class that exists, because the call adds `auto_save` and `is_debug` and only ImportError and AttributeError are caught |
| Orchestrator.HubClasses | app/agents/agent_hub.py:64-76 | the four team types find their classes; "admin", listed in the docstring, finds none |
| Orchestrator.HubKeywordsRefused | app/agents/agent_hub.py:76 | no shipped class accepts `agent_id`, `name`, `auto_save` and `is_debug`, whatever keywords the caller adds |
| Orchestrator.HubCreateRaises | app/agents/agent_hub.py:64-82 | `initialize_team`'s first call raises TypeError, and creating an "admin" agent raises ValueError |
| Orchestrator.Enroll | app/agents/agent_hub.py:84-86 | a built agent is registered under its generated id and nothing else changes; a raise leaves the hub as it was |
| Orchestrator.InitializeTeam | app/agents/agent_hub.py:636-692 | four fresh agents fill the four roles, each of its class and named after its role, with a new empty planner; no other agent changes |
| Orchestrator.CreateTask | app/agents/agent_hub.py:694-721 | the record is stored idle, without results or score, at iteration 0, under `task_` plus the hex digits; without a team the call raises AttributeError after storing it |
| Orchestrator.ExecuteTask | app/agents/agent_hub.py:723-771 | an unknown id reports not-found and changes nothing; otherwise the record ends finished with one more iteration, results under exactly the four roles and the critique's score |
| Orchestrator.Perform | app/agents/agent_hub.py:744-762 | the stages change only the hub, and never the planner's table; without a managed team the four roles get their fixed texts, with one they get the team's answers and the log gains the four exchanges |
| Orchestrator.Gather | app/agents/agent_hub.py:745-762 | each result is its managed agent's answer, the critic seeing the other three, and the log gains the rows of the four exchanges in order |
| Orchestrator.Prepare | app/agents/agent_hub.py:745-751 | research, planning and execution run in that order, each answering its own request |
| Orchestrator.Stage | app/agents/agent_hub.py:773-796 | a stage answers with its agent's reply and logs exactly that exchange; a task unknown to the planner writes no planning row |
| Orchestrator.RequestEvaluates | app/agents/agent_hub.py:866-873 | whatever the three results say, the critique request contains "evaluate" |
| Orchestrator.ShippedReview | app/agents/agent_hub.py:848-881 | a shipped critic always answers the fixed "evaluate" text, which scores one half |
| Admin.UnavailableNeutral | app/agents/agent_hub.py:860-862 | a run without a critic scores one half |
| Orchestrator.EvaluateQuality | app/agents/agent_hub.py:883-916 | the score of the critique is returned and stored as the task's one current assessment, replacing any earlier one |
| Orchestrator.Conclude | app/agents/agent_hub.py:752-769 | the record gets the results and the critique's score and is marked finished; only its assessment and record change |
| Orchestrator.Retry | app/agents/agent_hub.py:947 | a rerun finishes the task with one more iteration, scoring one half when every critique is neutral |
| Orchestrator.Round | app/agents/agent_hub.py:943-951 | a loop pass raises exactly without a team, changing no record; otherwise it adds exactly one iteration |
| Orchestrator.ImproveTaskResults | app/agents/agent_hub.py:918-953 | terminates with the score reaching the minimum or the iterations reaching the bound; with neutral critiques and a minimum above one half it runs to the bound |
| Orchestrator.TopicQuotesCritique | app/agents/agent_hub.py:973-977 | the discussion topic quotes the task's critique, or the placeholder when there is none |
| Orchestrator.DebateMirrorsLog | app/agents/agent_hub.py:988-1062 | the six posts, system to research and back, then planning, then execution, are exactly the rows logged when all three agents are registered |
| Orchestrator.InitiateDiscussion | app/agents/agent_hub.py:955-1068 | an unknown task raises KeyError and stores nothing; without a team AttributeError after storing the discussion; otherwise the six posts are stored and the discussion ends inactive |
| Planner.CreateTask | app/planning/task_planner.py:30-61 | the task is stored "created" with no subtasks and no assignments, with one `task_creation` row of status "pending" |
| Planner.UpdateTaskStatus | app/planning/task_planner.py:84-109 | true exactly for a known task, which takes the status and one `status_update` row; otherwise nothing changes |
| Planner.UpdateThenStatus | app/planning/task_planner.py:84-109 | a status set is read back, and no other task's status moves |
| Planner.DecomposeTask | app/planning/task_planner.py:111-147 | an unknown task gives no ids and changes nothing; otherwise one "created" subtask and row per description, ids `{task}_subtask_{i}` from 0 |
| Planner.DecomposeIdsDistinct | app/planning/task_planner.py:125-147 | one call never repeats an id |
| Planner.DecomposeTwiceRepeats | app/planning/task_planner.py:125-147 | a second call repeats the first id, so the task holds two subtasks with one id |
| Planner.AssignTask | app/planning/task_planner.py:149-177 | true exactly for a known task, whose assignment of the agent becomes "assigned" with one row; otherwise nothing changes |
| Planner.AssignSubtask | app/planning/task_planner.py:179-210 | false for an unknown task or an index at or past the end, IndexError below minus the length; otherwise that subtask is assigned, whatever its status |
| Planner.AssignThenStatus | app/planning/task_planner.py:179-210 | an assignment that succeeds reads back as "assigned" at the same index |
| Planner.ExecuteTask | app/planning/task_planner.py:212-253 | unknown or unassigned tasks give their error texts and change nothing; otherwise the first assignee answers, the task ends "completed", and three planning rows are written |
| Planner.ExecuteSubtask | app/planning/task_planner.py:255-297 | a refused index gives "Subtask not found", an unassigned subtask its error text; otherwise its agent answers and it ends "completed" |
| Planner.GetAgentTasks | app/planning/task_planner.py:354-371 | the ids listed are, task by task, the task when the agent is assigned, then its subtasks the agent holds |
| Planner.AgentTasksMembers | app/planning/task_planner.py:354-371 | an id is listed exactly when it is a task assigned to the agent or a subtask it holds |
| Planner.AssignThenListed | app/planning/task_planner.py:149-177 | a task just assigned to an agent is among that agent's tasks |
| Executor.PickAgent | app/planning/plan_executor.py:45-61 | the given agent, else the first execution agent registered, else the first agent, else none |
| Executor.ExecutePlan | app/planning/plan_executor.py:29-100 | without an agent, the error text and nothing written; otherwise the agent's answer, a start and a result planning row, and the run filed under `exec_<second>` |
| Executor.SameSecondOverwrites | app/planning/plan_executor.py:73-78 | two executions in one second share their key, so the second replaces the first |
| Executor.ExecutePlanSteps | app/planning/plan_executor.py:102-204 | without an agent, a single error result whatever the steps; otherwise the run by that agent |
| Executor.StepsBy | app/planning/plan_executor.py:137-196 | one answer per step, in order, each to "Execute step i of n"; one start row, two rows per step and one completion row |
| Executor.PlanStepsRows | app/planning/plan_executor.py:137-196 | a step-wise run writes exactly 2 + 2n planning rows |
| Executor.EveryoneAnswers | app/planning/plan_executor.py:155-170 | every step of a one-agent run is answered by that agent |
| Executor.ExecuteCollaborativePlan | app/planning/plan_executor.py:206-297 | one result per step; an unassigned step gets the fixed text with no message and no row, the others their own agent's answer |
| Executor.CollaborativeRows | app/planning/plan_executor.py:222-289 | a collaborative run writes 2 + 2·(assigned steps) planning rows |
| Executor.OwnersAnswers | app/planning/plan_executor.py:239-262 | a step is answered by its assigned agent, or gets the unassigned text |
| Executor.PlanExecutions | app/planning/plan_executor.py:320-333 | exactly the executions of the plan |
| Executor.AgentExecutions | app/planning/plan_executor.py:335-348 | exactly the executions of the agent |
| Executor.ExecutedThenListed | app/planning/plan_executor.py:320-348 | a step-wise run is listed among the plan's and the agent's executions |
| Helpers.TruncateText | app/utils/helpers.py:72-86 | the text when short enough, else its first `max_length` characters and the suffix, of length `max_length` plus the suffix |
| Helpers.MergeDicts | app/utils/helpers.py:132-145 | the union of both, the second winning shared keys, the first's keys first |
| Helpers.FilterExcludePartition | app/utils/helpers.py:148-173 | filtering and excluding the same keys split the dictionary into two disjoint parts whose union is it |
| Helpers.FilterDict | app/utils/helpers.py:148-159 | exactly the entries whose key is listed, values kept |
| Helpers.ExcludeKeys | app/utils/helpers.py:162-173 | exactly the entries whose key is not listed, values kept |
| Helpers.FlattenAppend | app/utils/helpers.py:176-192 | flattening keeps the left-to-right order of leaves across concatenation |
| Helpers.FlattenShallow | app/utils/helpers.py:176-192 | a list without sub-lists flattens to itself |
| Helpers.ChunkList | app/utils/helpers.py:195-206 | a zero size raises, a negative one gives no chunk; otherwise the chunks concatenate to the list, all full except a non-empty last |
| Helpers.Retry | app/utils/helpers.py:209-231 | at most `max_attempts` calls and none when it is not positive; the first success is returned after only failures, else `None` after exactly `max_attempts` failures |
| Helpers.FormatMatchesExport | app/utils/helpers.py:234-254 | `format_conversation`, defined line by line on its own, gives exactly the text export of the same rows when timestamps are the strings SQLite stores |
| Helpers.ExtractTaskSteps | app/utils/helpers.py:324-353 | empty text gives no step; step lines win when there are any, otherwise the non-empty stripped sentences |
| Helpers.NumberedRoundTrip | app/utils/helpers.py:338-345 | up to nine numbered one-line steps read back as themselves |
| Helpers.TwoDigitNumberIgnored | app/utils/helpers.py:338-345 | a line numbered "10." is not a step |
| Helpers.SentenceFallback | app/utils/helpers.py:348-353 | text without step lines reads back as its sentences |
| Helpers.SentenceSplitJoin | app/utils/helpers.py:348-353 | sentences ending in `.`, `!` or `?` joined by spaces split back into themselves |
| Helpers.ParseAgentResponse | app/utils/helpers.py:356-386 | the JSON branch exactly when the text parses; otherwise the `key: value` fields, or the whole text under "response" when no line has a colon |
| Helpers.ParseRoundTrip | app/utils/helpers.py:356-386 | distinct keys written as `key: value` lines parse back to exactly those fields in order |
| Helpers.NoColonNoFields | app/utils/helpers.py:356-386 | a text without a colon yields no field |

## Left out

- JSON: `json.dumps` and `json.loads` are opaque. Whether a response parses as JSON is a parameter of `ParseAgentResponse`, the JSON export returns the rows themselves, and metadata is kept as a map.
- Threads and asyncio: the short-term memory's sweeping thread and lock are not modelled, only `clear_expired(now)`. The `asyncio.gather` of `execute_task` runs its three bodies in argument order, since none of them awaits.
- SQLite details: the values `delete_*` and `clear_*` return come from `cursor.lastrowid` and are not modelled, only their effect on the tables. `LIKE '%term%'` is `Text.Like`: a substring test that ignores the case of ASCII letters, as SQLite's `LIKE` does by default. Ties of `CURRENT_TIMESTAMP` order by insertion.
- Missing tables: the operations of `Db` assume that `init_db` has run, as main.py:31 makes sure. `DatabaseManager.__init__` does not create the tables, and the `OperationalError` SQLite raises on a table that does not exist is not modelled. `Db.InitDb` records only which tables exist.
- `retrieve_memories_by_timeframe` and the per-hour conversation counts: these rest on local-time formatting.
- Router.SearchGroup: the source's loop (app/communication/agent_hub.py:220-229) passes over a holder whose value is falsy, such as an empty dict, and keeps searching; the model stops at the first live value. `create_group` always stores a non-empty dict, so this differs only for other values stored under a `group:` key.
- Conversation.Search, LongTerm.RetrieveByContent: `%` and `_` inside the search term are SQLite wildcards; the model treats them as ordinary characters.
- Quality.Score: `positive_count / total` (agent_hub.py:907) is a float division, and the improve loop compares the rounded double with `min_quality`. The model keeps the exact fraction, so a score that only rounds to the minimum stops the source loop but not the model's. For example, 5/6 stops the source when `min_quality` is the double 0.8333333333333334.
- Time formatting helpers (`format_duration`, `timestamp_to_datetime`, `datetime_to_timestamp`): these are float and calendar arithmetic.
- Plugins, tools, main.py, logger, examples and tests: these are I/O through libraries that are not part of this model.
- Construction wiring: the modules use dynamic imports (`importlib`). Operations start from already-constructed values: `Admin.NewEngine` builds the hub, `Agents.NewAgent` builds the agents, and the tables, planner, executor and communication hub are given. The hub's `create_agent` is modelled as written in `Orchestrator.HubCreate`. The other constructors, as written, raise TypeError, and these errors are not modelled:
  - `BaseAgent.__init__` calls `LongTermMemory()` without the `db_path` that app/memory/long_term.py:17 requires (app/agents/base.py:30), so building any agent raises.
  - `LongTermMemory` (app/memory/long_term.py:24), `TaskPlanner` (app/planning/task_planner.py:27), `PlanExecutor` (app/planning/plan_executor.py:26) and the communication `AgentHub` (app/communication/agent_hub.py:26) pass `db_path` to `DatabaseManager()`, which takes none (app/database/db_manager.py:17).
  - The admin hub calls `TaskPlanner(self)` and `PlanExecutor(self)` without `db_path` (app/agents/agent_hub.py:689-690).
  - `Orchestrator.HubClass` takes the package `app.agents` to hold only the modules `base`, `research`, `planning`, `execution`, `critic`, `agent_hub`, `agent_factory` and `specialized_agent`, so only the first five give a class.
- Orchestrator.InitializeTeam: models the evidently intended wiring, not the code as written. As written, the first `create_agent` call raises TypeError (app/agents/agent_hub.py:80 and :649; research.py:9 has no `auto_save`). With the keywords repaired, every agent would still raise TypeError at app/agents/base.py:30 (`LongTermMemory()` without `db_path`), and `TaskPlanner(self)` at app/agents/agent_hub.py:689 would raise again for the missing `db_path` (task_planner.py:17). Those later TypeErrors are not modelled. The model builds the four agents from the arguments their classes declare and gives the team an empty planner, so the team, task and discussion members describe a hub that the code as written never reaches.
- Orchestrator send and broadcast: the hub's `send_message` and `broadcast_message` (app/agents/agent_hub.py:286-345) and its group operations (app/agents/agent_hub.py:539-618) repeat the communication hub's code. They are modelled once, in `Router`.
- Getters and `to_json`: `get_plan`, `get_task`, `get_evaluation`, `get_agent`, `get_all_agents` and the `to_json`/`__str__` methods are plain dictionary reads or JSON.
- The factory's shortcuts (`create_research_agent` and the others): these only call `create_agent` with fixed arguments.
- Keyword arguments a constructor does not accept: the TypeError these raise in the factory is not modelled. `Extras` carries only `expertise` and `skills`.
- `uuid` and `time.time()`: these become parameters (the hex strings, the uuid string and `now`). Fractional seconds are not modelled, and one `now` serves a whole call.
- Agents.Plan, Agents.Execute, Agents.Evaluate: the timestamps stored in records and metadata are the whole second `now`, where the source stores the float `time.time()`.
- Helpers.ParseAgentResponse: only the non-JSON path is modelled; a JSON result carries the parsed value unexamined.
- Helpers.FormatMatchesExport: timestamps are printed by a rendering function passed as a parameter, standing for SQLite's text form.
- `str.isdigit`: `Text.IsDigit` accepts only the ASCII digits '0' to '9', where Python also accepts other Unicode digits such as '²' or '٣'. So a step line numbered with such a digit (app/utils/helpers.py:341 and :344) is not recognised by the model.
- Helpers.ChunkList: does not state that chunks are slices at offsets `0, size, 2·size, …` other than through their concatenation and lengths.

## Findings

| source | as written | input that shows it | evidently intended | confidence | as-written member | corrected member |
|---|---|---|---|---|---|---|
| app/agents/agent_hub.py:80 | `create_agent` calls every class with `auto_save=` and `is_debug=`. `ResearchAgent` and `ExecutionAgent` declare neither keyword (research.py:9, execution.py:9). `PlanningAgent` and `CriticAgent` pass four arguments to `BaseAgent.__init__`, which takes two (base.py:18). The resulting TypeError is not caught (agent_hub.py:81). | any call of `initialize_team`: its first step, `create_agent(RESEARCH, name="Research Agent", auto_save=False, is_debug=False)` (agent_hub.py:649), raises | each role filled by a registered agent of its class, named after the role | high, not executed | Orchestrator.HubCreate | Orchestrator.InitializeTeam |

=== FILE: admin.dfy ===
/**
 * The admin state app/agents/agent_hub.py keeps next to its registry:
 * the managed team, the task records, the quality assessments and the
 * discussions, with the invariant every admin operation keeps.
 */
module Admin {
  import opened Wrappers
  import opened Text
  import opened Dicts
  import opened Db
  import opened Agents
  import opened Router
  import opened Quality
  import Planner

  /** The four managed roles; as `AgentType` values they are also the keys of a task's results. */
  datatype Role = ResearchRole | PlanningRole | ExecutionRole | CriticRole

  /** The order in which a run fills in the results. */
  const Roles: seq<Role> := [ResearchRole, PlanningRole, ExecutionRole, CriticRole]

  /** The capitalised role name used in the texts of the stages. */
  function Title(role: Role): string {
    match role
    case ResearchRole => "Research"
    case PlanningRole => "Planning"
    case ExecutionRole => "Execution"
    case CriticRole => "Critic"
  }

  /** What a stage answers when no agent of its role is managed. */
  function Unavailable(role: Role): string {
    Title(role) + " agent not available"
  }

  /** Whether an agent's class is the one a role is filled with. */
  predicate Fits(k: Kind, role: Role) {
    match role
    case ResearchRole => k.Research?
    case PlanningRole => k.Planning?
    case ExecutionRole => k.Execution?
    case CriticRole => k.Critic?
  }

  /** The managed agents, by id, and the task planner created with them. */
  datatype Staff = Staff(research: string, planning: string, execution: string, critic: string, ledger: Planner.Tasks)

  /** The same agents in every role, whatever the planner holds. */
  predicate SameTeam(s: Staff, s': Staff) {
    s'.research == s.research && s'.planning == s.planning && s'.execution == s.execution && s'.critic == s.critic
  }

  function Member(s: Staff, role: Role): string {
    match role
    case ResearchRole => s.research
    case PlanningRole => s.planning
    case ExecutionRole => s.execution
    case CriticRole => s.critic
  }

  /** `AgentState`: the states a task record takes. */
  datatype State = Idle | Running | Finished

  /** A task record of the hub. */
  datatype Job = Job(
    description: string, state: State, createdAt: nat,
    results: Dict<Role, string>, quality: Option<real>, iterations: nat)

  /** What `execute_task` and `improve_task_results` answer: an error entry, or the results of the task. */
  datatype Report = Missing(error: string) | Report(results: Dict<Role, string>)

  /** The stored quality assessment of a task. */
  datatype Assessment = Assessment(score: real, critique: string, at: nat)

  /** One message of a discussion. */
  datatype Post = Post(sender: string, recipient: string, message: string, at: nat)

  datatype Discussion = Discussion(
    taskId: string, prompt: string, posts: seq<Post>, startedAt: nat, active: bool, concludedAt: Option<nat>)

  /** The hub with its admin state. */
  datatype Engine = Engine(
    hub: Hub, staff: Option<Staff>,
    jobs: Dict<string, Job>, assessments: Dict<string, Assessment>, discussions: Dict<string, Discussion>)

  /** The length of `str(uuid.uuid4())`, the planner's task ids. */
  const UuidLength := 36

  /** The length of `task_` plus eight hex digits, the hub's task ids. */
  const TaskIdLength := 13

  /**
   * The invariant every operation keeps: the hub is consistent, the
   * stores are well formed, a finished task has a score, and the hub's
   * task ids and the planner's never coincide, since they differ in length.
   */
  predicate Ready(e: Engine) {
    && Consistent(e.hub)
    && Recorded(e.jobs) && e.assessments.Valid() && e.discussions.Valid()
    && (e.staff.Some? ==> Apart(e.staff.value.ledger))
  }

  /** The task records: hub task ids, well-formed results, and a score once finished. */
  predicate Recorded(jobs: Dict<string, Job>) {
    && jobs.Valid()
    && (forall k <- jobs.m :: |k| == TaskIdLength && jobs.m[k].results.Valid())
    && (forall k <- jobs.m :: jobs.m[k].state == Finished ==> jobs.m[k].quality.Some?)
  }

  /** The planner's records, all under planner ids. */
  predicate Apart(ledger: Planner.Tasks) {
    Planner.Sound(ledger) && forall k <- ledger.m :: |k| == UuidLength
  }

  /** Every role is filled by a registered agent of its class. */
  predicate Staffed(e: Engine) {
    && e.staff.Some?
    && forall role: Role :: Member(e.staff.value, role) in e.hub.agents.m
         && Fits(e.hub.agents.m[Member(e.staff.value, role)].kind, role)
  }

  /** The hub as constructed: no agents, no team, no tasks. */
  function NewEngine(db: Db): (e: Engine)
    requires Valid(db)
    ensures Ready(e) && e.staff.None? && e.hub.db == db
    ensures e.hub.agents.keys == [] && e.jobs.keys == [] && e.discussions.keys == []
  {
    Engine(Hub(Dicts.Empty(), db), None, Dicts.Empty(), Dicts.Empty(), Dicts.Empty())
  }

  // ---------------------------------------------------------------- updates

  /** The invariant allows a record under a hub task id with well-formed results, scored once finished. */
  predicate Storable(id: string, job: Job) {
    |id| == TaskIdLength && job.results.Valid() && (job.state == Finished ==> job.quality.Some?)
  }

  /** Store a task record. */
  function File(e: Engine, id: string, job: Job): (e': Engine)
    requires Ready(e) && Storable(id, job)
    ensures Ready(e') && e' == e.(jobs := e'.jobs)
    ensures e'.jobs.Get(id) == Some(job) && forall k :: k != id ==> e'.jobs.Get(k) == e.jobs.Get(k)
    ensures id in e.jobs.m ==> e'.jobs.keys == e.jobs.keys
  {
    PutValid(e.jobs, id, job);
    e.(jobs := e.jobs.Put(id, job))
  }

  /** Store a quality assessment. */
  function Appraise(e: Engine, id: string, a: Assessment): (e': Engine)
    requires Ready(e)
    ensures Ready(e') && e' == e.(assessments := e'.assessments)
    ensures e'.assessments.Get(id) == Some(a) && forall k :: k != id ==> e'.assessments.Get(k) == e.assessments.Get(k)
  {
    PutValid(e.assessments, id, a);
    e.(assessments := e.assessments.Put(id, a))
  }

  /** Store a discussion. */
  function Open(e: Engine, id: string, d: Discussion): (e': Engine)
    requires Ready(e)
    ensures Ready(e') && e' == e.(discussions := e'.discussions)
    ensures e'.discussions.Get(id) == Some(d) && forall k :: k != id ==> e'.discussions.Get(k) == e.discussions.Get(k)
  {
    PutValid(e.discussions, id, d);
    e.(discussions := e.discussions.Put(id, d))
  }

  /** The record after a run: finished, one more iteration, with the results and their score. */
  function Ran(job: Job, results: Dict<Role, string>, score: real): Job {
    job.(state := Finished, iterations := job.iterations + 1, results := results, quality := Some(score))
  }

  /**
   * `e'` is `e` after a run of the known task `taskId` that produced
   * `results`: the record is finished with the results, the critique's
   * score and one more iteration, the score is the task's one current
   * assessment, and no other record or assessment changed.
   */
  ghost predicate Concluded(e: Engine, e': Engine, taskId: string, results: Dict<Role, string>, now: nat) {
    && taskId in e.jobs.m && CriticRole in results.m
    && e'.jobs.keys == e.jobs.keys
    && e'.jobs.Get(taskId) == Some(Ran(e.jobs.m[taskId], results, Score(results.m[CriticRole])))
    && (forall k :: k != taskId ==> e'.jobs.Get(k) == e.jobs.Get(k))
    && e'.assessments.Get(taskId) == Some(Assessment(Score(results.m[CriticRole]), results.m[CriticRole], now))
    && (forall k :: k != taskId ==> e'.assessments.Get(k) == e.assessments.Get(k))
  }

  /** Replace the database and the planner. */
  function Rebase(e: Engine, db: Db, ledger: Planner.Tasks): (e': Engine)
    requires Ready(e) && e.staff.Some? && Valid(db) && Apart(ledger)
    ensures Ready(e') && e'.staff.Some? && SameTeam(e.staff.value, e'.staff.value) && e'.staff.value.ledger == ledger
    ensures e'.hub == e.hub.(db := db) && Alike(e, e')
  {
    RosterOfDb(e.hub, e.hub, db);
    e.(hub := e.hub.(db := db), staff := Some(e.staff.value.(ledger := ledger)))
  }

  /**
   * `e'` is `e` after messages and planner calls only: the same agents in
   * the same order, the same team, and the same task, assessment and
   * discussion records.
   */
  ghost predicate Alike(e: Engine, e': Engine) {
    && SameRoster(e.hub, e'.hub)
    && e'.jobs == e.jobs && e'.assessments == e.assessments && e'.discussions == e.discussions
    && e'.staff.Some? == e.staff.Some?
    && (e.staff.Some? ==> SameTeam(e.staff.value, e'.staff.value))
  }

  /**
   * Every critique a run can produce scores one half: either no team is
   * managed, or the managed critic is a registered agent of the shipped
   * critic class.
   */
  predicate Neutral(e: Engine) {
    e.staff.Some? ==> e.staff.value.critic in e.hub.agents.m && e.hub.agents.m[e.staff.value.critic].kind.Critic?
  }

  /** Neutrality only depends on the team and the roster. */
  lemma NeutralRoster(e: Engine, e': Engine)
    requires Neutral(e) && SameRoster(e.hub, e'.hub) && e'.staff == e.staff
    ensures Neutral(e')
  {
  }

  /** The critique of a run without a team scores one half. */
  lemma UnavailableNeutral()
    ensures Score(Unavailable(CriticRole)) == 0.5
  {
    CriticNotAvailableNeutral();
  }

  lemma AlikeChain(e: Engine, e1: Engine, e2: Engine)
    requires Alike(e, e1) && Alike(e1, e2)
    ensures Alike(e, e2)
  {
    SameRosterChain(e.hub, e1.hub, e2.hub);
  }

  /** Replacing the database keeps the roster. */
  lemma RosterOfDb(h: Hub, h': Hub, db: Db)
    requires SameRoster(h, h') && Consistent(h') && Valid(db)
    ensures SameRoster(h, h'.(db := db)) && Consistent(h'.(db := db))
  {
  }
}

=== FILE: agents.dfy ===
/**
 * The worker agents of app/agents/base.py, research.py, planning.py,
 * execution.py and critic.py, whose older copies in
 * app/agents/specialized_agent.py behave the same. An agent is a value:
 * every operation takes the agent, the shared database and the clock `now`
 * (whole seconds) and returns its answer with the new agent and database.
 * The shipped agents answer with fixed texts chosen by keyword; an agent of
 * kind `Custom` stands for any other reply function.
 */
module Agents {
  import opened Wrappers
  import opened Text
  import opened Dicts
  import opened ShortTerm
  import opened Db
  import Helpers

  /** What an agent keeps in its short-term memory. */
  datatype Memo =
    | Incoming(sender: string, message: string, at: nat)
    | Outgoing(recipient: string, message: string, at: nat)
    | GroupInfo(name: string, members: seq<string>, at: nat)

  /** An entry of `current_plans` of the planning agent. */
  datatype PlanRecord = PlanRecord(task: string, plan: string, status: string, createdAt: nat, updatedAt: Option<nat>)

  /** An entry of `current_tasks` of the execution agent. */
  datatype TaskRecord = TaskRecord(
    plan: string, result: string, status: string, createdAt: nat, completedAt: nat, updatedAt: Option<nat>)

  /** An entry of `evaluations` of the critic agent. */
  datatype EvalRecord = EvalRecord(content: string, criteria: seq<string>, evaluation: string, createdAt: nat)

  /** The class of an agent with the state that class adds. */
  datatype Kind =
    | Base
    | Research(expertise: seq<string>)
    | Planning(plans: Dict<string, PlanRecord>)
    | Execution(skills: seq<string>, tasks: Dict<string, TaskRecord>)
    | Critic(evaluations: Dict<string, EvalRecord>)
    | Custom(respond: (string, string, string) -> string)

  datatype Agent = Agent(id: string, name: string, createdAt: nat, cache: Cache<Memo>, kind: Kind)

  predicate WellFormed(a: Agent) {
    && a.cache.Valid()
    && (a.kind.Planning? ==> a.kind.plans.Valid())
    && (a.kind.Execution? ==> a.kind.tasks.Valid())
    && (a.kind.Critic? ==> a.kind.evaluations.Valid())
  }

  /** The `agent_type` attribute; the base class has none. */
  function TypeName(k: Kind): Option<string> {
    match k
    case Research(_) => Some("research")
    case Planning(_) => Some("planning")
    case Execution(_, _) => Some("execution")
    case Critic(_) => Some("critic")
    case _ => None
  }

  // ---------------------------------------------------------------- creation

  /** Which class to construct, with the optional lists the constructors take. */
  datatype Blueprint =
    | BaseAgent
    | ResearchAgent(expertise: Option<seq<string>>)
    | PlanningAgent
    | ExecutionAgent(skills: Option<seq<string>>)
    | CriticAgent
    | CustomAgent(respond: (string, string, string) -> string)

  /** Python's `xs or default` on an optional list. */
  function OrList(xs: Option<seq<string>>, default: seq<string>): seq<string> {
    if xs.Some? && |xs.value| > 0 then xs.value else default
  }

  /** The name used when none is given: each subclass passes its own, the base class derives one from the id. */
  function DefaultName(b: Blueprint, id: string): string {
    match b
    case ResearchAgent(_) => "Research Agent"
    case PlanningAgent => "Planning Agent"
    case ExecutionAgent(_) => "Execution Agent"
    case CriticAgent => "Critic Agent"
    case _ => "Agent-" + id
  }

  /**
   * The constructors: the id is the given one or `agent_` plus eight hex
   * digits, the name the given one or the class default, the short-term
   * memory empty, and the lists their defaults when empty or missing.
   */
  function NewAgent(b: Blueprint, agentId: Option<string>, name: Option<string>, hex8: string, now: nat): (a: Agent)
    requires IsHex8(hex8)
    ensures WellFormed(a) && a.cache.m == map[] && a.createdAt == now
    ensures Given(agentId) ==> a.id == agentId.value
    ensures !Given(agentId) ==> a.id == "agent_" + hex8 && |a.id| == 14
    ensures a.name == if Given(name) then name.value else DefaultName(b, a.id)
    ensures b.ResearchAgent? <==> a.kind.Research?
    ensures b.ResearchAgent? ==> a.kind.expertise == OrList(b.expertise, ["general research"]) && |a.kind.expertise| > 0
    ensures b.PlanningAgent? <==> a.kind.Planning?
    ensures b.PlanningAgent? ==> a.kind.plans.keys == []
    ensures b.ExecutionAgent? <==> a.kind.Execution?
    ensures b.ExecutionAgent? ==> a.kind.skills == OrList(b.skills, ["general execution"]) && a.kind.tasks.keys == []
    ensures b.CriticAgent? <==> a.kind.Critic?
    ensures b.CriticAgent? ==> a.kind.evaluations.keys == []
    ensures b.BaseAgent? <==> a.kind.Base?
  {
    var id := if Given(agentId) then agentId.value else "agent_" + hex8;
    var kind := match b
      case BaseAgent => Base
      case ResearchAgent(ex) => Research(OrList(ex, ["general research"]))
      case PlanningAgent => Planning(Dicts.Empty())
      case ExecutionAgent(sk) => Execution(OrList(sk, ["general execution"]), Dicts.Empty())
      case CriticAgent => Critic(Dicts.Empty())
      case CustomAgent(respond) => Custom(respond);
    Agent(id, if Given(name) then name.value else DefaultName(b, id), now, ShortTerm.Empty(), kind)
  }

  // ---------------------------------------------------------------- replies

  /** Rule `i` is the first whose keyword occurs in `text`. */
  predicate FirstMatchAt(text: string, rules: seq<(string, string)>, i: int) {
    && 0 <= i < |rules|
    && Contains(text, rules[i].0)
    && forall j | 0 <= j < i :: !Contains(text, rules[j].0)
  }

  predicate NoMatch(text: string, rules: seq<(string, string)>) {
    forall j | 0 <= j < |rules| :: !Contains(text, rules[j].0)
  }

  /** The position of the first rule whose keyword occurs in `text`. */
  function FirstMatch(text: string, rules: seq<(string, string)>): (r: Option<nat>)
    ensures r.Some? ==> FirstMatchAt(text, rules, r.value)
    ensures r.None? ==> NoMatch(text, rules)
  {
    if |rules| == 0 then None
    else if Contains(text, rules[0].0) then Some(0)
    else
      match FirstMatch(text, rules[1..])
      case None => None
      case Some(i) =>
        assert forall j | 1 <= j <= i + 1 :: rules[j] == rules[1..][j - 1];
        Some(i + 1)
  }

  /** An `if "kw" in text … elif … else …` chain: the answer of the first matching rule. */
  function Dispatch(text: string, rules: seq<(string, string)>, fallback: string): string {
    match FirstMatch(text, rules)
    case Some(i) => rules[i].1
    case None => fallback
  }

  /** No two answers of a chain are the same text. */
  predicate DistinctAnswers(rules: seq<(string, string)>, fallback: string) {
    && (forall i, j | 0 <= i < j < |rules| :: rules[i].1 != rules[j].1)
    && (forall i | 0 <= i < |rules| :: rules[i].1 != fallback)
  }

  /**
   * When the answers differ, the answer tells which branch was taken: it is
   * rule `i`'s exactly when rule `i` is the first match, and the fallback
   * exactly when no keyword occurs.
   */
  lemma DispatchExact(text: string, rules: seq<(string, string)>, fallback: string, i: int)
    requires DistinctAnswers(rules, fallback)
    ensures 0 <= i < |rules| ==> (Dispatch(text, rules, fallback) == rules[i].1 <==> FirstMatchAt(text, rules, i))
    ensures Dispatch(text, rules, fallback) == fallback <==> NoMatch(text, rules)
  {
    match FirstMatch(text, rules)
    case Some(k) =>
      if 0 <= i < k {
        assert !Contains(text, rules[i].0);
      }
      assert Contains(text, rules[k].0);
    case None =>
  }

  /** The agents that choose their answer by keyword. */
  predicate Dispatches(k: Kind) {
    k.Research? || k.Planning? || k.Execution? || k.Critic?
  }

  /** The keyword chain of each shipped agent, in the order the source tests the keywords. */
  function Rules(k: Kind): seq<(string, string)>
    requires Dispatches(k)
  {
    match k
    case Research(ex) => [
      ("research", "I'll research that for you. " + "My expertise areas are: " + Join(ex, ", ")),
      ("analyze", "I'll analyze that information for you."),
      ("data", "I can help you gather " + "and analyze data on that topic.")]
    case Planning(_) => [
      ("plan", "I'll help you plan that task."),
      ("task", "I can break down that task into manageable steps."),
      ("coordinate", "I'll coordinate the agents to accomplish this goal.")]
    case Execution(sk, _) => [
      ("execute", "I'll execute that task for you. " + "My skills include: " + Join(sk, ", ")),
      ("implement", "I can implement that for you."),
      ("do", "I'll take care of that task.")]
    case Critic(_) => [
      ("evaluate", "I'll evaluate that for you and provide feedback."),
      ("review", "I can review that and give you my assessment."),
      ("feedback", "I'll provide detailed feedback on that.")]
  }

  /** The answer when no keyword of the chain occurs. */
  function Fallback(k: Kind): string
    requires Dispatches(k)
  {
    match k
    case Research(ex) =>
      "I'm a research agent specializing in " + Join(ex, ", ") + ". How can I help you with research or analysis?"
    case Planning(_) =>
      "I'm a planning agent. I can help you plan tasks, break them down into steps, and coordinate execution."
    case Execution(sk, _) =>
      "I'm an execution agent specializing in " + Join(sk, ", ") + ". I can execute tasks for you."
    case Critic(_) =>
      "I'm a critic agent. I can evaluate plans, review results, and provide constructive feedback."
  }

  /** Every shipped chain has four different answers. */
  lemma RepliesDistinct(k: Kind)
    requires Dispatches(k)
    ensures DistinctAnswers(Rules(k), Fallback(k))
  {
    match k
    case Research(_) => ResearchRepliesDistinct(k);
    case Planning(_) => PlanningRepliesDistinct(k);
    case Execution(_, _) => ExecutionRepliesDistinct(k);
    case Critic(_) => CriticRepliesDistinct(k);
  }

  lemma PlanningRepliesDistinct(k: Kind)
    requires k.Planning?
    ensures DistinctAnswers(Rules(k), Fallback(k))
  {
    var rules := Rules(k);
    var f := Fallback(k);
    assert |rules[0].1| == 29 && |rules[1].1| == 49 && |rules[2].1| == 51 && |f| == 102;
  }

  lemma CriticRepliesDistinct(k: Kind)
    requires k.Critic?
    ensures DistinctAnswers(Rules(k), Fallback(k))
  {
    var rules := Rules(k);
    var f := Fallback(k);
    assert |rules[0].1| == 48 && |rules[1].1| == 45 && |rules[2].1| == 39 && |f| == 92;
  }

  lemma ResearchRepliesDistinct(k: Kind)
    requires k.Research?
    ensures DistinctAnswers(Rules(k), Fallback(k))
  {
    var rules := Rules(k);
    var f := Fallback(k);
    assert rules[0].1[5] == 'r' && rules[1].1[5] == 'a';
    assert rules[0].1[2] == 'l' && rules[1].1[2] == 'l' && rules[2].1[2] == 'c' && f[2] == 'm';
  }

  lemma ExecutionRepliesDistinct(k: Kind)
    requires k.Execution?
    ensures DistinctAnswers(Rules(k), Fallback(k))
  {
    var rules := Rules(k);
    var f := Fallback(k);
    assert rules[0].1[5] == 'e' && rules[2].1[5] == 't';
    assert rules[0].1[2] == 'l' && rules[1].1[2] == 'c' && rules[2].1[2] == 'l' && f[2] == 'm';
  }

  /** `process_message` without its side effect: the text the agent answers. */
  function Reply(a: Agent, sender: string, message: string): string {
    if Dispatches(a.kind) then Dispatch(Lower(message), Rules(a.kind), Fallback(a.kind))
    else if a.kind.Custom? then a.kind.respond(a.id, sender, message)
    else "Received message from " + sender + ": " + message
  }

  /**
   * A shipped agent's answer names its branch: it is the answer of keyword
   * `i` exactly when keyword `i` is the first one found in the lower-cased
   * message, and the fallback exactly when none is found.
   */
  lemma ReplyNamesBranch(a: Agent, sender: string, message: string, i: int)
    requires Dispatches(a.kind)
    ensures 0 <= i < |Rules(a.kind)| ==>
      (Reply(a, sender, message) == Rules(a.kind)[i].1 <==> FirstMatchAt(Lower(message), Rules(a.kind), i))
    ensures Reply(a, sender, message) == Fallback(a.kind) <==> NoMatch(Lower(message), Rules(a.kind))
  {
    ReplyIsDispatch(a, sender, message);
    RepliesDistinct(a.kind);
    DispatchNamesBranch(Reply(a, sender, message), Lower(message), Rules(a.kind), Fallback(a.kind), i);
  }

  /** `DispatchExact` about a reply already known to be the dispatch's answer. */
  lemma DispatchNamesBranch(r: string, text: string, rules: seq<(string, string)>, f: string, i: int)
    requires r == Dispatch(text, rules, f) && DistinctAnswers(rules, f)
    ensures 0 <= i < |rules| ==> (r == rules[i].1 <==> FirstMatchAt(text, rules, i))
    ensures r == f <==> NoMatch(text, rules)
  {
    DispatchExact(text, rules, f, i);
  }

  lemma ReplyIsDispatch(a: Agent, sender: string, message: string)
    requires Dispatches(a.kind)
    ensures Reply(a, sender, message) == Dispatch(Lower(message), Rules(a.kind), Fallback(a.kind))
  {
  }

  /** A critic asked to "evaluate" gives the answer of that keyword, whatever else the message says. */
  lemma CriticHearsEvaluate(a: Agent, sender: string, message: string)
    requires a.kind.Critic? && Contains(Lower(message), "evaluate")
    ensures Reply(a, sender, message) == "I'll evaluate that for you and provide feedback."
  {
    var rules := Rules(a.kind);
    assert rules[0] == ("evaluate", "I'll evaluate that for you and provide feedback.");
    assert FirstMatch(Lower(message), rules) == Some(0);
    ReplyIsDispatch(a, sender, message);
  }

  /** "do" is matched as a plain substring, so a message about a window is taken as a request to act. */
  lemma ExecutionHearsDoInWindow(a: Agent, sender: string)
    requires a.kind.Execution?
    ensures Reply(a, sender, "Close the window") == "I'll take care of that task."
  {
    var rules := Rules(a.kind);
    assert rules[0].0 == "execute" && rules[1].0 == "implement" && rules[2].0 == "do";
    WindowHasDoOnly();
    ReplyNamesBranch(a, sender, "Close the window", 2);
  }

  lemma WindowHasDoOnly()
    ensures Lower("Close the window") == "close the window"
    ensures !Contains("close the window", "execute") && !Contains("close the window", "implement")
    ensures Contains("close the window", "do")
  {
    assert Lower("Close the window") == "close the window";
    NotContainsByChar("close the window", "execute", 'x');
    NotContainsByChar("close the window", "implement", 'm');
    assert OccursAt("close the window", "do", 13);
  }

  // ---------------------------------------------------------------- thinking

  /** The agents whose `process_message` records a thought. */
  predicate Thinks(k: Kind) {
    Dispatches(k)
  }

  /** The start of every thought of the agent, before the context. */
  function ThinkHead(k: Kind): string {
    match k
    case Research(_) => "Research analysis: "
    case Planning(_) => "Planning analysis: "
    case Execution(_, _) => "Execution analysis: "
    case Critic(_) => "Critical analysis: "
    case _ => "Thinking about: "
  }

  /** The text `think` returns. */
  function Thought(k: Kind, context: string): (t: string)
    ensures StartsWith(t, ThinkHead(k) + context)
  {
    match k
    case Research(ex) =>
      "Research analysis: " + context + "\n"
        + "Considering my expertise in " + Join(ex, ", ") + ", I can provide insights on this topic."
    case Planning(_) =>
      "Planning analysis: " + context + "\n"
        + "I need to consider task dependencies, resource allocation, and timeline."
    case Execution(sk, _) =>
      "Execution analysis: " + context + "\n"
        + "Considering my skills in " + Join(sk, ", ") + ", I can execute this task efficiently."
    case Critic(_) =>
      "Critical analysis: " + context + "\n"
        + "I need to consider strengths, weaknesses, and areas for improvement."
    case _ => "Thinking about: " + context
  }

  /** `db'` is `db` with one more memory row, of that agent, type, content and metadata, made at `now`. */
  predicate OneMoreMemory(db: Db, db': Db, agentId: string, memoryType: string, content: string,
                          metadata: Metadata, now: nat)
  {
    && |db'.memories| == |db.memories| + 1
    && db'.memories[..|db.memories|] == db.memories
    && db'.conversations == db.conversations && db'.planning == db.planning
    && db'.memories[|db.memories|] == MemoryRow(db'.memories[|db.memories|].id, agentId, memoryType, content, StoredMetadata(Some(metadata)), now)
  }

  function Store(db: Db, agentId: string, memoryType: string, content: string, metadata: Metadata, now: nat): (db': Db)
    requires Valid(db)
    ensures Valid(db')
    ensures OneMoreMemory(db, db', agentId, memoryType, content, metadata, now)
  {
    var r := StoreMemory(db, agentId, memoryType, content, Some(metadata), now);
    assert r.1.memories[..|db.memories|] == db.memories;
    r.1
  }

  /** Appending to a table that extends another keeps the other as a prefix. */
  lemma PrefixKept(db: Db, db1: Db, db2: Db)
    requires |db.memories| <= |db1.memories| && db1.memories[..|db.memories|] == db.memories
    requires |db2.memories| == |db1.memories| + 1 && db2.memories[..|db1.memories|] == db1.memories
    ensures db2.memories[..|db.memories|] == db.memories
  {
    assert db2.memories[..|db.memories|] == db2.memories[..|db1.memories|][..|db.memories|];
  }

  /** `think`: the thought about `context`, recorded as one "thinking" memory. */
  function Think(a: Agent, db: Db, context: string, now: nat): (r: (string, Db))
    requires Valid(db)
    ensures Valid(r.1)
    ensures StartsWith(r.0, ThinkHead(a.kind) + context)
    ensures OneMoreMemory(db, r.1, a.id, "thinking", r.0, map["context" := Text(context), "timestamp" := Time(now)], now)
  {
    var t := Thought(a.kind, context);
    (t, Store(db, a.id, "thinking", t, map["context" := Text(context), "timestamp" := Time(now)], now))
  }

  /** What a shipped agent thinks on receiving a message. */
  function Topic(k: Kind): string
    requires Dispatches(k)
  {
    match k
    case Research(_) => "research. I'll respond with my expertise."
    case Planning(_) => "planning. I'll offer my planning capabilities."
    case Execution(_, _) => "execution. I'll offer my execution capabilities."
    case Critic(_) => "evaluation. I'll offer my critical analysis."
  }

  function ThinkingContext(k: Kind, sender: string, message: string): string
    requires Dispatches(k)
  {
    "Received message from " + sender + ": '" + message + "'. This seems to be about " + Topic(k)
  }

  /**
   * `process_message`: the agent's reply; a shipped agent also thinks about
   * the message first, which adds one "thinking" memory.
   */
  function ProcessMessage(a: Agent, db: Db, sender: string, message: string, now: nat): (r: (string, Db))
    requires Valid(db)
    ensures Valid(r.1)
    ensures r.0 == Reply(a, sender, message)
    ensures !Thinks(a.kind) ==> r.1 == db
    ensures Thinks(a.kind) ==> OneMoreMemory(db, r.1, a.id, "thinking", Thought(a.kind, ThinkingContext(a.kind, sender, message)),
                                             map["context" := Text(ThinkingContext(a.kind, sender, message)), "timestamp" := Time(now)], now)
  {
    if Thinks(a.kind) then
      var (_, db') := Think(a, db, ThinkingContext(a.kind, sender, message), now);
      (Reply(a, sender, message), db')
    else (Reply(a, sender, message), db)
  }

  // ---------------------------------------------------------------- messages

  /** The short-term memory keys of a message and of its reply, per sender and second. */
  function ConversationKey(sender: string, now: nat): string {
    "conversation:" + sender + ":" + NatToString(now)
  }

  function ResponseKey(sender: string, now: nat): string {
    "response:" + sender + ":" + NatToString(now)
  }

  function ConversationMemory(sender: string, message: string, response: string): string {
    "From " + sender + ": " + message + "\nResponse: " + response
  }

  function ConversationMeta(sender: string, message: string, response: string, now: nat): Metadata {
    map["sender_id" := Text(sender), "message" := Text(message), "response" := Text(response), "timestamp" := Time(now)]
  }

  /**
   * `receive_message`: cache the message, process it, cache the reply (both
   * for `SHORT_TERM_MEMORY_TTL` seconds), record the exchange as one
   * "conversation" memory after any thought, and return the reply.
   */
  function ReceiveMessage(a: Agent, db: Db, sender: string, message: string, now: nat): (r: (string, Agent, Db))
    requires WellFormed(a) && Valid(db)
    ensures WellFormed(r.1) && Valid(r.2)
    ensures r.0 == Reply(a, sender, message)
    ensures r.1.id == a.id && r.1.name == a.name && r.1.createdAt == a.createdAt
    ensures r.1.kind == a.kind
    ensures r.1.cache.Get(ConversationKey(sender, now)) == Some(Entry(Incoming(sender, message, now), now, Some(DefaultTtl)))
    ensures r.1.cache.Get(ResponseKey(sender, now)) == Some(Entry(Outgoing(sender, r.0, now), now, Some(DefaultTtl)))
    ensures forall k :: k != ConversationKey(sender, now) && k != ResponseKey(sender, now) ==> r.1.cache.Get(k) == a.cache.Get(k)
    ensures |r.2.memories| == |db.memories| + (if Thinks(a.kind) then 2 else 1)
    ensures r.2.memories[..|db.memories|] == db.memories
    ensures Thinks(a.kind) ==> r.2.memories[|db.memories|].memoryType == "thinking"
    ensures var last := r.2.memories[|r.2.memories| - 1];
      last.agentId == a.id && last.memoryType == "conversation" && last.createdAt == now
      && last.content == ConversationMemory(sender, message, r.0)
      && last.metadata == StoredMetadata(Some(ConversationMeta(sender, message, r.0, now)))
    ensures r.2.conversations == db.conversations && r.2.planning == db.planning
  {
    var (response, db') := LogExchange(a, db, sender, message, now);
    (response, a.(cache := CacheExchange(a.cache, sender, message, response, now)), db')
  }

  /** The short-term side of an exchange: the message, then the reply, each stored under its key. */
  function CacheExchange(c: Cache<Memo>, sender: string, message: string, response: string, now: nat): (c': Cache<Memo>)
    requires c.Valid()
    ensures c'.Valid()
    ensures c'.Get(ConversationKey(sender, now)) == Some(Entry(Incoming(sender, message, now), now, Some(DefaultTtl)))
    ensures c'.Get(ResponseKey(sender, now)) == Some(Entry(Outgoing(sender, response, now), now, Some(DefaultTtl)))
    ensures forall k :: k != ConversationKey(sender, now) && k != ResponseKey(sender, now) ==> c'.Get(k) == c.Get(k)
  {
    var (_, c1) := Add(c, ConversationKey(sender, now), Incoming(sender, message, now), Some(DefaultTtl), now);
    assert ConversationKey(sender, now)[0] == 'c' && ResponseKey(sender, now)[0] == 'r';
    Add(c1, ResponseKey(sender, now), Outgoing(sender, response, now), Some(DefaultTtl), now).1
  }

  /** The long-term side of an exchange: any thought about the message, then the conversation row. */
  function LogExchange(a: Agent, db: Db, sender: string, message: string, now: nat): (r: (string, Db))
    requires Valid(db)
    ensures Valid(r.1)
    ensures r.0 == Reply(a, sender, message)
    ensures |r.1.memories| == |db.memories| + (if Thinks(a.kind) then 2 else 1)
    ensures r.1.memories[..|db.memories|] == db.memories
    ensures Thinks(a.kind) ==> r.1.memories[|db.memories|].memoryType == "thinking"
    ensures var last := r.1.memories[|r.1.memories| - 1];
      last.agentId == a.id && last.memoryType == "conversation" && last.createdAt == now
      && last.content == ConversationMemory(sender, message, r.0)
      && last.metadata == StoredMetadata(Some(ConversationMeta(sender, message, r.0, now)))
    ensures r.1.conversations == db.conversations && r.1.planning == db.planning
  {
    var (response, db1) := ProcessMessage(a, db, sender, message, now);
    var db2 := Store(db1, a.id, "conversation", ConversationMemory(sender, message, response),
                     ConversationMeta(sender, message, response, now), now);
    PrefixKept(db, db1, db2);
    (response, db2)
  }

  /**
   * Two messages from one sender within the same second share their cache
   * keys: the second overwrites the first and the memory gains no key.
   */
  lemma SameSecondOverwrites(a: Agent, db: Db, sender: string, m1: string, m2: string, now: nat)
    requires WellFormed(a) && Valid(db)
    ensures var (_, a1, db1) := ReceiveMessage(a, db, sender, m1, now);
            var (_, a2, _) := ReceiveMessage(a1, db1, sender, m2, now);
            && a2.cache.keys == a1.cache.keys
            && a2.cache.Get(ConversationKey(sender, now)) == Some(Entry(Incoming(sender, m2, now), now, Some(DefaultTtl)))
  {
    var (_, a1, db1) := ReceiveMessage(a, db, sender, m1, now);
    var c := a1.cache;
    var k1 := ConversationKey(sender, now);
    var k2 := ResponseKey(sender, now);
    assert k1 in c.m && k2 in c.m;
    assert k1[0] == 'c' && k2[0] == 'r';
  }

  // ---------------------------------------------------------------- plans

  /** The five steps every plan of the planning agent lists. */
  const PlanSteps: seq<string> :=
    ["Analyze requirements", "Break down into subtasks", "Allocate resources", "Set timeline", "Execute and monitor"]

  /** The text the planning agent's `plan` builds: a header line and the numbered steps, each line ended by a newline. */
  function PlanText(task: string): string {
    Terminated(["Plan for task: " + task] + Helpers.Numbered(PlanSteps))
  }

  function PlanId(now: nat): string {
    "plan_" + NatToString(now)
  }

  /**
   * `plan`: the base class returns `Plan for task: …` and records one
   * "planning" memory; the planning agent returns the five-step plan, files
   * it under `plan_<second>` with status "created", and records it too.
   */
  function Plan(a: Agent, db: Db, task: string, now: nat): (r: (string, Agent, Db))
    requires WellFormed(a) && Valid(db)
    ensures WellFormed(r.1) && Valid(r.2)
    ensures r.1.id == a.id && Dispatches(r.1.kind) == Dispatches(a.kind) && TypeName(r.1.kind) == TypeName(a.kind)
    ensures StartsWith(r.0, "Plan for task: " + task)
    ensures !a.kind.Planning? ==> (
      r.0 == "Plan for task: " + task
      && OneMoreMemory(db, r.2, a.id, "planning", r.0, map["task" := Text(task), "timestamp" := Time(now)], now))
    ensures a.kind.Planning? ==> (
      r.1.kind.Planning?
      && r.1.kind.plans.Get(PlanId(now)) == Some(PlanRecord(task, r.0, "created", now, None))
      && (forall k :: k != PlanId(now) ==> r.1.kind.plans.Get(k) == a.kind.plans.Get(k))
      && OneMoreMemory(db, r.2, a.id, "planning", r.0,
                       map["task" := Text(task), "plan_id" := Text(PlanId(now)), "timestamp" := Time(now)], now))
  {
    if a.kind.Planning? then
      var plans := a.kind.plans;
      var text := PlanText(task);
      TerminatedFirst(["Plan for task: " + task] + Helpers.Numbered(PlanSteps));
      PutValid(plans, PlanId(now), PlanRecord(task, text, "created", now, None));
      var plans' := plans.Put(PlanId(now), PlanRecord(task, text, "created", now, None));
      var db' := Store(db, a.id, "planning", text,
                       map["task" := Text(task), "plan_id" := Text(PlanId(now)), "timestamp" := Time(now)], now);
      (text, a.(kind := Planning(plans')), db')
    else
      var text := "Plan for task: " + task;
      assert StartsWith(text, text);
      (text, a, Store(db, a.id, "planning", text, map["task" := Text(task), "timestamp" := Time(now)], now))
  }

  /**
   * Plans are keyed by the second: a second plan made in the same second
   * replaces the first under `plan_<second>`, and the planning agent holds
   * no more plans than before.
   */
  lemma SameSecondPlansOverwrite(a: Agent, db: Db, t1: string, t2: string, now: nat)
    requires WellFormed(a) && Valid(db) && a.kind.Planning?
    ensures var (_, a1, db1) := Plan(a, db, t1, now);
            var (text, a2, _) := Plan(a1, db1, t2, now);
            && a1.kind.Planning? && a2.kind.Planning?
            && a2.kind.plans.keys == a1.kind.plans.keys
            && a2.kind.plans.Get(PlanId(now)) == Some(PlanRecord(t2, text, "created", now, None))
  {
    var (_, a1, db1) := Plan(a, db, t1, now);
    assert PlanId(now) in a1.kind.plans.m;
  }

  /** `update_plan_status`: set the status of a filed plan, or report that there is none. */
  function UpdatePlanStatus(a: Agent, planId: string, status: string, now: nat): (r: (bool, Agent))
    requires WellFormed(a) && a.kind.Planning?
    ensures WellFormed(r.1) && r.1.kind.Planning? && r.1.id == a.id
    ensures r.0 <==> planId in a.kind.plans.m
    ensures !r.0 ==> r.1.kind.plans == a.kind.plans
    ensures r.0 ==> r.1.kind.plans.Get(planId) == Some(a.kind.plans.m[planId].(status := status, updatedAt := Some(now)))
    ensures r.1.kind.plans.keys == a.kind.plans.keys
    ensures forall k :: k != planId ==> r.1.kind.plans.Get(k) == a.kind.plans.Get(k)
  {
    var plans := a.kind.plans;
    if planId in plans.m then
      var p := plans.m[planId].(status := status, updatedAt := Some(now));
      PutValid(plans, planId, p);
      (true, a.(kind := Planning(plans.Put(planId, p))))
    else (false, a)
  }

  // ---------------------------------------------------------------- execution

  /** The fixed steps every execution report lists. */
  const ExecutedSteps: seq<string> := ["Analyzed requirements", "Implemented solution", "Verified results"]

  /** The lines of the execution agent's report: the plan quoted after a header, the status, then the steps. */
  function ExecutionLines(plan: string): seq<string> {
    ["Execution result for plan:", plan, "", "Status: Completed", "Steps executed:"] + Helpers.Numbered(ExecutedSteps)
  }

  /** The text `execute` builds, each line of the report ended by a newline. */
  function ExecutionText(plan: string): string {
    Terminated(ExecutionLines(plan))
  }

  function TaskId(now: nat): string {
    "task_" + NatToString(now)
  }

  /**
   * `execute`: the base class returns `Executed plan: …`; the execution
   * agent returns a report that quotes the plan and says it completed, and
   * files it under `task_<second>` with status "completed". Both record one
   * "execution" memory.
   */
  function Execute(a: Agent, db: Db, plan: string, now: nat): (r: (string, Agent, Db))
    requires WellFormed(a) && Valid(db)
    ensures WellFormed(r.1) && Valid(r.2)
    ensures r.1.id == a.id && Dispatches(r.1.kind) == Dispatches(a.kind) && TypeName(r.1.kind) == TypeName(a.kind)
    ensures Contains(r.0, plan)
    ensures !a.kind.Execution? ==> (
      r.0 == "Executed plan: " + plan
      && OneMoreMemory(db, r.2, a.id, "execution", r.0, map["plan" := Text(plan), "timestamp" := Time(now)], now))
    ensures a.kind.Execution? ==> (
      r.1.kind.Execution? && r.1.kind.skills == a.kind.skills
      && Contains(r.0, "Status: Completed")
      && r.1.kind.tasks.Get(TaskId(now)) == Some(TaskRecord(plan, r.0, "completed", now, now, None))
      && (forall k :: k != TaskId(now) ==> r.1.kind.tasks.Get(k) == a.kind.tasks.Get(k))
      && OneMoreMemory(db, r.2, a.id, "execution", r.0,
                       map["plan" := Text(plan), "task_id" := Text(TaskId(now)), "timestamp" := Time(now)], now))
  {
    match a.kind
    case Execution(skills, tasks) =>
      var text := ExecutionText(plan);
      TerminatedContains(ExecutionLines(plan), 1);
      TerminatedContains(ExecutionLines(plan), 3);
      PutValid(tasks, TaskId(now), TaskRecord(plan, text, "completed", now, now, None));
      var tasks' := tasks.Put(TaskId(now), TaskRecord(plan, text, "completed", now, now, None));
      var db' := Store(db, a.id, "execution", text,
                       map["plan" := Text(plan), "task_id" := Text(TaskId(now)), "timestamp" := Time(now)], now);
      (text, a.(kind := Execution(skills, tasks')), db')
    case _ =>
      var text := "Executed plan: " + plan;
      assert OccursAt(text, plan, 15);
      (text, a, Store(db, a.id, "execution", text, map["plan" := Text(plan), "timestamp" := Time(now)], now))
  }

  /** `update_task_status` of the execution agent. */
  function UpdateTaskStatus(a: Agent, taskId: string, status: string, now: nat): (r: (bool, Agent))
    requires WellFormed(a) && a.kind.Execution?
    ensures WellFormed(r.1) && r.1.kind.Execution? && r.1.id == a.id && r.1.kind.skills == a.kind.skills
    ensures r.0 <==> taskId in a.kind.tasks.m
    ensures !r.0 ==> r.1.kind.tasks == a.kind.tasks
    ensures r.0 ==> r.1.kind.tasks.Get(taskId) == Some(a.kind.tasks.m[taskId].(status := status, updatedAt := Some(now)))
    ensures r.1.kind.tasks.keys == a.kind.tasks.keys
    ensures forall k :: k != taskId ==> r.1.kind.tasks.Get(k) == a.kind.tasks.Get(k)
  {
    var tasks := a.kind.tasks;
    if taskId in tasks.m then
      var t := tasks.m[taskId].(status := status, updatedAt := Some(now));
      PutValid(tasks, taskId, t);
      (true, a.(kind := Execution(a.kind.skills, tasks.Put(taskId, t))))
    else (false, a)
  }

  // ---------------------------------------------------------------- research

  /** The three findings `research_topic` lists about a topic. */
  function Findings(topic: string): seq<string> {
    ["Overview of " + topic, "Key aspects of " + topic, "Recent developments in " + topic]
  }

  /** The text `research_topic` builds: a header line and the numbered findings, each line ended by a newline. */
  function ResearchText(topic: string): string {
    Terminated(["Research results for '" + topic + "':"] + Helpers.Numbered(Findings(topic)))
  }

  /** `research_topic`: a header and three numbered findings, recorded as one "research" memory. */
  function ResearchTopic(a: Agent, db: Db, topic: string, now: nat): (r: (string, Db))
    requires a.kind.Research? && Valid(db)
    ensures Valid(r.1)
    ensures OneMoreMemory(db, r.1, a.id, "research", r.0, map["topic" := Text(topic), "timestamp" := Time(now)], now)
    ensures Trimmed(topic) && |topic| > 0 && '\n' !in topic ==>
      Helpers.ExtractTaskSteps(r.0) == Findings(topic)
  {
    var text := ResearchText(topic);
    var db' := Store(db, a.id, "research", text, map["topic" := Text(topic), "timestamp" := Time(now)], now);
    if Trimmed(topic) && |topic| > 0 && '\n' !in topic then ResearchSteps(topic); (text, db') else (text, db')
  }

  // ---------------------------------------------------------------- evaluation

  const DefaultCriteria: seq<string> := ["accuracy", "completeness", "clarity"]

  /** One line of the criteria section; every score is the placeholder 3. */
  function CriterionLine(criterion: string): string {
    "- " + Capitalize(criterion) + ": " + "3" + "/5"
  }

  function CriterionLines(criteria: seq<string>): (ls: seq<string>)
    ensures |ls| == |criteria|
    ensures forall i | 0 <= i < |criteria| :: ls[i] == CriterionLine(criteria[i])
  {
    seq(|criteria|, i requires 0 <= i < |criteria| => CriterionLine(criteria[i]))
  }

  /**
   * The lines of the critic's report: the quoted content, one scored line
   * per criterion in order, then the fixed strengths and improvements.
   */
  function EvaluationBody(content: string, criteria: seq<string>): seq<string> {
    EvaluationHead(content) + CriterionLines(criteria) + Remarks
  }

  function EvaluationHead(content: string): seq<string> {
    ["Evaluation of content:", PyPrefix(content, 100) + "...", "", "Criteria:"]
  }

  /** The fixed strengths and areas for improvement that close every evaluation. */
  const Strengths: seq<string> := ["", "Strengths:", "1. The content is well-structured.", "2. Key points are addressed."]
  const Improvements: seq<string> :=
    ["", "Areas for improvement:", "1. Could provide more detailed examples.", "2. Consider alternative perspectives."]
  const Remarks: seq<string> := Strengths + Improvements

  /** The text `evaluate` builds by appending each line of the report with its newline. */
  function EvaluationText(content: string, criteria: seq<string>): string {
    Terminated(EvaluationBody(content, criteria))
  }

  function EvalId(now: nat): string {
    "eval_" + NatToString(now)
  }

  /**
   * `evaluate`: the report on `content` under the given criteria (accuracy,
   * completeness and clarity when none are given), filed under
   * `eval_<second>` and recorded as one "evaluation" memory.
   */
  function Evaluate(a: Agent, db: Db, content: string, criteria: Option<seq<string>>, now: nat): (r: (string, Agent, Db))
    requires WellFormed(a) && a.kind.Critic? && Valid(db)
    ensures WellFormed(r.1) && Valid(r.2) && r.1.kind.Critic? && r.1.id == a.id
    ensures var used := criteria.GetOr(DefaultCriteria);
      && r.1.kind.evaluations.Get(EvalId(now)) == Some(EvalRecord(content, used, r.0, now))
      && OneMoreMemory(db, r.2, a.id, "evaluation", r.0,
                       map["content_sample" := Text(PyPrefix(content, 100)), "criteria" := Texts(used),
                           "eval_id" := Text(EvalId(now)), "timestamp" := Time(now)], now)
      && ('\n' !in PyPrefix(content, 100) && (forall c <- used :: '\n' !in c) ==>
            Split(r.0, '\n') == EvaluationBody(content, used) + [""]
            && Split(r.0, '\n')[4..4 + |used|] == CriterionLines(used))
    ensures forall k :: k != EvalId(now) ==> r.1.kind.evaluations.Get(k) == a.kind.evaluations.Get(k)
  {
    var used := criteria.GetOr(DefaultCriteria);
    var text := EvaluationText(content, used);
    var evals := a.kind.evaluations;
    PutValid(evals, EvalId(now), EvalRecord(content, used, text, now));
    var db' := Store(db, a.id, "evaluation", text,
                     map["content_sample" := Text(PyPrefix(content, 100)), "criteria" := Texts(used),
                         "eval_id" := Text(EvalId(now)), "timestamp" := Time(now)], now);
    EvaluationReadBack(content, used);
    (text, a.(kind := Critic(evals.Put(EvalId(now), EvalRecord(content, used, text, now)))), db')
  }

  /** When no criterion and no quoted content holds a newline, the report splits back into its lines. */
  lemma EvaluationSplits(content: string, criteria: seq<string>)
    requires '\n' !in PyPrefix(content, 100)
    requires forall c <- criteria :: '\n' !in c
    ensures Split(EvaluationText(content, criteria), '\n') == EvaluationBody(content, criteria) + [""]
  {
    EvaluationOneLine(content, criteria);
    TerminatedSplit(EvaluationBody(content, criteria));
  }

  lemma EvaluationReadBack(content: string, criteria: seq<string>)
    ensures '\n' !in PyPrefix(content, 100) && (forall c <- criteria :: '\n' !in c) ==>
      Split(EvaluationText(content, criteria), '\n') == EvaluationBody(content, criteria) + [""]
      && Split(EvaluationText(content, criteria), '\n')[4..4 + |criteria|] == CriterionLines(criteria)
  {
    if '\n' !in PyPrefix(content, 100) && (forall c <- criteria :: '\n' !in c) {
      EvaluationSplits(content, criteria);
      CriteriaSlice(content, criteria);
    }
  }

  /** The criterion lines sit right after the four header lines. */
  lemma CriteriaSlice(content: string, criteria: seq<string>)
    ensures |EvaluationBody(content, criteria)| >= 4 + |criteria|
    ensures (EvaluationBody(content, criteria) + [""])[4..4 + |criteria|] == CriterionLines(criteria)
  {
    var head := EvaluationHead(content);
    var mid := CriterionLines(criteria);
    var rest := Remarks + [""];
    assert EvaluationBody(content, criteria) + [""] == head + (mid + rest);
    assert (head + (mid + rest))[4..4 + |mid|] == mid;
  }

  lemma EvaluationOneLine(content: string, criteria: seq<string>)
    requires '\n' !in PyPrefix(content, 100)
    requires forall c <- criteria :: '\n' !in c
    ensures forall l <- EvaluationBody(content, criteria) :: '\n' !in l
  {
    CriterionLinesOneLine(criteria);
    RemarksOneLine();
    HeadOneLine(content);
  }

  lemma HeadOneLine(content: string)
    requires '\n' !in PyPrefix(content, 100)
    ensures forall l <- EvaluationHead(content) :: '\n' !in l
  {
  }

  lemma RemarksOneLine()
    ensures forall l <- Remarks :: '\n' !in l
  {
    StrengthsOneLine();
    ImprovementsOneLine();
  }

  lemma StrengthsOneLine()
    ensures forall l <- Strengths :: '\n' !in l
  {
  }

  lemma ImprovementsOneLine()
    ensures forall l <- Improvements :: '\n' !in l
  {
  }

  lemma CriterionLinesOneLine(criteria: seq<string>)
    requires forall c <- criteria :: '\n' !in c
    ensures forall l <- CriterionLines(criteria) :: '\n' !in l
  {
    var mid := CriterionLines(criteria);
    forall l <- mid ensures '\n' !in l {
      var i :| 0 <= i < |mid| && mid[i] == l;
      CriterionLineOneLine(criteria[i]);
    }
  }

  lemma CriterionLineOneLine(c: string)
    requires '\n' !in c
    ensures '\n' !in CriterionLine(c)
  {
    var cap := Capitalize(c);
    forall i | 0 <= i < |cap| ensures cap[i] != '\n' {
      assert c[i] != '\n';
      if i > 0 {
        assert cap[i] == Lower(c[1..])[i - 1] == LowerChar(c[i]);
      }
    }
    assert CriterionLine(c) == "- " + cap + ": 3/5";
  }

  // ---------------------------------------------------------------- step extraction

  /**
   * A header line that announces no step, followed by numbered lines, each
   * ended by a newline, reads back as exactly the numbered texts.
   */
  lemma HeaderedStepsRoundTrip(header: string, texts: seq<string>)
    requires |header| > 0 && '\n' !in header
    requires !IsSpace(header[0]) && !IsDigit(header[0]) && LowerChar(header[0]) != 's'
    requires 1 <= |texts| <= 9
    requires forall t <- texts :: Trimmed(t) && '\n' !in t
    ensures Helpers.ExtractTaskSteps(Terminated([header] + Helpers.Numbered(texts))) == texts
  {
    var lines := Helpers.Numbered(texts);
    HeaderedOneLine(header, texts);
    TerminatedSplit([header] + lines);
    HeaderedSteps(header, texts);
  }

  lemma HeaderedSteps(header: string, texts: seq<string>)
    requires |header| > 0
    requires !IsSpace(header[0]) && !IsDigit(header[0]) && LowerChar(header[0]) != 's'
    requires |texts| <= 9
    requires forall t <- texts :: Trimmed(t)
    ensures Helpers.StepsOf([header] + Helpers.Numbered(texts) + [""]) == texts
  {
    var lines := Helpers.Numbered(texts);
    calc {
      Helpers.StepsOf([header] + lines + [""]);
      { HeaderAnnouncesNothing(header, lines + [""]); assert [header] + lines + [""] == [header] + (lines + [""]); }
      Helpers.StepsOf(lines + [""]);
      { Helpers.StepsOfAppend(lines, [""]); }
      Helpers.StepsOf(lines) + Helpers.StepsOf([""]);
      { assert Strip("") == ""; Helpers.StepsOfNumbered(texts, 0); }
      texts;
    }
  }

  /** A header line that cannot be read as a step adds no step in front of the lines after it. */
  lemma HeaderAnnouncesNothing(header: string, rest: seq<string>)
    requires |header| > 0
    requires !IsSpace(header[0]) && !IsDigit(header[0]) && LowerChar(header[0]) != 's'
    ensures Helpers.StepsOf([header] + rest) == Helpers.StepsOf(rest)
  {
    var all := [header] + rest;
    Helpers.StepsOfUnfold(all);
    assert all[0] == header && all[1..] == rest;
    Helpers.NoStepLine(header);
  }

  lemma HeaderedOneLine(header: string, texts: seq<string>)
    requires '\n' !in header
    requires |texts| <= 9
    requires forall t <- texts :: '\n' !in t
    ensures forall l <- [header] + Helpers.Numbered(texts) :: '\n' !in l
  {
    var lines := Helpers.Numbered(texts);
    forall l <- [header] + lines ensures '\n' !in l {
      if l != header {
        var i :| 0 <= i < |lines| && lines[i] == l;
        assert l == [DigitChar(i + 1), '.', ' '] + texts[i];
      }
    }
  }

  /** The plan of the planning agent, for a task on one line, reads back as its five steps. */
  lemma PlanStepsRoundTrip(task: string)
    requires '\n' !in task
    ensures Helpers.ExtractTaskSteps(PlanText(task)) == PlanSteps
  {
    var header := "Plan for task: " + task;
    assert header[0] == 'P';
    PlanStepsPlain();
    HeaderedStepsRoundTrip(header, PlanSteps);
  }

  lemma PlanStepsPlain()
    ensures forall t <- PlanSteps :: Trimmed(t) && '\n' !in t
  {
    PlanStepsHeadPlain();
    PlanStepsTailPlain();
    assert PlanSteps == PlanSteps[..2] + PlanSteps[2..];
  }

  lemma PlanStepsHeadPlain()
    ensures forall t <- PlanSteps[..2] :: Trimmed(t) && '\n' !in t
  {
    assert PlanSteps[..2] == ["Analyze requirements", "Break down into subtasks"];
  }

  lemma PlanStepsTailPlain()
    ensures forall t <- PlanSteps[2..] :: Trimmed(t) && '\n' !in t
  {
    assert PlanSteps[2..] == ["Allocate resources", "Set timeline", "Execute and monitor"];
  }

  /** The research text about a topic on one line reads back as its three findings. */
  lemma ResearchSteps(topic: string)
    requires Trimmed(topic) && |topic| > 0 && '\n' !in topic
    ensures Helpers.ExtractTaskSteps(ResearchText(topic)) == Findings(topic)
  {
    var header := "Research results for '" + topic + "':";
    assert header[0] == 'R';
    var texts := Findings(topic);
    forall t <- texts ensures Trimmed(t) && '\n' !in t {
      assert t[0] != ' ' && t[|t| - 1] == topic[|topic| - 1];
    }
    HeaderedStepsRoundTrip(header, texts);
  }

  // ---------------------------------------------------------------- to_dict

  /** A value of the dictionary `to_dict` returns. */
  datatype Field = Str(s: string) | Num(n: nat) | Strs(items: seq<string>)

  /** The entries of `to_dict`'s dictionary literal, in the order it writes them. */
  type Entries = seq<(string, Field)>

  /**
   * `to_dict`: the id, name and creation time, then, for the shipped
   * agents, the type and the agent's list or the size of its records.
   */
  function ToDict(a: Agent): (d: Entries)
    ensures |d| >= 3 && d[..3] == [("agent_id", Str(a.id)), ("name", Str(a.name)), ("created_at", Num(a.createdAt))]
    ensures !Dispatches(a.kind) <==> |d| == 3
    ensures Dispatches(a.kind) ==> |d| >= 4 && d[3] == ("agent_type", Str(TypeName(a.kind).value))
    ensures a.kind.Research? ==> d[4..] == [("expertise", Strs(a.kind.expertise))]
    ensures a.kind.Planning? ==> d[4..] == [("current_plans_count", Num(a.kind.plans.Size()))]
    ensures a.kind.Execution? ==> d[4..] == [("skills", Strs(a.kind.skills)), ("current_tasks_count", Num(a.kind.tasks.Size()))]
    ensures a.kind.Critic? ==> d[4..] == [("evaluations_count", Num(a.kind.evaluations.Size()))]
  {
    var head := [("agent_id", Str(a.id)), ("name", Str(a.name)), ("created_at", Num(a.createdAt))];
    match a.kind
    case Research(ex) => head + [("agent_type", Str("research")), ("expertise", Strs(ex))]
    case Planning(plans) => head + [("agent_type", Str("planning")), ("current_plans_count", Num(plans.Size()))]
    case Execution(sk, tasks) =>
      head + [("agent_type", Str("execution")), ("skills", Strs(sk)), ("current_tasks_count", Num(tasks.Size()))]
    case Critic(evals) => head + [("agent_type", Str("critic")), ("evaluations_count", Num(evals.Size()))]
    case _ => head
  }
}

=== FILE: conversation.dfy ===
/**
 * The conversation manager of app/communication/conversation.py: queries,
 * statistics, export and deletion over the `conversations` table.
 * `record_conversation` and `get_conversation_history` are the table
 * operations of module Db unchanged.
 */
module Conversation {
  import opened Wrappers
  import opened Text
  import opened Tables
  import opened Db

  /** The `WHERE` of `get_conversation_between`: either direction between the two agents. */
  function BetweenFilter(a: string, b: string): ConversationRow -> bool {
    (r: ConversationRow) => (r.sender == a && r.recipient == b) || (r.sender == b && r.recipient == a)
  }

  /** `get_conversation_between`: the rows exchanged by the two agents, newest first, at most `limit`. */
  function Between(db: Db, a: string, b: string, limit: int): (rows: seq<ConversationRow>)
    requires Valid(db)
    ensures IsNewest(db.conversations, BetweenFilter(a, b), limit, ConversationId, rows)
  {
    NewestSpec(db.conversations, BetweenFilter(a, b), limit, ConversationId);
    Newest(db.conversations, BetweenFilter(a, b), limit)
  }

  /** The order of the two agents does not matter. */
  lemma BetweenSymmetric(db: Db, a: string, b: string, limit: int)
    requires Valid(db)
    ensures Between(db, a, b, limit) == Between(db, b, a, limit)
  {
    SelectSame(db.conversations, BetweenFilter(a, b), BetweenFilter(b, a));
  }

  function Everything(): ConversationRow -> bool {
    (r: ConversationRow) => true
  }

  /** `get_all_conversations`: every row, newest first, at most `limit`. */
  function AllConversations(db: Db, limit: int): (rows: seq<ConversationRow>)
    requires Valid(db)
    ensures IsNewest(db.conversations, Everything(), limit, ConversationId, rows)
  {
    NewestSpec(db.conversations, Everything(), limit, ConversationId);
    Newest(db.conversations, Everything(), limit)
  }

  /** The `WHERE message LIKE '%term%'` of `search_conversations`. */
  function MessageContains(term: string): ConversationRow -> bool {
    (r: ConversationRow) => Like(r.message, term)
  }

  /** `search_conversations`: rows whose message matches `term`, newest first, at most `limit`. */
  function Search(db: Db, term: string, limit: int): (rows: seq<ConversationRow>)
    requires Valid(db)
    ensures IsNewest(db.conversations, MessageContains(term), limit, ConversationId, rows)
    ensures forall r <- rows :: Like(r.message, term)
  {
    NewestSpec(db.conversations, MessageContains(term), limit, ConversationId);
    Newest(db.conversations, MessageContains(term), limit)
  }

  /** Searching for a term finds the same rows whatever the case of its letters. */
  lemma SearchIgnoresCase(db: Db, term: string, limit: int)
    requires Valid(db)
    ensures Search(db, term, limit) == Search(db, Lower(term), limit)
  {
    forall r: ConversationRow ensures MessageContains(term)(r) == MessageContains(Lower(term))(r) {
      LikeIgnoresCase(r.message, term);
    }
    SelectSame(db.conversations, MessageContains(term), MessageContains(Lower(term)));
  }

  /** The statistics of `get_conversation_stats`, without the per-hour counts. */
  datatype ConversationStats = ConversationStats(total: nat, bySender: Groups, byRecipient: Groups)

  function SenderOf(r: ConversationRow): string { r.sender }
  function RecipientOf(r: ConversationRow): string { r.recipient }

  function StatsFilter(agentId: Option<string>): ConversationRow -> bool {
    (r: ConversationRow) => !Given(agentId) || r.sender == agentId.value || r.recipient == agentId.value
  }

  /**
   * `get_conversation_stats`: over the (agent's) rows, the total and the
   * counts per sender and per recipient; both groupings add up to the total.
   */
  function Stats(db: Db, agentId: Option<string>): (s: ConversationStats)
    ensures s.total == Count(db.conversations, StatsFilter(agentId))
    ensures UniqueKeys(s.bySender) && Total(s.bySender) == s.total
    ensures UniqueKeys(s.byRecipient) && Total(s.byRecipient) == s.total
    ensures forall k :: Lookup(s.bySender, k) == KeyCount(Column(Select(db.conversations, StatsFilter(agentId)), SenderOf), k)
    ensures forall k :: Lookup(s.byRecipient, k) == KeyCount(Column(Select(db.conversations, StatsFilter(agentId)), RecipientOf), k)
  {
    var rows := Select(db.conversations, StatsFilter(agentId));
    ConversationStats(|rows|, GroupCount(Column(rows, SenderOf)), GroupCount(Column(rows, RecipientOf)))
  }

  /** The number of rows `export_conversations` reads at most. */
  const ExportLimit: int := 1000

  /** What `export_conversations` returns: the JSON dump of some rows, or plain text. */
  datatype Exported = JsonOf(rows: seq<ConversationRow>) | Plain(text: string)

  /** One text-export line, `[timestamp] sender -> recipient: message`. */
  function Line(r: ConversationRow, render: nat -> string): string {
    "[" + render(r.at) + "] " + r.sender + " -> " + r.recipient + ": " + r.message
  }

  function Lines(rows: seq<ConversationRow>, render: nat -> string): (ls: seq<string>)
    ensures |ls| == |rows|
    ensures forall i :: 0 <= i < |rows| ==> ls[i] == Line(rows[i], render)
  {
    seq(|rows|, i requires 0 <= i < |rows| => Line(rows[i], render))
  }

  /**
   * The rows an export reads: the newest thousand rows the agent sent or
   * received when an agent is given, else the newest thousand of all rows.
   */
  function ExportRows(db: Db, agentId: Option<string>): (rows: seq<ConversationRow>)
    requires Valid(db)
    ensures |rows| <= ExportLimit
    ensures forall r <- rows :: r in db.conversations
    ensures Given(agentId) ==> forall r <- rows :: r.sender == agentId.value || r.recipient == agentId.value
    ensures Given(agentId) ==> IsNewest(db.conversations, Involves(agentId.value), ExportLimit, ConversationId, rows)
    ensures !Given(agentId) ==> IsNewest(db.conversations, Everything(), ExportLimit, ConversationId, rows)
  {
    if Given(agentId) then ConversationHistory(db, agentId.value, ExportLimit)
    else AllConversations(db, ExportLimit)
  }

  /**
   * `export_conversations`: "json" gives the rows for serialisation, "text"
   * one line per row joined with newlines, any other format an error text.
   * `render` is how SQLite prints a timestamp. The text export can be read
   * back: when no line holds a newline, splitting it at newlines gives one
   * line per row the JSON export carries.
   */
  function Export(db: Db, agentId: Option<string>, format: string, render: nat -> string): (e: Exported)
    requires Valid(db)
    ensures e.JsonOf? <==> format == "json"
    ensures e.JsonOf? ==> e.rows == ExportRows(db, agentId)
    ensures format == "text" && |ExportRows(db, agentId)| == 0 ==> e == Plain("")
    ensures format == "text" && |ExportRows(db, agentId)| > 0 && (forall r <- db.conversations :: '\n' !in Line(r, render)) ==>
      e.Plain? && Split(e.text, '\n') == Lines(ExportRows(db, agentId), render)
    ensures format != "json" && format != "text" ==> e == Plain("Unsupported format: " + format)
  {
    var rows := ExportRows(db, agentId);
    if format == "json" then JsonOf(rows)
    else if format == "text" then
      var ls := Lines(rows, render);
      if |rows| > 0 && forall r <- db.conversations :: '\n' !in Line(r, render) then
        assert forall l <- ls :: '\n' !in l by {
          forall l <- ls ensures '\n' !in l {
            var i :| 0 <= i < |ls| && ls[i] == l;
            assert rows[i] in db.conversations;
          }
        }
        JoinSplit(ls, '\n');
        Plain(Join(ls, "\n"))
      else Plain(Join(ls, "\n"))
    else Plain("Unsupported format: " + format)
  }

  /** `clear_conversations`: delete the agent's rows (every row when no agent is given). */
  function ClearConversations(db: Db, agentId: Option<string>): (db': Db)
    requires Valid(db)
    ensures Valid(db')
    ensures forall r <- db.conversations :: r in db'.conversations <==> Given(agentId) && r.sender != agentId.value && r.recipient != agentId.value
    ensures forall r <- db'.conversations :: r in db.conversations
    ensures db'.memories == db.memories && db'.planning == db.planning
  {
    var p := StatsFilter(agentId);
    DeleteAscending(db.conversations, p, ConversationId);
    db.(conversations := DeleteWhere(db.conversations, p))
  }
}

=== FILE: db.dfy ===
/**
 * The SQLite store of app/database/db_manager.py as three in-memory tables.
 * Each table is the sequence of its rows in insertion order, with the next
 * AUTOINCREMENT value kept beside it; `CURRENT_TIMESTAMP` is the clock `now`
 * of the call, and "newest first" is reverse insertion order.
 */
module Db {
  import opened Wrappers
  import opened Tables

  /** A value inside the metadata dictionary of a memory row. */
  datatype MetaValue = Text(s: string) | Time(t: nat) | Texts(items: seq<string>)

  type Metadata = map<string, MetaValue>

  /** A row of `memories`; the metadata column holds the serialised dictionary or NULL. */
  datatype MemoryRow = MemoryRow(
    id: nat, agentId: string, memoryType: string, content: string,
    metadata: Option<Metadata>, createdAt: nat)

  /** A row of `conversations`. */
  datatype ConversationRow = ConversationRow(
    id: nat, sender: string, recipient: string, message: string, at: nat)

  /** A row of `planning`; `agentId` is NULL when the task was created without a creator. */
  datatype PlanningRow = PlanningRow(
    id: nat, taskId: string, agentId: Option<string>, planType: string,
    content: string, status: string, createdAt: nat, updatedAt: nat)

  datatype Db = Db(
    tables: set<string>,
    memories: seq<MemoryRow>, conversations: seq<ConversationRow>, planning: seq<PlanningRow>,
    nextMemory: nat, nextConversation: nat, nextPlanning: nat)

  function MemoryId(r: MemoryRow): int { r.id }
  function ConversationId(r: ConversationRow): int { r.id }
  function PlanningId(r: PlanningRow): int { r.id }

  /** AUTOINCREMENT: ids start at 1, grow along the table, and stay below the next id to hand out. */
  predicate Valid(db: Db) {
    && 1 <= db.nextMemory && 1 <= db.nextConversation && 1 <= db.nextPlanning
    && Ascending(db.memories, MemoryId)
    && (forall r <- db.memories :: 1 <= r.id < db.nextMemory)
    && Ascending(db.conversations, ConversationId)
    && (forall r <- db.conversations :: 1 <= r.id < db.nextConversation)
    && Ascending(db.planning, PlanningId)
    && (forall r <- db.planning :: 1 <= r.id < db.nextPlanning)
  }

  /** A database file with no tables yet. */
  function Fresh(): (db: Db)
    ensures Valid(db) && db.tables == {}
  {
    Db({}, [], [], [], 1, 1, 1)
  }

  const TableNames: set<string> := {"memories", "conversations", "planning"}

  /** `init_db`: `CREATE TABLE IF NOT EXISTS` for the three tables. */
  function InitDb(db: Db): (db': Db)
    ensures db'.tables == db.tables + TableNames
    ensures db'.memories == db.memories && db'.conversations == db.conversations && db'.planning == db.planning
    ensures Valid(db) ==> Valid(db')
  {
    db.(tables := db.tables + TableNames)
  }

  /** Creating tables that already exist changes nothing. */
  lemma InitDbIdempotent(db: Db)
    ensures InitDb(InitDb(db)) == InitDb(db)
  {
  }

  /** What `json.dumps(metadata) if metadata else None` stores: an empty dictionary becomes NULL. */
  function StoredMetadata(metadata: Option<Metadata>): (r: Option<Metadata>)
    ensures r.Some? <==> metadata.Some? && |metadata.value| > 0
    ensures r.Some? ==> r.value == metadata.value
  {
    if metadata.Some? && |metadata.value| > 0 then metadata else None
  }

  /** `store_memory`: append one row under the next id and return that id. */
  function StoreMemory(db: Db, agentId: string, memoryType: string, content: string,
                       metadata: Option<Metadata>, now: nat): (r: (nat, Db))
    requires Valid(db)
    ensures Valid(r.1)
    ensures r.1.memories == db.memories + [MemoryRow(r.0, agentId, memoryType, content, StoredMetadata(metadata), now)]
    ensures forall x <- db.memories :: x.id < r.0
    ensures r.1.conversations == db.conversations && r.1.planning == db.planning && r.1.tables == db.tables
  {
    var row := MemoryRow(db.nextMemory, agentId, memoryType, content, StoredMetadata(metadata), now);
    (db.nextMemory, db.(memories := db.memories + [row], nextMemory := db.nextMemory + 1))
  }

  /** The `WHERE` of `retrieve_memories`: the agent's rows, and the type's when a type is given. */
  function MemoryFilter(agentId: string, memoryType: Option<string>): MemoryRow -> bool {
    (r: MemoryRow) => r.agentId == agentId && (memoryType.None? || memoryType.value == "" || r.memoryType == memoryType.value)
  }

  /** `retrieve_memories`: the agent's memories (of the type, if truthy), newest first, at most `limit`. */
  function RetrieveMemories(db: Db, agentId: string, memoryType: Option<string>, limit: int): (rows: seq<MemoryRow>)
    requires Valid(db)
    ensures IsNewest(db.memories, MemoryFilter(agentId, memoryType), limit, MemoryId, rows)
  {
    NewestSpec(db.memories, MemoryFilter(agentId, memoryType), limit, MemoryId);
    Newest(db.memories, MemoryFilter(agentId, memoryType), limit)
  }

  /** `record_conversation`: append one row under the next id and return that id. */
  function RecordConversation(db: Db, sender: string, recipient: string, message: string, now: nat): (r: (nat, Db))
    requires Valid(db)
    ensures Valid(r.1)
    ensures r.1.conversations == db.conversations + [ConversationRow(r.0, sender, recipient, message, now)]
    ensures forall x <- db.conversations :: x.id < r.0
    ensures r.1.memories == db.memories && r.1.planning == db.planning && r.1.tables == db.tables
  {
    var row := ConversationRow(db.nextConversation, sender, recipient, message, now);
    (db.nextConversation, db.(conversations := db.conversations + [row], nextConversation := db.nextConversation + 1))
  }

  /** The `WHERE sender_id = ? OR recipient_id = ?` of the history queries. */
  function Involves(agentId: string): ConversationRow -> bool {
    (r: ConversationRow) => r.sender == agentId || r.recipient == agentId
  }

  /** `get_conversation_history`: rows the agent sent or received, newest first, at most `limit`. */
  function ConversationHistory(db: Db, agentId: string, limit: int): (rows: seq<ConversationRow>)
    requires Valid(db)
    ensures IsNewest(db.conversations, Involves(agentId), limit, ConversationId, rows)
  {
    NewestSpec(db.conversations, Involves(agentId), limit, ConversationId);
    Newest(db.conversations, Involves(agentId), limit)
  }

  /** `record_planning`: append one row under the next id and return that id. */
  function RecordPlanning(db: Db, taskId: string, agentId: Option<string>, planType: string,
                          content: string, status: string, now: nat): (r: (nat, Db))
    requires Valid(db)
    ensures Valid(r.1)
    ensures r.1.planning == db.planning + [PlanningRow(r.0, taskId, agentId, planType, content, status, now, now)]
    ensures forall x <- db.planning :: x.id < r.0
    ensures r.1.memories == db.memories && r.1.conversations == db.conversations && r.1.tables == db.tables
  {
    var row := PlanningRow(db.nextPlanning, taskId, agentId, planType, content, status, now, now);
    (db.nextPlanning, db.(planning := db.planning + [row], nextPlanning := db.nextPlanning + 1))
  }

  /** The status `record_planning` writes when the caller gives none. */
  const DefaultStatus: string := "pending"

  /** `update_planning_status`: set status and `updated_at` of the row with that id, if any. */
  function UpdatePlanningStatus(db: Db, planningId: int, status: string, now: nat): (db': Db)
    requires Valid(db)
    ensures Valid(db')
    ensures |db'.planning| == |db.planning|
    ensures forall i | 0 <= i < |db.planning| ::
      db'.planning[i] == if db.planning[i].id == planningId
                         then db.planning[i].(status := status, updatedAt := now)
                         else db.planning[i]
    ensures db'.memories == db.memories && db'.conversations == db.conversations
  {
    var rows := seq(|db.planning|, i requires 0 <= i < |db.planning| =>
      if db.planning[i].id == planningId then db.planning[i].(status := status, updatedAt := now) else db.planning[i]);
    assert forall i | 0 <= i < |rows| :: rows[i].id == db.planning[i].id;
    assert forall r <- rows :: r in db.planning || exists i | 0 <= i < |rows| :: r == rows[i] && rows[i].id == db.planning[i].id;
    db.(planning := rows)
  }

  function ForTask(taskId: string): PlanningRow -> bool {
    (r: PlanningRow) => r.taskId == taskId
  }

  /** `get_planning_by_task`: the task's rows, oldest first. */
  function PlanningByTask(db: Db, taskId: string): (rows: seq<PlanningRow>)
    requires Valid(db)
    ensures forall r <- rows :: r in db.planning && r.taskId == taskId
    ensures forall r <- db.planning :: r.taskId == taskId ==> r in rows
    ensures Ascending(rows, PlanningId)
  {
    SelectAscending(db.planning, ForTask(taskId), PlanningId);
    Select(db.planning, ForTask(taskId))
  }
}

=== FILE: dict.dfy ===
/**
 * Python's `dict`: a finite map that also remembers the order in which its
 * keys were first inserted, which is the order every iteration follows.
 */
module Dicts {
  import opened Wrappers

  /** Position of `k` in `s`, when present. */
  function Find<K(==)>(s: seq<K>, k: K): (r: Option<nat>)
    ensures r.Some? <==> k in s
    ensures r.Some? ==> r.value < |s| && s[r.value] == k && k !in s[..r.value]
  {
    if |s| == 0 then None
    else if s[0] == k then Some(0)
    else
      match Find(s[1..], k)
      case None => None
      case Some(j) =>
        assert s[..1 + j] == [s[0]] + s[1..][..j];
        Some(1 + j)
  }

  /** `s` without any occurrence of `k`, order otherwise kept. */
  function Without<K(==)>(s: seq<K>, k: K): (r: seq<K>)
    ensures forall x <- r :: x in s && x != k
    ensures forall x <- s :: x != k ==> x in r
    ensures |r| <= |s|
  {
    if |s| == 0 then []
    else if s[0] == k then Without(s[1..], k)
    else [s[0]] + Without(s[1..], k)
  }

  lemma {:induction false} WithoutAbsent<K>(s: seq<K>, k: K)
    requires k !in s
    ensures Without(s, k) == s
  {
    if |s| > 0 {
      WithoutAbsent(s[1..], k);
      assert s == [s[0]] + s[1..];
    }
  }

  lemma {:induction false} WithoutLast<K>(s: seq<K>, k: K)
    requires k !in s
    ensures Without(s + [k], k) == s
  {
    if |s| == 0 {
      assert Without([k], k) == Without([k][1..], k);
    } else {
      assert (s + [k])[1..] == s[1..] + [k];
      WithoutLast(s[1..], k);
      assert s == [s[0]] + s[1..];
    }
  }

  predicate Distinct<K(==)>(s: seq<K>) {
    forall i, j | 0 <= i < j < |s| :: s[i] != s[j]
  }

  lemma WithoutDistinct<K>(s: seq<K>, k: K)
    requires Distinct(s)
    ensures Distinct(Without(s, k))
  {
    if |s| > 0 {
      var w := Without(s[1..], k);
      WithoutDistinct(s[1..], k);
      assert s[0] !in s[1..] by {
        forall j | 0 <= j < |s[1..]| ensures s[1..][j] != s[0] {
          assert s[1..][j] == s[1 + j];
        }
      }
      assert s[0] !in w;
      if s[0] != k {
        var r := [s[0]] + w;
        forall i, j | 0 <= i < j < |r| ensures r[i] != r[j] {
          if i > 0 {
            assert r[i] == w[i - 1] && r[j] == w[j - 1];
          } else {
            assert r[j] in w;
          }
        }
      }
    }
  }

  datatype Dict<K(==), V> = Dict(keys: seq<K>, m: map<K, V>) {

    /** The key sequence lists each key of the map exactly once. */
    predicate Valid() {
      Distinct(keys) && (forall k <- keys :: k in m) && (forall k <- m :: k in keys)
    }

    /** `k in d`. */
    predicate Has(k: K) {
      k in m
    }

    /** `d.get(k)`. */
    function Get(k: K): (r: Option<V>)
      ensures r.Some? <==> k in m
      ensures r.Some? ==> r.value == m[k]
    {
      if k in m then Some(m[k]) else None
    }

    /** `d[k] = v`: a new key goes last, an existing key keeps its place. */
    function Put(k: K, v: V): (d: Dict<K, V>)
      ensures d.m == m[k := v]
      ensures k in m ==> d.keys == keys
      ensures k !in m ==> d.keys == keys + [k]
    {
      if k in m then Dict(keys, m[k := v]) else Dict(keys + [k], m[k := v])
    }

    /** `del d[k]` (or `pop(k, None)`): the other keys keep their order. */
    function Remove(k: K): (d: Dict<K, V>)
      ensures d.m == m - {k}
      ensures d.keys == Without(keys, k)
    {
      Dict(Without(keys, k), m - {k})
    }

    /** `list(d.values())`. */
    function Values(): (vs: seq<V>)
      requires Valid()
      ensures |vs| == |keys|
      ensures forall i :: 0 <= i < |keys| ==> vs[i] == m[keys[i]]
    {
      seq(|keys|, i requires 0 <= i < |keys| => m[keys[i]])
    }

    /** `len(d)`. */
    function Size(): nat {
      |keys|
    }
  }

  function Empty<K(==), V>(): (d: Dict<K, V>)
    ensures d.Valid() && d.m == map[]
  {
    Dict([], map[])
  }

  /** Storing keeps the dictionary well formed, and reading back gives the stored value. */
  lemma PutValid<K, V>(d: Dict<K, V>, k: K, v: V)
    requires d.Valid()
    ensures d.Put(k, v).Valid()
    ensures d.Put(k, v).Get(k) == Some(v)
    ensures forall j :: j != k ==> d.Put(k, v).Get(j) == d.Get(j)
    ensures d.Put(k, v).Size() == if d.Has(k) then d.Size() else d.Size() + 1
  {
  }

  /** A sequence without repetitions has as many elements as it has positions. */
  lemma {:induction false} DistinctCount<K>(s: seq<K>)
    requires Distinct(s)
    ensures |set x | x in s| == |s|
  {
    if |s| > 0 {
      var init := s[..|s| - 1];
      var k := s[|s| - 1];
      assert s == init + [k];
      assert Distinct(init) by {
        forall i, j | 0 <= i < j < |init| ensures init[i] != init[j] {
          assert init[i] == s[i] && init[j] == s[j];
        }
      }
      assert k !in init by {
        forall j | 0 <= j < |init| ensures init[j] != k {
          assert init[j] == s[j];
        }
      }
      DistinctCount(init);
      assert (set x | x in s) == (set x | x in init) + {k};
    }
  }

  /** `len(d)` counts the keys of the map. */
  lemma SizeCounts<K, V>(d: Dict<K, V>)
    requires d.Valid()
    ensures d.Size() == |d.m|
  {
    assert d.m.Keys == set x | x in d.keys;
    DistinctCount(d.keys);
  }

  /** Removing keeps the dictionary well formed, and only `k` disappears. */
  lemma RemoveValid<K, V>(d: Dict<K, V>, k: K)
    requires d.Valid()
    ensures d.Remove(k).Valid()
    ensures d.Remove(k).Get(k) == None
    ensures forall j :: j != k ==> d.Remove(k).Get(j) == d.Get(j)
  {
    WithoutDistinct(d.keys, k);
  }

  /** The elements of `s` satisfying `p`, order kept. */
  function Where<K>(s: seq<K>, p: K -> bool): (r: seq<K>)
    ensures forall x <- r :: x in s && p(x)
    ensures forall x <- s :: p(x) ==> x in r
  {
    if |s| == 0 then [] else if p(s[0]) then [s[0]] + Where(s[1..], p) else Where(s[1..], p)
  }

  lemma {:induction false} WhereDistinct<K>(s: seq<K>, p: K -> bool)
    requires Distinct(s)
    ensures Distinct(Where(s, p))
  {
    if |s| > 0 {
      WhereDistinct(s[1..], p);
      assert s[0] !in s[1..] by {
        forall j | 0 <= j < |s[1..]| ensures s[1..][j] != s[0] {
          assert s[1..][j] == s[1 + j];
        }
      }
      if p(s[0]) {
        var w := Where(s[1..], p);
        var r := [s[0]] + w;
        forall i, j | 0 <= i < j < |r| ensures r[i] != r[j] {
          if i > 0 {
            assert r[i] == w[i - 1] && r[j] == w[j - 1];
          } else {
            assert r[j] in w;
          }
        }
      }
    }
  }

  /** `{k: v for k, v in d.items() if p(k)}`: the entries whose key satisfies `p`, in order. */
  function Restrict<K, V>(d: Dict<K, V>, p: K -> bool): (r: Dict<K, V>)
    requires d.Valid()
    ensures r.Valid()
    ensures forall k <- r.m :: k in d.m && p(k)
    ensures forall k <- d.m :: p(k) ==> k in r.m
    ensures forall k <- r.m :: r.m[k] == d.m[k]
    ensures r.keys == Where(d.keys, p)
  {
    WhereDistinct(d.keys, p);
    Dict(Where(d.keys, p), map k | k in d.m && p(k) :: d.m[k])
  }

  lemma PutPrefix<K, V>(d: Dict<K, V>, k: K, v: V)
    ensures |d.Put(k, v).keys| >= |d.keys| && d.Put(k, v).keys[..|d.keys|] == d.keys
  {
    if k !in d.m {
      assert (d.keys + [k])[..|d.keys|] == d.keys;
    }
  }

  lemma PrefixChain<T>(a: seq<T>, b: seq<T>, c: seq<T>)
    requires |a| <= |b| <= |c| && c[..|b|] == b && b[..|a|] == a
    ensures c[..|a|] == a
  {
    assert c[..|a|] == c[..|b|][..|a|];
  }

  /** `d.update(src)` for the keys `ks` of `src`, taken in order. */
  function UpdateFrom<K, V>(d: Dict<K, V>, ks: seq<K>, src: map<K, V>): (r: Dict<K, V>)
    requires d.Valid()
    requires forall i | 0 <= i < |ks| :: ks[i] in src
    ensures r.Valid()
    ensures forall k <- r.m :: k in d.m || k in ks
    ensures forall k <- d.m :: k in r.m
    ensures forall k <- ks :: k in r.m
    ensures forall k <- r.m :: r.m[k] == if k in ks then src[k] else d.m[k]
    ensures |d.keys| <= |r.keys| && r.keys[..|d.keys|] == d.keys
    decreases |ks|
  {
    if |ks| == 0 then d
    else
      var d1 := d.Put(ks[0], src[ks[0]]);
      PutValid(d, ks[0], src[ks[0]]);
      var r := UpdateFrom(d1, ks[1..], src);
      assert forall k <- ks :: k == ks[0] || k in ks[1..];
      PutPrefix(d, ks[0], src[ks[0]]);
      PrefixChain(d.keys, d1.keys, r.keys);
      r
  }
}

=== FILE: executor.dfy ===
/**
 * The plan executor of app/planning/plan_executor.py: plans and their steps
 * are sent through the message hub to a chosen agent, each stage leaves
 * planning rows in the shared database, and an execution record is kept
 * under `exec_<second>`. Every call reads the clock once, as `now`.
 */
module Executor {
  import opened Wrappers
  import opened Text
  import opened Dicts
  import opened Db
  import opened Agents
  import opened Router
  import opened Planner

  /** One entry of an execution's `steps`; only collaborative runs record the agent. */
  datatype StepRecord = StepRecord(stepId: string, description: string, agent: Option<string>, result: string, completedAt: nat)

  /**
   * An entry of `self.executions`. A single-message run has a `result` and
   * no `steps`; a step-wise run has `steps`; a collaborative run has no
   * `agent_id`.
   */
  datatype Run = Run(
    planId: string, agent: Option<string>, status: string,
    steps: Option<seq<StepRecord>>, result: Option<string>, startedAt: nat, completedAt: Option<nat>)

  type Executions = Dict<string, Run>

  /** `f"exec_{int(time.time())}"`: one key per second. */
  function ExecutionId(now: nat): string {
    "exec_" + NatToString(now)
  }

  const NoAgent: string := "No agent available to execute the plan"

  // ---------------------------------------------------------------- choosing an agent

  predicate IsExecutor(agents: Dict<string, Agent>, k: string) {
    k in agents.m && TypeName(agents.m[k].kind) == Some("execution")
  }

  /** The first of `ks` that is an execution agent. */
  function FirstExecutor(agents: Dict<string, Agent>, ks: seq<string>): (r: Option<string>)
    ensures r.Some? <==> exists k <- ks :: IsExecutor(agents, k)
    ensures r.Some? ==> exists i | 0 <= i < |ks| :: ks[i] == r.value && IsExecutor(agents, ks[i]) &&
                          forall j | 0 <= j < i :: !IsExecutor(agents, ks[j])
  {
    if |ks| == 0 then None
    else if IsExecutor(agents, ks[0]) then Some(ks[0])
    else
      var r := FirstExecutor(agents, ks[1..]);
      assert forall k <- ks :: k == ks[0] || k in ks[1..];
      if r.Some? then
        var i :| 0 <= i < |ks[1..]| && ks[1..][i] == r.value && IsExecutor(agents, ks[1..][i]) &&
                 forall j | 0 <= j < i :: !IsExecutor(agents, ks[1..][j]);
        assert ks[i + 1] == r.value;
        assert forall j | 1 <= j < i + 1 :: ks[j] == ks[1..][j - 1];
        r
      else r
  }

  /**
   * The agent a plan goes to: the one named by the caller, else the first
   * registered execution agent, else the first registered agent, else none.
   */
  function PickAgent(agents: Dict<string, Agent>, given: Option<string>): (r: Option<string>)
    requires agents.Valid()
    ensures given.Some? ==> r == given
    ensures r.None? <==> given.None? && agents.keys == []
    ensures given.None? && r.Some? ==> r.value in agents.m
    ensures given.None? && (exists k <- agents.keys :: IsExecutor(agents, k)) ==>
      r.Some? && IsExecutor(agents, r.value) &&
      exists i | 0 <= i < |agents.keys| :: agents.keys[i] == r.value && forall j | 0 <= j < i :: !IsExecutor(agents, agents.keys[j])
    ensures given.None? && (forall k <- agents.keys :: !IsExecutor(agents, k)) && agents.keys != [] ==> r == Some(agents.keys[0])
  {
    if given.Some? then given
    else
      match FirstExecutor(agents, agents.keys)
      case Some(k) => Some(k)
      case None => if agents.keys != [] then Some(agents.keys[0]) else None
  }

  // ---------------------------------------------------------------- one routed stage

  /**
   * A row, the message to the agent, and a row carrying the answer: the
   * shape of `execute_plan` and of every step.
   */
  function Stage(h: Hub, agent: string, message: string, start: Note, key: string, kind: string, now: nat): (r: (string, Hub))
    requires Consistent(h)
    ensures Consistent(r.1) && SameRoster(h, r.1)
    ensures r.0 == Answer(h, "system", agent, message)
    ensures Noted(h.db.planning, r.1.db.planning, [start, Note(key, Some(agent), kind, r.0, "completed")], now)
    ensures Logged(h.db.conversations, r.1.db.conversations, Trail(h, "system", agent, message), now)
  {
    var h1 := h.(db := Record(h.db, start, now));
    var (answer, h2) := Send(h1, "system", agent, message, now);
    var h3 := h2.(db := Record(h2.db, Note(key, Some(agent), kind, answer, "completed"), now));
    SendTrail(h1, "system", agent, message, now);
    StageLogs(h, h1, h2, h3, agent, message, answer, start, Note(key, Some(agent), kind, answer, "completed"), now);
    (answer, h3)
  }

  lemma StageLogs(h: Hub, h1: Hub, h2: Hub, h3: Hub, agent: string, message: string, answer: string,
                  n1: Note, n2: Note, now: nat)
    requires Consistent(h) && Consistent(h1) && h1.agents == h.agents && PlanningOnly(h.db, h1.db)
    requires Noted(h.db.planning, h1.db.planning, [n1], now)
    requires answer == Answer(h1, "system", agent, message)
    requires Logged(h1.db.conversations, h2.db.conversations, Trail(h1, "system", agent, message), now)
    requires h2.db.planning == h1.db.planning
    requires PlanningOnly(h2.db, h3.db) && Noted(h2.db.planning, h3.db.planning, [n2], now)
    ensures answer == Answer(h, "system", agent, message)
    ensures Logged(h.db.conversations, h3.db.conversations, Trail(h, "system", agent, message), now)
    ensures Noted(h.db.planning, h3.db.planning, [n1, n2], now)
  {
    assert Trail(h1, "system", agent, message) == Trail(h, "system", agent, message);
    NotedChain(h.db.planning, h1.db.planning, h3.db.planning, [n1], [n2], now);
    assert [n1] + [n2] == [n1, n2];
  }

  // ---------------------------------------------------------------- execute_plan

  function StartNote(planId: string, agent: string, content: string): Note {
    Note(planId, Some(agent), "execution_start", "Starting execution of plan: " + PyPrefix(content, 100) + "...", "in_progress")
  }

  /**
   * `execute_plan`: with no agent to be found, an error text and nothing
   * written. Otherwise two planning rows (the start, with the first 100
   * characters of the plan, and the result), the routed answer returned,
   * and the execution recorded as completed under this second's key.
   */
  function ExecutePlan(ex: Executions, h: Hub, planId: string, content: string, given: Option<string>, now: nat)
    : (r: (string, Executions, Hub))
    requires ex.Valid() && Consistent(h)
    ensures r.1.Valid() && Consistent(r.2) && SameRoster(h, r.2)
    ensures PickAgent(h.agents, given).None? ==> r == (NoAgent, ex, h)
    ensures PickAgent(h.agents, given).Some? ==>
      var a := PickAgent(h.agents, given).value;
      var message := "Execute plan: " + content;
      && r.0 == Answer(h, "system", a, message)
      && r.1.Get(ExecutionId(now)) == Some(Run(planId, Some(a), "completed", None, Some(r.0), now, Some(now)))
      && (forall k :: k != ExecutionId(now) ==> r.1.Get(k) == ex.Get(k))
      && Noted(h.db.planning, r.2.db.planning,
               [StartNote(planId, a, content), Note(planId, Some(a), "execution_result", r.0, "completed")], now)
      && Logged(h.db.conversations, r.2.db.conversations, Trail(h, "system", a, message), now)
  {
    match PickAgent(h.agents, given)
    case None => (NoAgent, ex, h)
    case Some(a) =>
      var (answer, h') := Stage(h, a, "Execute plan: " + content, StartNote(planId, a, content), planId, "execution_result", now);
      var e := Run(planId, Some(a), "completed", None, Some(answer), now, Some(now));
      PutValid(ex, ExecutionId(now), e);
      (answer, ex.Put(ExecutionId(now), e), h')
  }

  /** Two executions within one second share a key: the second replaces the first, and the count stays. */
  lemma SameSecondOverwrites(ex: Executions, h: Hub, p1: string, c1: string, p2: string, c2: string, given: Option<string>, now: nat)
    requires ex.Valid() && Consistent(h) && PickAgent(h.agents, given).Some?
    ensures var (_, ex1, h1) := ExecutePlan(ex, h, p1, c1, given, now);
            var (_, ex2, _) := ExecutePlan(ex1, h1, p2, c2, given, now);
            && ex2.Size() == ex1.Size()
            && ex2.Get(ExecutionId(now)).Some? && ex2.Get(ExecutionId(now)).value.planId == p2
  {
    var (_, ex1, h1) := ExecutePlan(ex, h, p1, c1, given, now);
    assert PickAgent(h1.agents, given).Some?;
  }

  // ---------------------------------------------------------------- steps

  function StepId(planId: string, i: nat): string {
    planId + "_step_" + NatToString(i)
  }

  /** The message of step `i` (counted from 0) of `n`. */
  function StepMessage(i: nat, n: nat, step: string): string {
    "Execute step " + NatToString(i + 1) + " of " + NatToString(n) + ": " + step
  }

  function StepStart(planId: string, i: nat, agent: string, step: string): Note {
    Note(StepId(planId, i), Some(agent), "step_start", "Starting step " + NatToString(i + 1) + ": " + step, "in_progress")
  }

  function Unassigned(i: nat): string {
    "No agent assigned for step " + NatToString(i + 1)
  }

  /** What step `i` comes back with: its agent's answer, or the text for a step nobody has. */
  function StepAnswer(h: Hub, owners: seq<Option<string>>, steps: seq<string>, i: nat): string
    requires Consistent(h) && |owners| == |steps| && i < |steps|
  {
    if owners[i].None? then Unassigned(i)
    else Answer(h, "system", owners[i].value, StepMessage(i, |steps|, steps[i]))
  }

  /** The planning rows of steps `i..`: a start and a result row for each step that has an agent. */
  function StepNotes(h: Hub, planId: string, owners: seq<Option<string>>, steps: seq<string>, i: nat): seq<Note>
    requires Consistent(h) && |owners| == |steps| && i <= |steps|
    decreases |steps| - i
  {
    if i == |steps| then []
    else
      (if owners[i].None? then []
       else [StepStart(planId, i, owners[i].value, steps[i]),
             Note(StepId(planId, i), owners[i], "step_result", StepAnswer(h, owners, steps, i), "completed")])
      + StepNotes(h, planId, owners, steps, i + 1)
  }

  /** The conversation rows of steps `i..`. */
  function StepTrails(h: Hub, owners: seq<Option<string>>, steps: seq<string>, i: nat): seq<(string, string, string)>
    requires Consistent(h) && |owners| == |steps| && i <= |steps|
    decreases |steps| - i
  {
    if i == |steps| then []
    else
      (if owners[i].None? then [] else Trail(h, "system", owners[i].value, StepMessage(i, |steps|, steps[i])))
      + StepTrails(h, owners, steps, i + 1)
  }

  /** The step entries of steps `i..`; `tagged` says whether they name their agent. */
  function StepRecords(h: Hub, planId: string, owners: seq<Option<string>>, steps: seq<string>, i: nat, tagged: bool, now: nat)
    : seq<StepRecord>
    requires Consistent(h) && |owners| == |steps| && i <= |steps|
    decreases |steps| - i
  {
    if i == |steps| then []
    else
      (if owners[i].None? then []
       else [StepRecord(StepId(planId, i), steps[i], if tagged then owners[i] else None, StepAnswer(h, owners, steps, i), now)])
      + StepRecords(h, planId, owners, steps, i + 1, tagged, now)
  }

  /** The number of steps from `i` on that have an agent. */
  function Owned(owners: seq<Option<string>>, i: nat): nat
    requires i <= |owners|
    decreases |owners| - i
  {
    if i == |owners| then 0 else (if owners[i].Some? then 1 else 0) + Owned(owners, i + 1)
  }

  /** The step summaries only depend on the roster. */
  lemma StepsRoster(h: Hub, h': Hub, planId: string, owners: seq<Option<string>>, steps: seq<string>,
                    i: nat, tagged: bool, now: nat)
    requires Consistent(h) && Consistent(h') && SameRoster(h, h') && |owners| == |steps| && i <= |steps|
    ensures StepNotes(h', planId, owners, steps, i) == StepNotes(h, planId, owners, steps, i)
    ensures StepTrails(h', owners, steps, i) == StepTrails(h, owners, steps, i)
    ensures StepRecords(h', planId, owners, steps, i, tagged, now) == StepRecords(h, planId, owners, steps, i, tagged, now)
    ensures forall j | i <= j < |steps| :: StepAnswer(h', owners, steps, j) == StepAnswer(h, owners, steps, j)
    ensures StepAnswers(h', owners, steps, i) == StepAnswers(h, owners, steps, i)
  {
    AnswersRoster(h, h', owners, steps);
    var a, a' := StepAnswers(h, owners, steps, i), StepAnswers(h', owners, steps, i);
    forall k | 0 <= k < |a| ensures a'[k] == a[k] {
      assert a'[(k + i) - i] == StepAnswer(h', owners, steps, k + i);
    }
    NotesRoster(h, h', planId, owners, steps, i);
    TrailsRoster(h, h', owners, steps, i);
    RecordsRoster(h, h', planId, owners, steps, i, tagged, now);
  }

  lemma AnswersRoster(h: Hub, h': Hub, owners: seq<Option<string>>, steps: seq<string>)
    requires Consistent(h) && Consistent(h') && SameRoster(h, h') && |owners| == |steps|
    ensures forall j | 0 <= j < |steps| :: StepAnswer(h', owners, steps, j) == StepAnswer(h, owners, steps, j)
  {
    forall j | 0 <= j < |steps| ensures StepAnswer(h', owners, steps, j) == StepAnswer(h, owners, steps, j) {
      if owners[j].Some? {
        AnswerRoster(h, h', "system", owners[j].value, StepMessage(j, |steps|, steps[j]));
      }
    }
  }

  lemma {:induction false} NotesRoster(h: Hub, h': Hub, planId: string, owners: seq<Option<string>>, steps: seq<string>, i: nat)
    requires Consistent(h) && Consistent(h') && SameRoster(h, h') && |owners| == |steps| && i <= |steps|
    requires forall j | 0 <= j < |steps| :: StepAnswer(h', owners, steps, j) == StepAnswer(h, owners, steps, j)
    ensures StepNotes(h', planId, owners, steps, i) == StepNotes(h, planId, owners, steps, i)
    decreases |steps| - i
  {
    if i < |steps| {
      NotesRoster(h, h', planId, owners, steps, i + 1);
    }
  }

  lemma {:induction false} TrailsRoster(h: Hub, h': Hub, owners: seq<Option<string>>, steps: seq<string>, i: nat)
    requires Consistent(h) && Consistent(h') && SameRoster(h, h') && |owners| == |steps| && i <= |steps|
    ensures StepTrails(h', owners, steps, i) == StepTrails(h, owners, steps, i)
    decreases |steps| - i
  {
    if i < |steps| {
      TrailsRoster(h, h', owners, steps, i + 1);
      if owners[i].Some? {
        AnswerRoster(h, h', "system", owners[i].value, StepMessage(i, |steps|, steps[i]));
      }
    }
  }

  lemma {:induction false} RecordsRoster(h: Hub, h': Hub, planId: string, owners: seq<Option<string>>, steps: seq<string>,
                                         i: nat, tagged: bool, now: nat)
    requires Consistent(h) && Consistent(h') && SameRoster(h, h') && |owners| == |steps| && i <= |steps|
    requires forall j | 0 <= j < |steps| :: StepAnswer(h', owners, steps, j) == StepAnswer(h, owners, steps, j)
    ensures StepRecords(h', planId, owners, steps, i, tagged, now) == StepRecords(h, planId, owners, steps, i, tagged, now)
    decreases |steps| - i
  {
    if i < |steps| {
      RecordsRoster(h, h', planId, owners, steps, i + 1, tagged, now);
    }
  }

  /** Step `i`'s answer followed by the answers of steps `i + 1..` are the answers of steps `i..`. */
  lemma AnswersCons(h: Hub, owners: seq<Option<string>>, steps: seq<string>, i: nat, answer: string, rest: seq<string>)
    requires Consistent(h) && |owners| == |steps| && i < |steps|
    requires answer == StepAnswer(h, owners, steps, i)
    requires |rest| == |steps| - (i + 1) && forall j | i + 1 <= j < |steps| :: rest[j - (i + 1)] == StepAnswer(h, owners, steps, j)
    ensures forall j | i <= j < |steps| :: ([answer] + rest)[j - i] == StepAnswer(h, owners, steps, j)
  {
    forall j | i <= j < |steps| ensures ([answer] + rest)[j - i] == StepAnswer(h, owners, steps, j) {
      if j > i {
        assert ([answer] + rest)[j - i] == rest[j - (i + 1)];
      }
    }
  }

  /** The answers of steps `i..`, in order. */
  function StepAnswers(h: Hub, owners: seq<Option<string>>, steps: seq<string>, i: nat): (answers: seq<string>)
    requires Consistent(h) && |owners| == |steps| && i <= |steps|
    ensures |answers| == |steps| - i && forall j | i <= j < |steps| :: answers[j - i] == StepAnswer(h, owners, steps, j)
    decreases |steps| - i
  {
    if i == |steps| then []
    else
      var rest := StepAnswers(h, owners, steps, i + 1);
      AnswersCons(h, owners, steps, i, StepAnswer(h, owners, steps, i), rest);
      [StepAnswer(h, owners, steps, i)] + rest
  }

  /** Every step of a one-agent run is answered by that agent. */
  lemma EveryoneAnswers(h: Hub, a: string, steps: seq<string>)
    requires Consistent(h)
    ensures forall i | 0 <= i < |steps| ::
      StepAnswers(h, Everyone(a, |steps|), steps, 0)[i] == Answer(h, "system", a, StepMessage(i, |steps|, steps[i]))
  {
    var answers := StepAnswers(h, Everyone(a, |steps|), steps, 0);
    forall i | 0 <= i < |steps| ensures answers[i] == Answer(h, "system", a, StepMessage(i, |steps|, steps[i])) {
      assert answers[i - 0] == StepAnswer(h, Everyone(a, |steps|), steps, i);
    }
  }

  /**
   * The results of a collaborative run: one per step, the assigned agent's
   * answer to the step message, or the fixed text for a step nobody owns.
   */
  predicate AnsweredAsAssigned(h: Hub, assignments: map<int, string>, steps: seq<string>, results: seq<string>)
    requires Consistent(h)
  {
    && |results| == |steps|
    && (forall i | 0 <= i < |steps| :: i !in assignments ==> results[i] == Unassigned(i))
    && (forall i | 0 <= i < |steps| :: i in assignments ==> results[i] == Answer(h, "system", assignments[i], StepMessage(i, |steps|, steps[i])))
  }

  lemma OwnersAnswers(h: Hub, assignments: map<int, string>, steps: seq<string>)
    requires Consistent(h)
    ensures AnsweredAsAssigned(h, assignments, steps, StepAnswers(h, Owners(assignments, |steps|), steps, 0))
  {
    var answers := StepAnswers(h, Owners(assignments, |steps|), steps, 0);
    forall i | 0 <= i < |steps| ensures answers[i] == StepAnswer(h, Owners(assignments, |steps|), steps, i) {
      assert answers[i - 0] == StepAnswer(h, Owners(assignments, |steps|), steps, i);
    }
  }

  /** Run steps `i..` in order, each through its own agent. */
  function RunSteps(h: Hub, planId: string, owners: seq<Option<string>>, steps: seq<string>, i: nat, tagged: bool, now: nat)
    : (r: (seq<string>, seq<StepRecord>, Hub))
    requires Consistent(h) && |owners| == |steps| && i <= |steps|
    ensures Consistent(r.2) && SameRoster(h, r.2)
    ensures r.0 == StepAnswers(h, owners, steps, i)
    ensures r.1 == StepRecords(h, planId, owners, steps, i, tagged, now)
    ensures Noted(h.db.planning, r.2.db.planning, StepNotes(h, planId, owners, steps, i), now)
    ensures Logged(h.db.conversations, r.2.db.conversations, StepTrails(h, owners, steps, i), now)
    decreases |steps| - i
  {
    if i == |steps| then
      assert h.db.planning[..|h.db.planning|] == h.db.planning;
      assert h.db.conversations[..|h.db.conversations|] == h.db.conversations;
      ([], [], h)
    else if owners[i].None? then
      var rest := RunSteps(h, planId, owners, steps, i + 1, tagged, now);
      assert [] + StepNotes(h, planId, owners, steps, i + 1) == StepNotes(h, planId, owners, steps, i + 1);
      assert [] + StepTrails(h, owners, steps, i + 1) == StepTrails(h, owners, steps, i + 1);
      assert [] + StepRecords(h, planId, owners, steps, i + 1, tagged, now) == StepRecords(h, planId, owners, steps, i + 1, tagged, now);
      ([Unassigned(i)] + rest.0, rest.1, rest.2)
    else
      var a := owners[i].value;
      var (answer, h1) := Stage(h, a, StepMessage(i, |steps|, steps[i]), StepStart(planId, i, a, steps[i]), StepId(planId, i), "step_result", now);
      var rest := RunSteps(h1, planId, owners, steps, i + 1, tagged, now);
      StepsRoster(h, h1, planId, owners, steps, i + 1, tagged, now);
      NotedChain(h.db.planning, h1.db.planning, rest.2.db.planning,
                 [StepStart(planId, i, a, steps[i]), Note(StepId(planId, i), Some(a), "step_result", answer, "completed")],
                 StepNotes(h, planId, owners, steps, i + 1), now);
      LoggedChain(h.db.conversations, h1.db.conversations, rest.2.db.conversations,
                  Trail(h, "system", a, StepMessage(i, |steps|, steps[i])), StepTrails(h, owners, steps, i + 1), now);
      SameRosterChain(h, h1, rest.2);
      ([answer] + rest.0,
       [StepRecord(StepId(planId, i), steps[i], if tagged then owners[i] else None, answer, now)] + rest.1,
       rest.2)
  }

  /** Each step has its own two planning rows. */
  lemma {:induction false} StepNotesCount(h: Hub, planId: string, owners: seq<Option<string>>, steps: seq<string>, i: nat)
    requires Consistent(h) && |owners| == |steps| && i <= |steps|
    ensures |StepNotes(h, planId, owners, steps, i)| == 2 * Owned(owners, i)
    decreases |steps| - i
  {
    if i < |steps| {
      StepNotesCount(h, planId, owners, steps, i + 1);
    }
  }

  function Everyone(agent: string, n: nat): (owners: seq<Option<string>>)
    ensures |owners| == n && forall i | 0 <= i < n :: owners[i] == Some(agent)
  {
    seq(n, i => Some(agent))
  }

  lemma {:induction false} EveryoneOwned(agent: string, n: nat, i: nat)
    requires i <= n
    ensures Owned(Everyone(agent, n), i) == n - i
    decreases n - i
  {
    if i < n {
      EveryoneOwned(agent, n, i + 1);
    }
  }

  // ---------------------------------------------------------------- execute_plan_steps

  function CountText(prefix: string, n: nat): string {
    prefix + " " + NatToString(n) + " steps"
  }

  /** The row a step-wise run of `n` steps writes before its steps. */
  function StepsStart(planId: string, agent: string, n: nat): Note {
    Note(planId, Some(agent), "execution_start", CountText("Starting execution of plan with", n), "in_progress")
  }

  /** The row a step-wise run of `n` steps writes after its steps. */
  function StepsEnd(planId: string, agent: string, n: nat): Note {
    Note(planId, Some(agent), "execution_complete", CountText("Completed execution of plan with", n), "completed")
  }

  /** The row a collaborative run of `n` steps writes before its steps, as "system". */
  function CollaborationStart(planId: string, n: nat): Note {
    Note(planId, Some("system"), "collaborative_execution_start", CountText("Starting collaborative execution of plan with", n), "in_progress")
  }

  /** The row a collaborative run of `n` steps writes after its steps, as "system". */
  function CollaborationEnd(planId: string, n: nat): Note {
    Note(planId, Some("system"), "collaborative_execution_complete", CountText("Completed collaborative execution of plan with", n), "completed")
  }

  /**
   * `execute_plan_steps`: with no agent, a one-element list whatever the
   * steps and nothing written; otherwise the run of the steps by the agent
   * found.
   */
  function ExecutePlanSteps(ex: Executions, h: Hub, planId: string, steps: seq<string>, given: Option<string>, now: nat)
    : (r: (seq<string>, Executions, Hub))
    requires ex.Valid() && Consistent(h)
    ensures r.1.Valid() && Consistent(r.2) && SameRoster(h, r.2)
    ensures PickAgent(h.agents, given).None? ==> r == ([NoAgent], ex, h)
    ensures PickAgent(h.agents, given).Some? ==> r == StepsBy(ex, h, planId, steps, PickAgent(h.agents, given).value, now)
  {
    match PickAgent(h.agents, given)
    case None => ([NoAgent], ex, h)
    case Some(a) => StepsBy(ex, h, planId, steps, a, now)
  }

  /**
   * The steps of a plan run by one agent: every step goes to it, in order,
   * between a start row and a completion row, one answer per step comes
   * back, and the run is recorded under this second's key.
   */
  function StepsBy(ex: Executions, h: Hub, planId: string, steps: seq<string>, a: string, now: nat)
    : (r: (seq<string>, Executions, Hub))
    requires ex.Valid() && Consistent(h)
    ensures r.1.Valid() && Consistent(r.2) && SameRoster(h, r.2)
    ensures |r.0| == |steps|
    ensures forall i | 0 <= i < |steps| :: r.0[i] == Answer(h, "system", a, StepMessage(i, |steps|, steps[i]))
    ensures r.1.Get(ExecutionId(now)) == Some(Run(planId, Some(a), "completed",
              Some(StepRecords(h, planId, Everyone(a, |steps|), steps, 0, false, now)), None, now, Some(now)))
    ensures forall k :: k != ExecutionId(now) ==> r.1.Get(k) == ex.Get(k)
    ensures Noted(h.db.planning, r.2.db.planning,
              [StepsStart(planId, a, |steps|)]
              + StepNotes(h, planId, Everyone(a, |steps|), steps, 0)
              + [StepsEnd(planId, a, |steps|)], now)
    ensures Logged(h.db.conversations, r.2.db.conversations, StepTrails(h, Everyone(a, |steps|), steps, 0), now)
  {
    var first, last := StepsStart(planId, a, |steps|), StepsEnd(planId, a, |steps|);
    var (results, records, h2) := Framed(h, planId, Everyone(a, |steps|), steps, first, last, false, now);
    EveryoneAnswers(h, a, steps);
    var e := Run(planId, Some(a), "completed", Some(records), None, now, Some(now));
    PutValid(ex, ExecutionId(now), e);
    (results, ex.Put(ExecutionId(now), e), h2)
  }

  /** The steps between an opening and a closing planning row. */
  function Framed(h: Hub, planId: string, owners: seq<Option<string>>, steps: seq<string>, first: Note, last: Note, tagged: bool, now: nat)
    : (r: (seq<string>, seq<StepRecord>, Hub))
    requires Consistent(h) && |owners| == |steps|
    ensures Consistent(r.2) && SameRoster(h, r.2)
    ensures r.0 == StepAnswers(h, owners, steps, 0)
    ensures r.1 == StepRecords(h, planId, owners, steps, 0, tagged, now)
    ensures Noted(h.db.planning, r.2.db.planning, [first] + StepNotes(h, planId, owners, steps, 0) + [last], now)
    ensures Logged(h.db.conversations, r.2.db.conversations, StepTrails(h, owners, steps, 0), now)
  {
    var h1 := h.(db := Record(h.db, first, now));
    var (results, records, h2) := RunSteps(h1, planId, owners, steps, 0, tagged, now);
    StepsRoster(h, h1, planId, owners, steps, 0, tagged, now);
    var h3 := h2.(db := Record(h2.db, last, now));
    NotedChain(h.db.planning, h1.db.planning, h2.db.planning, [first], StepNotes(h, planId, owners, steps, 0), now);
    NotedChain(h.db.planning, h2.db.planning, h3.db.planning, [first] + StepNotes(h, planId, owners, steps, 0), [last], now);
    assert h.db.conversations == h1.db.conversations;
    (results, records, h3)
  }

  /** A step-wise run writes a start row, two rows per step and a completion row. */
  lemma PlanStepsRows(ex: Executions, h: Hub, planId: string, steps: seq<string>, given: Option<string>, now: nat)
    requires ex.Valid() && Consistent(h) && PickAgent(h.agents, given).Some?
    ensures |ExecutePlanSteps(ex, h, planId, steps, given, now).2.db.planning| == |h.db.planning| + 2 + 2 * |steps|
  {
    var a := PickAgent(h.agents, given).value;
    StepNotesCount(h, planId, Everyone(a, |steps|), steps, 0);
    EveryoneOwned(a, |steps|, 0);
  }

  // ---------------------------------------------------------------- execute_collaborative_plan

  /** `agent_assignments.get(i)` for each step. */
  function Owners(assignments: map<int, string>, n: nat): (owners: seq<Option<string>>)
    ensures |owners| == n
    ensures forall i | 0 <= i < n :: owners[i] == if i in assignments then Some(assignments[i]) else None
  {
    seq(n, i => if i in assignments then Some(assignments[i]) else None)
  }

  /**
   * `execute_collaborative_plan`: one result per step, in order; a step with
   * no agent gets a fixed text and causes no message and no rows, the
   * others go to their own agents. The framing rows are the system's.
   */
  function ExecuteCollaborativePlan(ex: Executions, h: Hub, planId: string, steps: seq<string>, assignments: map<int, string>, now: nat)
    : (r: (seq<string>, Executions, Hub))
    requires ex.Valid() && Consistent(h)
    ensures r.1.Valid() && Consistent(r.2) && SameRoster(h, r.2)
    ensures AnsweredAsAssigned(h, assignments, steps, r.0)
    ensures r.1.Get(ExecutionId(now)) == Some(Run(planId, None, "completed",
              Some(StepRecords(h, planId, Owners(assignments, |steps|), steps, 0, true, now)), None, now, Some(now)))
    ensures forall k :: k != ExecutionId(now) ==> r.1.Get(k) == ex.Get(k)
    ensures Noted(h.db.planning, r.2.db.planning,
              [CollaborationStart(planId, |steps|)]
              + StepNotes(h, planId, Owners(assignments, |steps|), steps, 0)
              + [CollaborationEnd(planId, |steps|)], now)
    ensures Logged(h.db.conversations, r.2.db.conversations, StepTrails(h, Owners(assignments, |steps|), steps, 0), now)
  {
    var first, last := CollaborationStart(planId, |steps|), CollaborationEnd(planId, |steps|);
    var framed := Framed(h, planId, Owners(assignments, |steps|), steps, first, last, true, now);
    OwnersAnswers(h, assignments, steps);
    var e := Run(planId, None, "completed", Some(framed.1), None, now, Some(now));
    PutValid(ex, ExecutionId(now), e);
    (framed.0, ex.Put(ExecutionId(now), e), framed.2)
  }

  /** A collaborative run writes its two framing rows and two rows per step that has an agent. */
  lemma CollaborativeRows(ex: Executions, h: Hub, planId: string, steps: seq<string>, assignments: map<int, string>, now: nat)
    requires ex.Valid() && Consistent(h)
    ensures |ExecuteCollaborativePlan(ex, h, planId, steps, assignments, now).2.db.planning|
            == |h.db.planning| + 2 + 2 * Owned(Owners(assignments, |steps|), 0)
  {
    StepNotesCount(h, planId, Owners(assignments, |steps|), steps, 0);
  }

  // ---------------------------------------------------------------- queries

  /** The executions whose key is among `ks` and whose record satisfies `p`, in order. */
  function Matching(ex: Executions, ks: seq<string>, p: Run -> bool): (r: seq<Run>)
    requires forall k <- ks :: k in ex.m
    ensures forall e <- r :: p(e) && exists k <- ks :: ex.m[k] == e
    ensures forall k <- ks :: p(ex.m[k]) ==> ex.m[k] in r
  {
    if |ks| == 0 then []
    else
      var rest := Matching(ex, ks[1..], p);
      assert forall k <- ks :: k == ks[0] || k in ks[1..];
      if p(ex.m[ks[0]]) then [ex.m[ks[0]]] + rest else rest
  }

  function OfPlan(planId: string): Run -> bool {
    (e: Run) => e.planId == planId
  }

  /** `get_plan_executions`: exactly the executions of the plan. */
  function PlanExecutions(ex: Executions, planId: string): (r: seq<Run>)
    requires ex.Valid()
    ensures forall e <- r :: e.planId == planId && exists k <- ex.m :: ex.m[k] == e
    ensures forall k <- ex.m :: ex.m[k].planId == planId ==> ex.m[k] in r
  {
    Matching(ex, ex.keys, OfPlan(planId))
  }

  /** `execution.get("agent_id") == agent_id`: a record without an agent matches only `None`. */
  function OfAgent(agentId: Option<string>): Run -> bool {
    (e: Run) => e.agent == agentId
  }

  /**
   * `get_agent_executions`: exactly the executions whose agent is the one
   * asked for; asking for `None` lists the collaborative runs, which record
   * no agent.
   */
  function AgentExecutions(ex: Executions, agentId: Option<string>): (r: seq<Run>)
    requires ex.Valid()
    ensures forall e <- r :: e.agent == agentId && exists k <- ex.m :: ex.m[k] == e
    ensures forall k <- ex.m :: ex.m[k].agent == agentId ==> ex.m[k] in r
  {
    Matching(ex, ex.keys, OfAgent(agentId))
  }

  /** A plan executed step-wise is listed among the plan's executions and the agent's. */
  lemma ExecutedThenListed(ex: Executions, h: Hub, planId: string, steps: seq<string>, given: Option<string>, now: nat)
    requires ex.Valid() && Consistent(h) && PickAgent(h.agents, given).Some?
    ensures var ex' := ExecutePlanSteps(ex, h, planId, steps, given, now).1;
            && ex'.m[ExecutionId(now)] in PlanExecutions(ex', planId)
            && ex'.m[ExecutionId(now)] in AgentExecutions(ex', PickAgent(h.agents, given))
  {
  }
}

=== FILE: factory.dfy ===
/**
 * `AgentFactory` of app/agents/agent_factory.py: builds agents by type
 * name, files them by id in creation order, deletes them, and builds whole
 * teams. Ids the factory has to invent come from `agent_` plus eight hex
 * digits handed in by the caller.
 */
module Factory {
  import opened Wrappers
  import opened Text
  import opened Dicts
  import opened Agents

  /** `AgentFactory.agents`: each agent under the id it was filed with, in creation order. */
  type Registry = Dict<string, Agent>

  predicate Filed(f: Registry) {
    f.Valid() && forall k <- f.m :: WellFormed(f.m[k])
  }

  /** The constructor keywords beyond id and name: `expertise` for research agents, `skills` for execution agents. */
  datatype Extras = Extras(expertise: Option<seq<string>>, skills: Option<seq<string>>)

  const NoExtras := Extras(None, None)

  /** The type names `create_agent` accepts. */
  const Supported: seq<string> := ["base", "research", "planning", "execution", "critic"]

  predicate Known(t: string) {
    t in Supported
  }

  /** The agent is of the type named `t`: the base class for "base", otherwise the class whose `agent_type` is `t`. */
  predicate OfType(a: Agent, t: string) {
    if t == "base" then a.kind.Base? else TypeName(a.kind) == Some(t)
  }

  /** The class `create_agent` instantiates for the type name, if it knows one. */
  function ClassFor(t: string, x: Extras): Option<Blueprint> {
    if t == "base" then Some(BaseAgent)
    else if t == "research" then Some(ResearchAgent(x.expertise))
    else if t == "planning" then Some(PlanningAgent)
    else if t == "execution" then Some(ExecutionAgent(x.skills))
    else if t == "critic" then Some(CriticAgent)
    else None
  }

  /** The key an agent is filed under: the given id, even an empty one, else a fresh `agent_` id. */
  function FiledUnder(agentId: Option<string>, hex8: string): string {
    if agentId.Some? then agentId.value else "agent_" + hex8
  }

  /**
   * `create_agent`: an unknown type name raises ValueError and files
   * nothing; otherwise the new agent is filed under its key, replacing any
   * agent filed there before. An empty given id is kept as the key while the
   * constructor draws the agent's own id from `inner8`.
   */
  function CreateAgent(f: Registry, t: string, agentId: Option<string>, name: Option<string>, x: Extras,
                       hex8: string, inner8: string, now: nat): (r: (Result<Agent>, Registry))
    requires Filed(f) && IsHex8(hex8) && IsHex8(inner8)
    ensures Filed(r.1)
    ensures r.0.Ok? <==> Known(t)
    ensures !Known(t) ==> r == (Raise("ValueError"), f)
    ensures Known(t) ==>
      var a, key := r.0.value, FiledUnder(agentId, hex8);
      && r.1.Get(key) == Some(a)
      && (forall k :: k != key ==> r.1.Get(k) == f.Get(k))
      && (key !in f.m ==> r.1.keys == f.keys + [key])
      && (key != "" ==> a.id == key)
      && (key == "" ==> a.id == "agent_" + inner8)
      && OfType(a, t)
      && (Given(name) ==> a.name == name.value)
      && a.cache.m == map[] && a.createdAt == now
  {
    match ClassFor(t, x)
    case None => (Raise("ValueError"), f)
    case Some(b) =>
      var key := FiledUnder(agentId, hex8);
      var a := NewAgent(b, Some(key), name, inner8, now);
      PutValid(f, key, a);
      (Ok(a), f.Put(key, a))
  }

  /** `delete_agent`: true exactly when the id was filed; only that entry goes. */
  function DeleteAgent(f: Registry, id: string): (r: (bool, Registry))
    requires Filed(f)
    ensures Filed(r.1)
    ensures r.0 <==> id in f.m
    ensures r.1.Get(id) == None
    ensures forall k :: k != id ==> r.1.Get(k) == f.Get(k)
    ensures r.1.keys == Without(f.keys, id)
  {
    RemoveValid(f, id);
    if id in f.m then (true, f.Remove(id))
    else
      WithoutAbsent(f.keys, id);
      (false, f)
  }

  /** Deleting an agent just created under a fresh key gives back the factory as it was. */
  lemma CreateThenDelete(f: Registry, t: string, agentId: Option<string>, name: Option<string>, x: Extras,
                         hex8: string, inner8: string, now: nat)
    requires Filed(f) && IsHex8(hex8) && IsHex8(inner8)
    requires Known(t) && FiledUnder(agentId, hex8) !in f.m
    ensures DeleteAgent(CreateAgent(f, t, agentId, name, x, hex8, inner8, now).1, FiledUnder(agentId, hex8)) == (true, f)
  {
    var key := FiledUnder(agentId, hex8);
    var f1 := CreateAgent(f, t, agentId, name, x, hex8, inner8, now).1;
    WithoutLast(f.keys, key);
    assert f1.m - {key} == f.m;
  }

  // ---------------------------------------------------------------- teams

  /** The name a team member gets: "{team} {Type} Agent". */
  function TeamName(team: string, t: string): string {
    team + " " + Capitalize(t) + " Agent"
  }

  /** The types of the default team. */
  const DefaultTypes: seq<string> := ["research", "planning", "execution", "critic"]

  /** The ids the factory invents for the members, one per fresh hex string. */
  function Ids(hexes: seq<string>): (ids: seq<string>)
    ensures |ids| == |hexes| && forall i | 0 <= i < |hexes| :: ids[i] == "agent_" + hexes[i]
  {
    seq(|hexes|, i requires 0 <= i < |hexes| => "agent_" + hexes[i])
  }

  /** Every entry names a supported type. */
  predicate AllSupported(entries: seq<(string, Extras)>) {
    |entries| == 0 || (AllSupported(entries[..|entries| - 1]) && Known(entries[|entries| - 1].0))
  }

  lemma {:induction false} AllSupportedMeans(entries: seq<(string, Extras)>)
    ensures AllSupported(entries) <==> forall i | 0 <= i < |entries| :: Known(entries[i].0)
  {
    if |entries| > 0 {
      var n := |entries| - 1;
      AllSupportedMeans(entries[..n]);
      assert forall i | 0 <= i < n :: entries[..n][i] == entries[i];
    }
  }

  /**
   * The loop of `create_team` and `create_specialized_team`: one member per
   * `(type, extras)` entry, in order, each filed and added to the team under
   * its id. An unsupported type raises ValueError there, keeping the members
   * already filed.
   */
  function Build(f: Registry, team: string, entries: seq<(string, Extras)>, hexes: seq<string>, now: nat)
    : (r: (Result<Dict<string, Agent>>, Registry))
    requires Filed(f) && |hexes| == |entries| && forall h <- hexes :: IsHex8(h)
    ensures Filed(r.1)
    ensures r.0.Ok? <==> AllSupported(entries)
    ensures r.0.Raise? ==> r.0.error == "ValueError"
    ensures r.0.Ok? ==> r.0.value.Valid() && forall k <- r.0.value.m :: r.1.Get(k) == Some(r.0.value.m[k])
    decreases |entries|
  {
    if |entries| == 0 then (Ok(Empty()), f)
    else
      var n := |entries| - 1;
      assert forall h <- hexes[..n] :: h in hexes;
      var (done, f1) := Build(f, team, entries[..n], hexes[..n], now);
      if done.Raise? then (done, f1)
      else Enlist(f1, done.value, team, entries[n].0, entries[n].1, hexes[n], now)
  }

  /** One pass of the team loop: build the member of type `t`, file it, and add it to the team. */
  function Enlist(f: Registry, done: Dict<string, Agent>, team: string, t: string, x: Extras, hex8: string, now: nat)
    : (r: (Result<Dict<string, Agent>>, Registry))
    requires Filed(f) && done.Valid() && IsHex8(hex8)
    requires forall k <- done.m :: f.Get(k) == Some(done.m[k])
    ensures Filed(r.1)
    ensures r.0.Ok? <==> Known(t)
    ensures r.0.Raise? ==> r.0.error == "ValueError"
    ensures r.0.Ok? ==> r.0.value.Valid() && forall k <- r.0.value.m :: r.1.Get(k) == Some(r.0.value.m[k])
    ensures r.0.Ok? ==>
      var key := "agent_" + hex8;
      && key in r.0.value.m && r.0.value.m == done.m[key := r.0.value.m[key]]
      && (key !in done.m ==> r.0.value.keys == done.keys + [key])
      && (key !in f.m ==> r.1.keys == f.keys + [key])
      && r.0.value.m[key].name == TeamName(team, t)
      && OfType(r.0.value.m[key], t)
  {
    var (made, f') := CreateAgent(f, t, None, Some(TeamName(team, t)), x, hex8, hex8, now);
    if made.Raise? then (Raise(made.error), f')
    else
      PutValid(done, made.value.id, made.value);
      (Ok(done.Put(made.value.id, made.value)), f')
  }

  /** Fresh distinct hex strings give distinct ids none of which is filed yet. */
  predicate Fresh(f: Registry, hexes: seq<string>) {
    Distinct(hexes) && forall h <- hexes :: "agent_" + h !in f.m
  }

  lemma IdsInjective(a: string, b: string)
    requires "agent_" + a == "agent_" + b
    ensures a == b
  {
    assert ("agent_" + a)[6..] == a;
    assert ("agent_" + b)[6..] == b;
  }

  lemma IdsSnoc(hexes: seq<string>)
    requires |hexes| > 0
    ensures Ids(hexes) == Ids(hexes[..|hexes| - 1]) + ["agent_" + hexes[|hexes| - 1]]
  {
  }

  /** `d` holds member `i` under the `i`-th invented id, named after the team and of the `i`-th type, and nothing else. */
  predicate Roster(d: Dict<string, Agent>, team: string, entries: seq<(string, Extras)>, hexes: seq<string>)
    requires |hexes| == |entries|
  {
    d.keys == Ids(hexes) && Lists(d, team, entries, Ids(hexes))
  }

  /** `d` holds member `i` under `ids[i]`, named after the team and of the `i`-th type. */
  predicate Lists(d: Dict<string, Agent>, team: string, entries: seq<(string, Extras)>, ids: seq<string>)
    requires |ids| == |entries|
  {
    forall i | 0 <= i < |entries| :: ids[i] in d.m && Fills(d.m[ids[i]], team, entries[i].0)
  }

  /** A member of type `t` named after the team. */
  predicate Fills(a: Agent, team: string, t: string) {
    a.name == TeamName(team, t) && OfType(a, t)
  }

  /** The `i`-th new id differs from every earlier one. */
  lemma FreshKey(f: Registry, hexes: seq<string>)
    requires |hexes| > 0 && Fresh(f, hexes)
    ensures var n := |hexes| - 1;
      && "agent_" + hexes[n] !in Ids(hexes[..n]) && "agent_" + hexes[n] !in f.m
      && Fresh(f, hexes[..n])
  {
    var n := |hexes| - 1;
    var pre := hexes[..n];
    assert forall i | 0 <= i < n :: pre[i] == hexes[i];
    forall i | 0 <= i < n ensures Ids(pre)[i] != "agent_" + hexes[n] {
      if Ids(pre)[i] == "agent_" + hexes[n] {
        IdsInjective(pre[i], hexes[n]);
      }
    }
    assert hexes[n] in hexes;
  }

  lemma Associative<T>(a: seq<T>, b: seq<T>, c: seq<T>)
    ensures a + b + c == a + (b + c)
  {
  }

  /** With fresh ids, a team that builds leaves the factory listing the new ids last. */
  lemma {:induction false} BuildFiles(f: Registry, team: string, entries: seq<(string, Extras)>, hexes: seq<string>, now: nat)
    requires Filed(f) && |hexes| == |entries| && forall h <- hexes :: IsHex8(h)
    requires Fresh(f, hexes)
    requires forall i | 0 <= i < |entries| :: Known(entries[i].0)
    ensures Build(f, team, entries, hexes, now).1.keys == f.keys + Ids(hexes)
    decreases |entries|
  {
    AllSupportedMeans(entries);
    if |entries| > 0 {
      var n := |entries| - 1;
      var pre := hexes[..n];
      assert forall h <- pre :: h in hexes;
      FreshKey(f, hexes);
      BuildFiles(f, team, entries[..n], pre, now);
      var (done, f1) := Build(f, team, entries[..n], pre, now);
      var key := "agent_" + hexes[n];
      assert key !in f1.m;
      assert Build(f, team, entries, hexes, now) == Enlist(f1, done.value, team, entries[n].0, entries[n].1, hexes[n], now);
      assert Build(f, team, entries, hexes, now).1.keys == f1.keys + [key];
      IdsSnoc(hexes);
      Associative(f.keys, Ids(pre), [key]);
    }
  }

  /** With fresh ids, a team that builds has one member per entry, in order. */
  lemma {:induction false} BuildMembers(f: Registry, team: string, entries: seq<(string, Extras)>, hexes: seq<string>, now: nat)
    requires Filed(f) && |hexes| == |entries| && forall h <- hexes :: IsHex8(h)
    requires Fresh(f, hexes)
    requires forall i | 0 <= i < |entries| :: Known(entries[i].0)
    ensures Build(f, team, entries, hexes, now).0.Ok?
    ensures Roster(Build(f, team, entries, hexes, now).0.value, team, entries, hexes)
    decreases |entries|
  {
    if |entries| > 0 {
      var n := |entries| - 1;
      var pre := hexes[..n];
      assert forall h <- pre :: h in hexes;
      FreshKey(f, hexes);
      assert forall i | 0 <= i < n :: entries[..n][i] == entries[i];
      BuildMembers(f, team, entries[..n], pre, now);
      var done := Build(f, team, entries[..n], pre, now).0.value;
      assert "agent_" + hexes[n] !in done.m by {
        assert done.keys == Ids(pre);
        assert done.Valid();
      }
      BuildExtends(f, team, entries, hexes, now);
    } else {
      assert Ids(hexes) == [];
    }
  }

  /** A team whose first members form their roster grows by one member under the next new id. */
  lemma BuildExtends(f: Registry, team: string, entries: seq<(string, Extras)>, hexes: seq<string>, now: nat)
    requires Filed(f) && |hexes| == |entries| > 0 && forall h <- hexes :: IsHex8(h)
    requires forall i | 0 <= i < |entries| :: Known(entries[i].0)
    requires var n := |entries| - 1;
      var prior := Build(f, team, entries[..n], hexes[..n], now);
      && prior.0.Ok? && Roster(prior.0.value, team, entries[..n], hexes[..n])
      && "agent_" + hexes[n] !in prior.0.value.m
    ensures Build(f, team, entries, hexes, now).0.Ok?
    ensures Roster(Build(f, team, entries, hexes, now).0.value, team, entries, hexes)
  {
    var n := |entries| - 1;
    var pre := hexes[..n];
    var key := "agent_" + hexes[n];
    assert Ids(hexes) == Ids(pre) + [key] by {
      IdsSnoc(hexes);
    }
    assert forall h <- pre :: h in hexes;
    var prior := Build(f, team, entries[..n], pre, now);
    var done := prior.0.value;
    var whole := Enlist(prior.1, done, team, entries[n].0, entries[n].1, hexes[n], now);
    assert Build(f, team, entries, hexes, now) == whole by {
      BuildSnoc(f, team, entries, hexes, now);
    }
    EnlistAdds(prior.1, done, team, entries[n].0, entries[n].1, hexes[n], now);
    var r := whole.0.value;
    assert Lists(r, team, entries, Ids(hexes)) by {
      ListsSnoc(done, r, team, entries, Ids(pre), key);
    }
    assert r.keys == Ids(hexes) by {
      assert r.keys == done.keys + [key];
      assert done.keys == Ids(pre);
    }
  }

  /** A pass that builds adds its member under the new id and keeps the others. */
  lemma EnlistAdds(f: Registry, done: Dict<string, Agent>, team: string, t: string, x: Extras, hex8: string, now: nat)
    requires Filed(f) && done.Valid() && IsHex8(hex8)
    requires forall k <- done.m :: f.Get(k) == Some(done.m[k])
    requires Known(t) && "agent_" + hex8 !in done.m
    ensures Enlist(f, done, team, t, x, hex8, now).0.Ok?
    ensures var r := Enlist(f, done, team, t, x, hex8, now).0.value;
      && "agent_" + hex8 in r.m && (forall k <- done.m :: k in r.m && r.m[k] == done.m[k])
      && r.keys == done.keys + ["agent_" + hex8]
      && Fills(r.m["agent_" + hex8], team, t)
  {
    var r := Enlist(f, done, team, t, x, hex8, now).0.value;
    assert r.m == done.m["agent_" + hex8 := r.m["agent_" + hex8]];
  }

  /** A team that builds is the team of its first members, then one more pass. */
  lemma BuildSnoc(f: Registry, team: string, entries: seq<(string, Extras)>, hexes: seq<string>, now: nat)
    requires Filed(f) && |hexes| == |entries| > 0 && forall h <- hexes :: IsHex8(h)
    requires forall i | 0 <= i < |entries| :: Known(entries[i].0)
    ensures var n := |entries| - 1;
      var prior := Build(f, team, entries[..n], hexes[..n], now);
      && prior.0.Ok?
      && Build(f, team, entries, hexes, now) == Enlist(prior.1, prior.0.value, team, entries[n].0, entries[n].1, hexes[n], now)
  {
    var n := |entries| - 1;
    AllSupportedMeans(entries);
    AllSupportedMeans(entries[..n]);
    assert forall h <- hexes[..n] :: h in hexes;
  }

  lemma ListsSnoc(done: Dict<string, Agent>, r: Dict<string, Agent>, team: string, entries: seq<(string, Extras)>,
                  ids: seq<string>, key: string)
    requires |ids| + 1 == |entries| && Lists(done, team, entries[..|ids|], ids)
    requires key !in done.m && key in r.m && forall k <- done.m :: k in r.m && r.m[k] == done.m[k]
    requires Fills(r.m[key], team, entries[|ids|].0)
    ensures Lists(r, team, entries, ids + [key])
  {
    var n := |ids|;
    forall i | 0 <= i < |entries|
      ensures (ids + [key])[i] in r.m && Fills(r.m[(ids + [key])[i]], team, entries[i].0)
    {
      if i < n {
        assert ids[i] in done.m && Fills(done.m[ids[i]], team, entries[..n][i].0);
        assert entries[..n][i] == entries[i];
        assert r.m[ids[i]] == done.m[ids[i]];
        assert (ids + [key])[i] == ids[i];
      } else {
        assert (ids + [key])[i] == key;
      }
    }
  }

  /** The `(type, extras)` entries of `create_team`: the given types, or the default four, with no extras. */
  function TeamEntries(types: Option<seq<string>>): (entries: seq<(string, Extras)>)
    ensures var ts := if types.Some? then types.value else DefaultTypes;
      |entries| == |ts| && forall i | 0 <= i < |ts| :: entries[i] == (ts[i], NoExtras)
  {
    var ts := if types.Some? then types.value else DefaultTypes;
    seq(|ts|, i requires 0 <= i < |ts| => (ts[i], NoExtras))
  }

  lemma TeamEntriesKnown(types: Option<seq<string>>)
    ensures AllSupported(TeamEntries(types)) <==> types.None? || forall t <- types.value :: Known(t)
  {
    var entries := TeamEntries(types);
    var ts := if types.Some? then types.value else DefaultTypes;
    AllSupportedMeans(entries);
    if forall t <- ts :: Known(t) {
      forall i | 0 <= i < |entries| ensures Known(entries[i].0) {
        assert entries[i].0 == ts[i];
      }
    } else {
      var t :| t in ts && !Known(t);
      var i :| 0 <= i < |ts| && ts[i] == t;
      assert entries[i].0 == t;
    }
    if types.None? {
      assert forall t <- DefaultTypes :: Known(t);
    }
  }

  /** `create_team`: `types` None means the default four; an empty list builds an empty team. */
  function CreateTeam(f: Registry, team: string, types: Option<seq<string>>, hexes: seq<string>, now: nat)
    : (r: (Result<Dict<string, Agent>>, Registry))
    requires Filed(f) && |hexes| == |TeamEntries(types)| && forall h <- hexes :: IsHex8(h)
    ensures Filed(r.1)
    ensures types.None? ==> r.0.Ok?
    ensures types.Some? ==> (r.0.Ok? <==> forall t <- types.value :: Known(t))
  {
    TeamEntriesKnown(types);
    Build(f, team, TeamEntries(types), hexes, now)
  }

  /** The default roster: one research, one planning, one execution and one critic agent, named after the team. */
  predicate DefaultRoster(d: Dict<string, Agent>, team: string, ids: seq<string>)
    requires |ids| == 4
  {
    && d.keys == ids
    && ids[0] in d.m && d.m[ids[0]].kind.Research? && d.m[ids[0]].name == team + " " + "Research" + " Agent"
    && ids[1] in d.m && d.m[ids[1]].kind.Planning? && d.m[ids[1]].name == team + " " + "Planning" + " Agent"
    && ids[2] in d.m && d.m[ids[2]].kind.Execution? && d.m[ids[2]].name == team + " " + "Execution" + " Agent"
    && ids[3] in d.m && d.m[ids[3]].kind.Critic? && d.m[ids[3]].name == team + " " + "Critic" + " Agent"
  }

  lemma TitleResearch() ensures Capitalize("research") == "Research" { assert Lower("esearch") == "esearch"; }
  lemma TitlePlanning() ensures Capitalize("planning") == "Planning" { assert Lower("lanning") == "lanning"; }
  lemma TitleExecution() ensures Capitalize("execution") == "Execution" { assert Lower("xecution") == "xecution"; }
  lemma TitleCritic() ensures Capitalize("critic") == "Critic" { assert Lower("ritic") == "ritic"; }

  lemma Kinds(a: Agent)
    ensures OfType(a, "research") ==> a.kind.Research?
    ensures OfType(a, "planning") ==> a.kind.Planning?
    ensures OfType(a, "execution") ==> a.kind.Execution?
    ensures OfType(a, "critic") ==> a.kind.Critic?
  {
  }

  /** Member `i` of a default team, read off the roster. */
  lemma DefaultMember(d: Dict<string, Agent>, team: string, hexes: seq<string>, i: nat)
    requires |hexes| == 4 && Roster(d, team, TeamEntries(None), hexes) && i < 4
    ensures Ids(hexes)[i] in d.m
    ensures d.m[Ids(hexes)[i]].name == TeamName(team, DefaultTypes[i])
    ensures OfType(d.m[Ids(hexes)[i]], DefaultTypes[i])
  {
    assert TeamEntries(None)[i].0 == DefaultTypes[i];
  }

  lemma DefaultTypesRoster(d: Dict<string, Agent>, team: string, hexes: seq<string>)
    requires |hexes| == 4 && Roster(d, team, TeamEntries(None), hexes)
    ensures DefaultRoster(d, team, Ids(hexes))
  {
    var ids := Ids(hexes);
    TitleResearch();
    TitlePlanning();
    TitleExecution();
    TitleCritic();
    DefaultMember(d, team, hexes, 0);
    DefaultMember(d, team, hexes, 1);
    DefaultMember(d, team, hexes, 2);
    DefaultMember(d, team, hexes, 3);
    Kinds(d.m[ids[0]]);
    Kinds(d.m[ids[1]]);
    Kinds(d.m[ids[2]]);
    Kinds(d.m[ids[3]]);
  }

  /** `create_team` with no types builds the default roster under fresh ids, listed last in the factory. */
  lemma DefaultTeam(f: Registry, team: string, hexes: seq<string>, now: nat)
    requires Filed(f) && |hexes| == 4 && forall h <- hexes :: IsHex8(h)
    requires Fresh(f, hexes)
    ensures var (r, f') := CreateTeam(f, team, None, hexes, now);
      r.Ok? && DefaultRoster(r.value, team, Ids(hexes)) && f'.keys == f.keys + Ids(hexes)
  {
    var entries := TeamEntries(None);
    assert forall i | 0 <= i < |entries| :: Known(entries[i].0) by {
      TeamEntriesKnown(None);
      AllSupportedMeans(entries);
    }
    var res := CreateTeam(f, team, None, hexes, now);
    assert res == Build(f, team, entries, hexes, now);
    assert res.0.Ok? && Roster(res.0.value, team, entries, hexes) by {
      BuildMembers(f, team, entries, hexes, now);
    }
    assert res.1.keys == f.keys + Ids(hexes) by {
      BuildFiles(f, team, entries, hexes, now);
    }
    DefaultTypesRoster(res.0.value, team, hexes);
  }

  /** The entries of `create_specialized_team`: the map's type names in insertion order with their keywords. */
  function SpecEntries(specs: Dict<string, Extras>): (entries: seq<(string, Extras)>)
    requires specs.Valid()
    ensures |entries| == |specs.keys|
    ensures forall i | 0 <= i < |entries| :: entries[i] == (specs.keys[i], specs.m[specs.keys[i]])
  {
    seq(|specs.keys|, i requires 0 <= i < |specs.keys| => (specs.keys[i], specs.m[specs.keys[i]]))
  }

  /** `create_specialized_team`: one member per type name of the map, built with that entry's keywords. */
  function CreateSpecializedTeam(f: Registry, team: string, specs: Dict<string, Extras>, hexes: seq<string>, now: nat)
    : (r: (Result<Dict<string, Agent>>, Registry))
    requires Filed(f) && specs.Valid() && |hexes| == |specs.keys| && forall h <- hexes :: IsHex8(h)
    ensures Filed(r.1)
    ensures r.0.Ok? <==> forall t <- specs.m :: Known(t)
  {
    var entries := SpecEntries(specs);
    AllSupportedMeans(entries);
    assert forall t <- specs.m :: t in specs.keys;
    Build(f, team, entries, hexes, now)
  }

  /** A specialized team that builds has exactly one member per key of the map, of the key's type. */
  lemma SpecializedTeamMembers(f: Registry, team: string, specs: Dict<string, Extras>, hexes: seq<string>, now: nat)
    requires Filed(f) && specs.Valid() && |hexes| == |specs.keys| && forall h <- hexes :: IsHex8(h)
    requires Fresh(f, hexes)
    requires forall t <- specs.m :: Known(t)
    ensures CreateSpecializedTeam(f, team, specs, hexes, now).0.Ok?
    ensures var r := CreateSpecializedTeam(f, team, specs, hexes, now).0.value;
      && r.keys == Ids(hexes)
      && forall i | 0 <= i < |specs.keys| :: Ids(hexes)[i] in r.m && OfType(r.m[Ids(hexes)[i]], specs.keys[i])
  {
    var res := CreateSpecializedTeam(f, team, specs, hexes, now);
    SpecializedBuilds(f, team, specs, hexes, now);
    SpecRoster(res.0.value, team, specs, hexes);
  }

  lemma SpecializedBuilds(f: Registry, team: string, specs: Dict<string, Extras>, hexes: seq<string>, now: nat)
    requires Filed(f) && specs.Valid() && |hexes| == |specs.keys| && forall h <- hexes :: IsHex8(h)
    requires Fresh(f, hexes)
    requires forall t <- specs.m :: Known(t)
    ensures var res := CreateSpecializedTeam(f, team, specs, hexes, now);
      res.0.Ok? && Roster(res.0.value, team, SpecEntries(specs), hexes)
  {
    var entries := SpecEntries(specs);
    assert CreateSpecializedTeam(f, team, specs, hexes, now) == Build(f, team, entries, hexes, now);
    SpecKnown(specs);
    BuildMembers(f, team, entries, hexes, now);
  }

  lemma SpecKnown(specs: Dict<string, Extras>)
    requires specs.Valid() && forall t <- specs.m :: Known(t)
    ensures forall i | 0 <= i < |SpecEntries(specs)| :: Known(SpecEntries(specs)[i].0)
  {
    var entries := SpecEntries(specs);
    forall i | 0 <= i < |entries| ensures Known(entries[i].0) {
      assert entries[i].0 == specs.keys[i] && specs.keys[i] in specs.m;
    }
  }

  lemma SpecRoster(r: Dict<string, Agent>, team: string, specs: Dict<string, Extras>, hexes: seq<string>)
    requires specs.Valid() && |hexes| == |specs.keys| && Roster(r, team, SpecEntries(specs), hexes)
    ensures r.keys == Ids(hexes)
    ensures forall i | 0 <= i < |specs.keys| :: Ids(hexes)[i] in r.m && OfType(r.m[Ids(hexes)[i]], specs.keys[i])
  {
    var entries := SpecEntries(specs);
    forall i | 0 <= i < |specs.keys| ensures Ids(hexes)[i] in r.m && OfType(r.m[Ids(hexes)[i]], specs.keys[i]) {
      assert entries[i].0 == specs.keys[i];
    }
  }
}

=== FILE: helpers.dfy ===
/**
 * The pure utilities of app/utils/helpers.py. Dictionaries are the
 * insertion-ordered `Dict` of module Dicts; a function that may raise takes
 * its outcomes as a parameter.
 */
module Helpers {
  import opened Wrappers
  import opened Text
  import opened Dicts
  import Db
  import Conversation

  /** `truncate_text`: the text if short enough, else its first `maxLength` characters and the suffix. */
  function TruncateText(text: string, maxLength: int, suffix: string): (r: string)
    ensures |text| <= maxLength ==> r == text
    ensures 0 <= maxLength < |text| ==> r == text[..maxLength] + suffix && |r| == maxLength + |suffix|
    ensures maxLength < 0 ==> r == PyPrefix(text, maxLength) + suffix
  {
    if |text| <= maxLength then text else PyPrefix(text, maxLength) + suffix
  }

  /** `merge_dicts`: a copy of `d1` updated with `d2`; on a shared key `d2` wins. */
  function MergeDicts<K, V>(d1: Dict<K, V>, d2: Dict<K, V>): (r: Dict<K, V>)
    requires d1.Valid() && d2.Valid()
    ensures r.Valid()
    ensures r.m == d1.m + d2.m
    ensures |d1.keys| <= |r.keys| && r.keys[..|d1.keys|] == d1.keys
  {
    var r := UpdateFrom(d1, d2.keys, d2.m);
    UpdatedIsMerge(d1.m, d2.m, d2.keys, r.m);
    r
  }

  /** Updating `m1` with every key of `m2` gives Dafny's map union, in which `m2` wins. */
  lemma UpdatedIsMerge<K, V>(m1: map<K, V>, m2: map<K, V>, ks: seq<K>, rm: map<K, V>)
    requires forall k <- m2 :: k in ks
    requires forall k <- ks :: k in m2
    requires forall k <- rm :: k in m1 || k in ks
    requires forall k <- m1 :: k in rm
    requires forall k <- ks :: k in rm
    requires forall k <- rm :: rm[k] == if k in ks then m2[k] else m1[k]
    ensures rm == m1 + m2
  {
    assert rm.Keys == (m1 + m2).Keys;
  }

  /** `filter_dict`: the entries whose key is listed, in `d`'s order. */
  function FilterDict<K, V>(d: Dict<K, V>, keys: seq<K>): (r: Dict<K, V>)
    requires d.Valid()
    ensures r.Valid()
    ensures forall k <- r.m :: k in keys && k in d.m && r.m[k] == d.m[k]
    ensures forall k <- d.m :: k in keys ==> k in r.m
  {
    Restrict(d, k => k in keys)
  }

  /** `exclude_keys`: the entries whose key is not listed, in `d`'s order. */
  function ExcludeKeys<K, V>(d: Dict<K, V>, keys: seq<K>): (r: Dict<K, V>)
    requires d.Valid()
    ensures r.Valid()
    ensures forall k <- r.m :: k !in keys && k in d.m && r.m[k] == d.m[k]
    ensures forall k <- d.m :: k !in keys ==> k in r.m
  {
    Restrict(d, k => k !in keys)
  }

  /** Filtering and excluding the same keys split a dictionary into two disjoint halves. */
  lemma FilterExcludePartition<K, V>(d: Dict<K, V>, keys: seq<K>)
    requires d.Valid()
    ensures FilterDict(d, keys).m.Keys !! ExcludeKeys(d, keys).m.Keys
    ensures FilterDict(d, keys).m + ExcludeKeys(d, keys).m == d.m
  {
    var f := FilterDict(d, keys);
    var e := ExcludeKeys(d, keys);
    assert (f.m + e.m).Keys == d.m.Keys;
  }

  /** A Python list whose items may themselves be lists. */
  datatype Nested<T> = Leaf(value: T) | List(items: seq<Nested<T>>)

  /** `flatten_list`: the non-list items, left to right, at any depth. */
  function Flatten<T>(items: seq<Nested<T>>): seq<T>
    decreases items
  {
    if |items| == 0 then []
    else
      var head := match items[0]
        case Leaf(v) => [v]
        case List(inner) => Flatten(inner);
      head + Flatten(items[1..])
  }

  /** Flattening works piecewise: the leaves of two lists side by side are the leaves of each in turn. */
  lemma {:induction false} FlattenAppend<T>(a: seq<Nested<T>>, b: seq<Nested<T>>)
    ensures Flatten(a + b) == Flatten(a) + Flatten(b)
    decreases |a|
  {
    if |a| > 0 {
      assert (a + b)[0] == a[0];
      assert (a + b)[1..] == a[1..] + b;
      FlattenAppend(a[1..], b);
    } else {
      assert a + b == b;
    }
  }

  /** A list holding no sub-lists flattens to its own items. */
  lemma {:induction false} FlattenShallow<T>(xs: seq<T>)
    ensures Flatten(seq(|xs|, i requires 0 <= i < |xs| => Leaf(xs[i]))) == xs
  {
    var items := seq(|xs|, i requires 0 <= i < |xs| => Leaf(xs[i]));
    if |xs| > 0 {
      FlattenShallow(xs[1..]);
      assert items[1..] == seq(|xs[1..]|, i requires 0 <= i < |xs[1..]| => Leaf(xs[1..][i]));
    }
  }

  /** Consecutive slices of length `n` (the last one possibly shorter). */
  function Chunks<T>(s: seq<T>, n: nat): seq<seq<T>>
    requires n > 0
    decreases |s|
  {
    if |s| == 0 then [] else if |s| <= n then [s] else [s[..n]] + Chunks(s[n..], n)
  }

  function Concat<T>(ss: seq<seq<T>>): seq<T> {
    if |ss| == 0 then [] else ss[0] + Concat(ss[1..])
  }

  /**
   * `chunk_list`: `range(0, len(lst), chunk_size)` raises on a zero step and
   * is empty for a negative one.
   */
  function ChunkList<T>(s: seq<T>, size: int): (r: Result<seq<seq<T>>>)
    ensures size == 0 <==> r.Raise?
    ensures size < 0 ==> r == Ok([])
    ensures size > 0 ==> r.Ok? && Concat(r.value) == s
    ensures size > 0 ==> forall i | 0 <= i < |r.value| - 1 :: |r.value[i]| == size
    ensures size > 0 && |r.value| > 0 ==> 0 < |r.value[|r.value| - 1]| <= size
  {
    if size == 0 then Raise("range() arg 3 must not be zero")
    else if size < 0 then Ok([])
    else
      ChunksSpec(s, size);
      Ok(Chunks(s, size))
  }

  lemma MulSucc(n: int, k: int)
    ensures (n + 1) * k == n * k + k
  {
  }

  /**
   * The chunks put back together give the list, every chunk but the last
   * has exactly `size` items, and the last has between 1 and `size`.
   */
  lemma {:induction false} ChunksSpec<T>(s: seq<T>, size: nat)
    requires size > 0
    ensures Concat(Chunks(s, size)) == s
    ensures forall i | 0 <= i < |Chunks(s, size)| - 1 :: |Chunks(s, size)[i]| == size
    ensures |Chunks(s, size)| > 0 ==> 0 < |Chunks(s, size)[|Chunks(s, size)| - 1]| <= size
    ensures |Chunks(s, size)| * size >= |s| > (|Chunks(s, size)| - 1) * size
    decreases |s|
  {
    if |s| > size {
      ChunksSpec(s[size..], size);
      var rest := Chunks(s[size..], size);
      var c := Chunks(s, size);
      assert c == [s[..size]] + rest;
      assert |rest| > 0;
      assert Concat(c) == s[..size] + Concat(rest);
      assert s == s[..size] + s[size..];
      forall i | 0 <= i < |c| - 1 ensures |c[i]| == size {
        if i > 0 {
          assert c[i] == rest[i - 1];
        }
      }
      assert c[|c| - 1] == rest[|rest| - 1];
      assert |c| == |rest| + 1 && |s| == |s[size..]| + size;
      assert |c| * size == |rest| * size + size by {
        MulSucc(|rest|, size);
      }
    } else if |s| > 0 {
      assert Chunks(s, size) == [s];
      assert Concat([s]) == s + Concat([s][1..]);
    }
  }

  /**
   * `retry`: call `func` until it returns, at most `maxAttempts` times.
   * `outcome(i)` is what the `i`-th call does: return a value or raise.
   * `calls` is the number of calls made.
   */
  method Retry<T>(outcome: nat -> Result<T>, maxAttempts: int) returns (r: Option<T>, calls: nat)
    ensures maxAttempts <= 0 ==> r == None && calls == 0
    ensures calls <= if maxAttempts < 0 then 0 else maxAttempts
    ensures r.Some? ==> calls >= 1 && outcome(calls - 1) == Ok(r.value)
    ensures r.Some? ==> forall i | 0 <= i < calls - 1 :: outcome(i).Raise?
    ensures r.None? ==> (calls == if maxAttempts < 0 then 0 else maxAttempts)
    ensures r.None? ==> forall i | 0 <= i < calls :: outcome(i).Raise?
  {
    var attempts := 0;
    calls := 0;
    while attempts < maxAttempts
      invariant calls == attempts
      invariant 0 <= attempts && (maxAttempts <= 0 ==> attempts == 0) && (maxAttempts > 0 ==> attempts < maxAttempts)
      invariant forall i | 0 <= i < calls :: outcome(i).Raise?
    {
      var res := outcome(attempts);
      calls := calls + 1;
      if res.Ok? {
        return Some(res.value), calls;
      }
      attempts := attempts + 1;
      if attempts == maxAttempts {
        return None, calls;
      }
    }
    return None, calls;
  }

  /** One line of `format_conversation`: `[timestamp] sender -> recipient: message`. */
  function FormatEntry(r: Db.ConversationRow, render: nat -> string): string {
    "[" + render(r.at) + "] " + r.sender + " -> " + r.recipient + ": " + r.message
  }

  /** The lines `format_conversation` appends, one per row, in order. */
  function FormatEntries(rows: seq<Db.ConversationRow>, render: nat -> string): seq<string> {
    if |rows| == 0 then [] else [FormatEntry(rows[0], render)] + FormatEntries(rows[1..], render)
  }

  /** `format_conversation`: the rows' lines joined with newlines. */
  function FormatConversation(rows: seq<Db.ConversationRow>, render: nat -> string): string {
    Join(FormatEntries(rows, render), "\n")
  }

  lemma {:induction false} FormatEntriesAreLines(rows: seq<Db.ConversationRow>, render: nat -> string)
    ensures FormatEntries(rows, render) == Conversation.Lines(rows, render)
  {
    if |rows| > 0 {
      FormatEntriesAreLines(rows[1..], render);
      var ls := Conversation.Lines(rows, render);
      assert ls == [ls[0]] + ls[1..];
      assert ls[1..] == Conversation.Lines(rows[1..], render);
    }
  }

  /** Formatting the rows of a text export line by line reproduces the export. */
  lemma FormatMatchesExport(db: Db.Db, agentId: Option<string>, render: nat -> string)
    requires Db.Valid(db)
    ensures FormatConversation(Conversation.ExportRows(db, agentId), render)
         == Conversation.Export(db, agentId, "text", render).text
  {
    FormatEntriesAreLines(Conversation.ExportRows(db, agentId), render);
  }

  /** A stripped line numbered with one digit followed by `)`, `.` or `:`. */
  predicate NumberedLine(line: string) {
    |line| > 1 && IsDigit(line[0]) && line[1] in [')', '.', ':']
  }

  /** A stripped line that reads `step N…` in any letter case. */
  predicate StepLine(line: string) {
    StartsWith(Lower(line), "step ") && |line| > 5 && IsDigit(line[5])
  }

  /**
   * The step a stripped line announces: the text after the numbering, or
   * after the first colon of a `step N` line (after `step N` itself when
   * there is no colon), stripped.
   */
  function StepOf(line: string): (r: Option<string>)
    ensures r.Some? <==> NumberedLine(line) || StepLine(line)
    ensures r.Some? ==> Trimmed(r.value) && |r.value| <= |line|
  {
    if |line| > 0 && NumberedLine(line) then Some(Strip(line[2..]))
    else if StepLine(line) then
      if ':' in line then Some(Strip(line[IndexOf(line, ':') + 1..])) else Some(Strip(line[6..]))
    else None
  }

  /** The steps announced by the lines, in order. */
  function StepsOf(lines: seq<string>): (steps: seq<string>)
    ensures |steps| <= |lines|
    ensures forall t <- steps :: Trimmed(t)
  {
    if |lines| == 0 then []
    else
      var head := match StepOf(Strip(lines[0]))
        case Some(t) => [t]
        case None => [];
      head + StepsOf(lines[1..])
  }

  /** Where `(?<=[.!?])\s+` can match: whitespace right after sentence-ending punctuation. */
  predicate IsBreak(s: string, i: int) {
    0 < i < |s| && s[i - 1] in ".!?" && IsSpace(s[i])
  }

  /** Holds no place where a sentence ends. */
  predicate NoBreak(s: string) {
    forall i | 0 < i < |s| :: !IsBreak(s, i)
  }

  /** The first break at or after `from`, or `|s|` when there is none. */
  function FirstBreak(s: string, from: nat): (i: nat)
    requires from <= |s|
    ensures from <= i <= |s|
    ensures i < |s| ==> IsBreak(s, i)
    ensures forall j | from <= j < i :: !IsBreak(s, j)
    decreases |s| - from
  {
    if from == |s| then |s| else if IsBreak(s, from) then from else FirstBreak(s, from + 1)
  }

  /**
   * `re.split(r'(?<=[.!?])\s+', s)`: cut at each break and drop the
   * whole whitespace run there; no piece holds a break.
   */
  function SentenceSplit(s: string): (parts: seq<string>)
    ensures |parts| >= 1
    ensures forall p <- parts :: NoBreak(p)
    decreases |s|
  {
    var i := FirstBreak(s, 0);
    if i == |s| then [s]
    else
      var n := LeadingSpaces(s[i..]);
      assert s[i..][0] == s[i];
      var rest := s[i..][n..];
      var parts := [s[..i]] + SentenceSplit(rest);
      assert NoBreak(s[..i]) by {
        forall j | 0 < j < i ensures !IsBreak(s[..i], j) {
          assert !IsBreak(s, j);
        }
      }
      parts
  }

  /** The non-blank sentences, stripped. */
  function Sentences(parts: seq<string>): (r: seq<string>)
    ensures forall t <- r :: Trimmed(t) && |t| > 0
  {
    if |parts| == 0 then []
    else if |Strip(parts[0])| > 0 then [Strip(parts[0])] + Sentences(parts[1..])
    else Sentences(parts[1..])
  }

  /**
   * `extract_task_steps`: the steps announced line by line; when there are
   * none, the non-blank sentences of a non-empty description.
   */
  function ExtractTaskSteps(description: string): (steps: seq<string>)
    ensures |description| == 0 ==> steps == []
    ensures forall t <- steps :: Trimmed(t)
    ensures StepsOf(Split(description, '\n')) != [] ==> steps == StepsOf(Split(description, '\n'))
    ensures StepsOf(Split(description, '\n')) == [] ==> forall t <- steps :: |t| > 0
  {
    var steps := StepsOf(Split(description, '\n'));
    if |steps| == 0 && |description| > 0 then Sentences(SentenceSplit(description)) else steps
  }

  /** `"1. " + texts[0]`, `"2. " + texts[1]`, …: at most nine single-digit numbered lines. */
  function Numbered(texts: seq<string>): (lines: seq<string>)
    requires |texts| <= 9
    ensures |lines| == |texts|
    ensures forall i | 0 <= i < |texts| :: lines[i] == [DigitChar(i + 1), '.', ' '] + texts[i]
  {
    NumberedFrom(texts, 0)
  }

  /** The numbered lines when numbering starts after `first`. */
  function NumberedFrom(texts: seq<string>, first: nat): (lines: seq<string>)
    requires first + |texts| <= 9
    ensures |lines| == |texts|
    ensures forall i | 0 <= i < |texts| :: lines[i] == [DigitChar(first + i + 1), '.', ' '] + texts[i]
  {
    if |texts| == 0 then [] else [[DigitChar(first + 1), '.', ' '] + texts[0]] + NumberedFrom(texts[1..], first + 1)
  }

  /** A numbered line announces exactly its text. */
  lemma NumberedStep(d: char, t: string)
    requires IsDigit(d) && Trimmed(t)
    ensures StepOf(Strip([d, '.', ' '] + t)) == Some(t)
  {
    if |t| == 0 {
      assert [d, '.', ' '] + t == [d, '.', ' '];
      NumberedStepBare(d);
    } else {
      var line := [d, '.', ' '] + t;
      assert line[2..] == " " + t;
      NumberedStepText(line, t);
    }
  }

  /** A bare number loses its trailing space and announces the empty step. */
  lemma NumberedStepBare(d: char)
    requires IsDigit(d)
    ensures StepOf(Strip([d, '.', ' '])) == Some("")
  {
    var line := [d, '.', ' '];
    assert LeadingSpaces(line) == 0;
    assert TrailingSpaces(line) == 1 by {
      assert line[..2] == [d, '.'];
    }
    assert Strip(line) == [d, '.'];
    assert NumberedLine([d, '.']);
  }

  lemma NumberedStepText(line: string, t: string)
    requires |line| > 2 && IsDigit(line[0]) && line[1] == '.' && line[2..] == " " + t
    requires Trimmed(t) && |t| > 0
    ensures StepOf(Strip(line)) == Some(t)
  {
    assert Strip(line) == line by {
      assert Trimmed(line);
      StripTrimmed(line);
    }
    StripAfterSpace(t);
    NumberedStepOf(line);
  }

  lemma NumberedStepOf(line: string)
    requires NumberedLine(line)
    ensures StepOf(line) == Some(Strip(line[2..]))
  {
  }

  /** The steps of a line, as `StepsOf` collects them. */
  function StepsOfLine(line: string): seq<string> {
    match StepOf(Strip(line))
    case Some(t) => [t]
    case None => []
  }

  lemma StepsOfUnfold(lines: seq<string>)
    requires |lines| > 0
    ensures StepsOf(lines) == StepsOfLine(lines[0]) + StepsOf(lines[1..])
  {
  }

  /** Steps are read line by line, so the steps of two blocks of lines are those of each block in turn. */
  lemma {:induction false} StepsOfAppend(a: seq<string>, b: seq<string>)
    ensures StepsOf(a + b) == StepsOf(a) + StepsOf(b)
  {
    if |a| > 0 {
      var ab := a + b;
      assert ab[0] == a[0] && ab[1..] == a[1..] + b;
      StepsOfAppend(a[1..], b);
      StepsOfUnfold(ab);
      StepsOfUnfold(a);
      calc {
        StepsOf(ab);
        StepsOfLine(a[0]) + StepsOf(a[1..] + b);
        StepsOfLine(a[0]) + (StepsOf(a[1..]) + StepsOf(b));
        (StepsOfLine(a[0]) + StepsOf(a[1..])) + StepsOf(b);
      }
    } else {
      assert a + b == b;
    }
  }

  lemma StepsOfCons(lines: seq<string>, t: string)
    requires |lines| > 0 && StepOf(Strip(lines[0])) == Some(t)
    ensures StepsOf(lines) == [t] + StepsOf(lines[1..])
  {
  }

  lemma StepsOfPrepend(head: string, tail: seq<string>, t: string)
    requires StepOf(Strip(head)) == Some(t)
    ensures StepsOf([head] + tail) == [t] + StepsOf(tail)
  {
    assert ([head] + tail)[1..] == tail;
  }

  /** The first numbered line yields the first step. */
  lemma StepsOfNumberedCons(texts: seq<string>, first: nat)
    requires 0 < |texts| && first + |texts| <= 9 && Trimmed(texts[0])
    ensures StepsOf(NumberedFrom(texts, first)) == [texts[0]] + StepsOf(NumberedFrom(texts[1..], first + 1))
  {
    var head := [DigitChar(first + 1), '.', ' '] + texts[0];
    var tail := NumberedFrom(texts[1..], first + 1);
    assert NumberedFrom(texts, first) == [head] + tail;
    NumberedStep(DigitChar(first + 1), texts[0]);
    StepsOfPrepend(head, tail, texts[0]);
  }

  lemma {:induction false} StepsOfNumbered(texts: seq<string>, first: nat)
    requires first + |texts| <= 9
    requires forall i | 0 <= i < |texts| :: Trimmed(texts[i])
    ensures StepsOf(NumberedFrom(texts, first)) == texts
    decreases |texts|
  {
    if |texts| > 0 {
      StepsOfNumberedCons(texts, first);
      StepsOfNumbered(texts[1..], first + 1);
      assert [texts[0]] + texts[1..] == texts;
    }
  }

  /**
   * Numbered steps written one per line are read back exactly, whatever
   * the text of each step (as long as it is stripped and on one line).
   */
  lemma NumberedRoundTrip(texts: seq<string>)
    requires 1 <= |texts| <= 9
    requires forall t <- texts :: Trimmed(t) && '\n' !in t
    ensures ExtractTaskSteps(Join(Numbered(texts), "\n")) == texts
  {
    var lines := Numbered(texts);
    forall l <- lines ensures '\n' !in l {
      var i :| 0 <= i < |lines| && lines[i] == l;
      assert l == [DigitChar(i + 1), '.', ' '] + texts[i];
    }
    JoinSplit(lines, '\n');
    StepsOfNumbered(texts, 0);
  }

  /** A step numbered 10 is not recognised: only one-digit numbering is read. */
  lemma TwoDigitNumberIgnored(t: string)
    ensures StepOf("10. " + t) == None
  {
    var line := "10. " + t;
    assert line[1] == '0';
    assert !NumberedLine(line);
    assert Lower(line)[0] == '1';
    assert !StepLine(line) by {
      assert "step "[0] == 's';
    }
  }

  lemma JoinStartsWith(parts: seq<string>, sep: string)
    requires |parts| >= 1
    ensures |Join(parts, sep)| >= |parts[0]| && Join(parts, sep)[..|parts[0]|] == parts[0]
  {
  }

  /**
   * Sentences ending in `.`, `!` or `?` and joined with single spaces are
   * cut back into exactly those sentences.
   */
  lemma {:induction false} SentenceSplitJoin(parts: seq<string>)
    requires |parts| >= 1
    requires forall p <- parts :: |p| > 0 && !IsSpace(p[0]) && NoBreak(p)
    requires forall i | 0 <= i < |parts| - 1 :: parts[i][|parts[i]| - 1] in ".!?"
    ensures SentenceSplit(Join(parts, " ")) == parts
    decreases |parts|
  {
    var s := Join(parts, " ");
    var p := parts[0];
    if |parts| == 1 {
      assert s == p;
      assert FirstBreak(s, 0) == |s|;
    } else {
      var ps := parts[1..];
      var j := Join(ps, " ");
      assert s == p + " " + j;
      JoinStartsWith(ps, " ");
      assert ps[0] == parts[1];
      assert j[0] == ps[0][0];
      assert IsBreak(s, |p|) by {
        assert s[|p| - 1] == p[|p| - 1];
        assert s[|p|] == ' ';
      }
      var i := FirstBreak(s, 0);
      forall k | 0 < k < |p| ensures !IsBreak(s, k) {
        assert s[k - 1] == p[k - 1] && s[k] == p[k];
        assert !IsBreak(p, k);
      }
      assert i == |p|;
      assert s[i..] == " " + j;
      assert LeadingSpaces(" " + j) == 1 by {
        assert (" " + j)[1..] == j;
      }
      assert s[i..][1..] == j;
      forall q <- ps ensures |q| > 0 && !IsSpace(q[0]) && NoBreak(q) {
        assert q in parts;
      }
      forall k | 0 <= k < |ps| - 1 ensures ps[k][|ps[k]| - 1] in ".!?" {
        assert ps[k] == parts[k + 1];
      }
      SentenceSplitJoin(ps);
      assert s[..i] == p;
    }
  }

  lemma {:induction false} SentencesOfTrimmed(parts: seq<string>)
    requires forall p <- parts :: |p| > 0 && Trimmed(p)
    ensures Sentences(parts) == parts
  {
    if |parts| > 0 {
      StripTrimmed(parts[0]);
      assert forall p <- parts[1..] :: p in parts;
      SentencesOfTrimmed(parts[1..]);
    }
  }

  /**
   * A description with no step lines falls back to its sentences: well-formed
   * sentences on one line are returned one per step.
   */
  lemma SentenceFallback(parts: seq<string>)
    requires |parts| >= 1
    requires forall p <- parts :: |p| > 0 && Trimmed(p) && NoBreak(p) && '\n' !in p
    requires forall i | 0 <= i < |parts| - 1 :: parts[i][|parts[i]| - 1] in ".!?"
    requires !IsDigit(parts[0][0]) && LowerChar(parts[0][0]) != 's'
    ensures ExtractTaskSteps(Join(parts, " ")) == parts
  {
    var s := Join(parts, " ");
    JoinNoChar(parts, " ", '\n');
    JoinStartsWith(parts, " ");
    assert s[0] == parts[0][0];
    NoStepLines(s);
    SentenceSplitJoin(parts);
    SentencesOfTrimmed(parts);
  }

  /** One line that starts with neither a digit nor an `s` announces no step. */
  lemma NoStepLines(s: string)
    requires |s| > 0 && '\n' !in s
    requires !IsSpace(s[0]) && !IsDigit(s[0]) && LowerChar(s[0]) != 's'
    ensures ExtractTaskSteps(s) == Sentences(SentenceSplit(s))
  {
    SplitNoSep(s, '\n');
    NoStepLine(s);
    assert StepsOf([s]) == [];
  }

  lemma NoStepLine(s: string)
    requires |s| > 0 && !IsSpace(s[0]) && !IsDigit(s[0]) && LowerChar(s[0]) != 's'
    ensures StepOf(Strip(s)) == None
  {
    StripKeepsFirst(s);
    var t := Strip(s);
    assert Lower(t)[0] == LowerChar(s[0]);
    assert !NumberedLine(t);
    assert !StepLine(t) by {
      assert "step "[0] == 's';
    }
  }

  lemma {:induction false} JoinNoChar(parts: seq<string>, sep: string, c: char)
    requires c !in sep
    requires forall p <- parts :: c !in p
    ensures c !in Join(parts, sep)
  {
    if |parts| > 1 {
      assert forall p <- parts[1..] :: p in parts;
      JoinNoChar(parts[1..], sep, c);
    }
  }

  /** What `parse_agent_response` returns: whatever JSON decoding gives, or a string dictionary. */
  datatype Parsed<J> = FromJson(json: J) | Fields(d: Dict<string, string>)

  /** The `key: value` pair on a stripped line, split at its first colon, both sides stripped. */
  function FieldOf(line: string): (r: Option<(string, string)>)
    ensures r.Some? <==> ':' in line
    ensures r.Some? ==> Trimmed(r.value.0) && Trimmed(r.value.1) && ':' !in r.value.0
  {
    if ':' in line then
      var i := IndexOf(line, ':');
      Some((Strip(line[..i]), Strip(line[i + 1..])))
    else None
  }

  /** Store the pair of each line holding a colon; a later key overwrites an earlier one. */
  function ParseLines(lines: seq<string>, acc: Dict<string, string>): (r: Dict<string, string>)
    requires acc.Valid()
    ensures r.Valid()
    ensures forall k <- acc.m :: k in r.m
    ensures forall k <- r.m :: k in acc.m || (Trimmed(k) && ':' !in k)
  {
    if |lines| == 0 then acc
    else
      match FieldOf(Strip(lines[0]))
      case None => ParseLines(lines[1..], acc)
      case Some((k, v)) =>
        PutValid(acc, k, v);
        ParseLines(lines[1..], acc.Put(k, v))
  }

  /**
   * `parse_agent_response`: `json` is what `json.loads(response)` gives, `None`
   * when it raises. Otherwise the `key: value` lines, or `{"response": response}`
   * when no line holds a colon.
   */
  function ParseAgentResponse<J>(response: string, json: Option<J>): (r: Parsed<J>)
    ensures json.Some? <==> r.FromJson?
    ensures json.Some? ==> r.json == json.value
    ensures r.Fields? ==> r.d.Valid() && |r.d.keys| >= 1
    ensures r.Fields? && ':' !in response ==> r.d == Dict(["response"], map["response" := response])
  {
    if json.Some? then FromJson(json.value)
    else
      var d := ParseLines(Split(response, '\n'), Empty());
      NoColonNoFields(response);
      if |d.keys| == 0 then Fields(Dict(["response"], map["response" := response]))
      else Fields(d)
  }

  lemma {:induction false} ParseLinesNoColon(lines: seq<string>, acc: Dict<string, string>)
    requires acc.Valid()
    requires forall l <- lines :: ':' !in l
    ensures ParseLines(lines, acc) == acc
  {
    if |lines| > 0 {
      assert ':' !in Strip(lines[0]);
      assert forall l <- lines[1..] :: l in lines;
      ParseLinesNoColon(lines[1..], acc);
    }
  }

  /** Without a colon anywhere there is no `key: value` line. */
  lemma NoColonNoFields(response: string)
    ensures ':' !in response ==> ParseLines(Split(response, '\n'), Empty()) == Empty()
  {
    if ':' !in response {
      SplitNoChar(response, '\n', ':');
      ParseLinesNoColon(Split(response, '\n'), Empty());
    }
  }

  /** A pair a response line can carry: key and value stripped, a colon-free key, a non-empty value. */
  predicate WellFormedField(f: (string, string)) {
    Trimmed(f.0) && ':' !in f.0 && '\n' !in f.0 && |f.1| > 0 && Trimmed(f.1) && '\n' !in f.1
  }

  function FieldKeys(pairs: seq<(string, string)>): (ks: seq<string>)
    ensures |ks| == |pairs|
    ensures forall i | 0 <= i < |pairs| :: ks[i] == pairs[i].0
  {
    seq(|pairs|, i requires 0 <= i < |pairs| => pairs[i].0)
  }

  /** The lines `key: value`, one per pair. */
  function FieldLines(pairs: seq<(string, string)>): (ls: seq<string>)
    ensures |ls| == |pairs|
    ensures forall i | 0 <= i < |pairs| :: ls[i] == pairs[i].0 + ": " + pairs[i].1
  {
    seq(|pairs|, i requires 0 <= i < |pairs| => pairs[i].0 + ": " + pairs[i].1)
  }

  /** A `key: value` line gives back its key and value. */
  lemma FieldOfLine(f: (string, string))
    requires WellFormedField(f)
    ensures FieldOf(Strip(f.0 + ": " + f.1)) == Some(f)
  {
    var (k, v) := f;
    var line := k + ": " + v;
    FieldLineTrimmed(k, v);
    StripTrimmed(line);
    FieldLineParts(k, v);
    IndexOfAt(line, ':', |k|);
    StripTrimmed(k);
    StripAfterSpace(v);
    assert FieldOf(line) == Some((Strip(line[..|k|]), Strip(line[|k| + 1..])));
  }

  /** Where the key, the colon and the value sit on a `key: value` line. */
  lemma FieldLineParts(k: string, v: string)
    ensures |k + ": " + v| > |k|
    ensures (k + ": " + v)[..|k|] == k && (k + ": " + v)[|k|] == ':'
    ensures (k + ": " + v)[|k| + 1..] == " " + v
  {
  }

  lemma FieldLineTrimmed(k: string, v: string)
    requires Trimmed(k) && |v| > 0 && Trimmed(v)
    ensures Trimmed(k + ": " + v)
  {
    var line := k + ": " + v;
    assert line[|line| - 1] == v[|v| - 1];
    assert |k| > 0 ==> line[0] == k[0];
    assert |k| == 0 ==> line[0] == ':';
  }

  lemma ParseLinesCons(lines: seq<string>, acc: Dict<string, string>, f: (string, string))
    requires acc.Valid() && |lines| > 0 && FieldOf(Strip(lines[0])) == Some(f)
    ensures acc.Put(f.0, f.1).Valid()
    ensures ParseLines(lines, acc) == ParseLines(lines[1..], acc.Put(f.0, f.1))
  {
    PutValid(acc, f.0, f.1);
  }

  /** Store the pairs in order. */
  function PutAll(acc: Dict<string, string>, pairs: seq<(string, string)>): Dict<string, string>
    decreases |pairs|
  {
    if |pairs| == 0 then acc else PutAll(acc.Put(pairs[0].0, pairs[0].1), pairs[1..])
  }

  /** Parsing the `key: value` lines stores their pairs in order. */
  lemma {:induction false} ParseLinesPutAll(pairs: seq<(string, string)>, acc: Dict<string, string>)
    requires acc.Valid()
    requires forall f <- pairs :: WellFormedField(f)
    ensures ParseLines(FieldLines(pairs), acc) == PutAll(acc, pairs)
    decreases |pairs|
  {
    if |pairs| > 0 {
      FieldOfLine(pairs[0]);
      ParseLinesCons(FieldLines(pairs), acc, pairs[0]);
      FieldsTail(pairs);
      assert forall f <- pairs[1..] :: f in pairs;
      ParseLinesPutAll(pairs[1..], acc.Put(pairs[0].0, pairs[0].1));
    }
  }

  /** With fresh, distinct keys every pair adds its key at the end. */
  lemma {:induction false} PutAllKeys(pairs: seq<(string, string)>, acc: Dict<string, string>)
    requires forall i | 0 <= i < |pairs| :: pairs[i].0 !in acc.m
    requires Distinct(FieldKeys(pairs))
    ensures PutAll(acc, pairs).keys == acc.keys + FieldKeys(pairs)
    decreases |pairs|
  {
    if |pairs| > 0 {
      var k := pairs[0].0;
      var rest := pairs[1..];
      var acc' := acc.Put(k, pairs[0].1);
      FreshAfterPut(pairs, acc);
      FieldsTail(pairs);
      PutAllKeys(rest, acc');
      assert acc'.keys == acc.keys + [k];
      assert acc.keys + ([k] + FieldKeys(rest)) == acc.keys + [k] + FieldKeys(rest);
    }
  }

  /** With distinct keys each key ends up holding its own value. */
  lemma {:induction false} PutAllValues(pairs: seq<(string, string)>, acc: Dict<string, string>)
    requires Distinct(FieldKeys(pairs))
    ensures forall f <- pairs :: f.0 in PutAll(acc, pairs).m && PutAll(acc, pairs).m[f.0] == f.1
    decreases |pairs|
  {
    if |pairs| > 0 {
      var f := pairs[0];
      var acc' := acc.Put(f.0, f.1);
      var rest := pairs[1..];
      FieldsTail(pairs);
      DistinctTail(FieldKeys(pairs));
      PutAllValues(rest, acc');
      var r := PutAll(acc', rest);
      PutAllKeeps(rest, acc', f.0);
      forall g <- pairs ensures g.0 in r.m && r.m[g.0] == g.1 {
        if g !in rest {
          assert g == f;
        }
      }
    }
  }

  /** A key no pair mentions keeps its value. */
  lemma {:induction false} PutAllKeeps(pairs: seq<(string, string)>, acc: Dict<string, string>, k: string)
    requires k in acc.m
    requires forall f <- pairs :: f.0 != k
    ensures k in PutAll(acc, pairs).m && PutAll(acc, pairs).m[k] == acc.m[k]
    decreases |pairs|
  {
    if |pairs| > 0 {
      assert forall f <- pairs[1..] :: f in pairs;
      PutAllKeeps(pairs[1..], acc.Put(pairs[0].0, pairs[0].1), k);
    }
  }

  lemma DistinctTail(ks: seq<string>)
    requires |ks| > 0 && Distinct(ks)
    ensures Distinct(ks[1..]) && ks[0] !in ks[1..]
  {
    forall j | 0 <= j < |ks| - 1 ensures ks[1..][j] != ks[0] {
      assert ks[1..][j] == ks[j + 1];
    }
  }

  lemma FieldsTail(pairs: seq<(string, string)>)
    requires |pairs| > 0
    ensures FieldLines(pairs)[1..] == FieldLines(pairs[1..])
    ensures FieldKeys(pairs) == [pairs[0].0] + FieldKeys(pairs[1..])
  {
  }

  lemma FreshAfterPut(pairs: seq<(string, string)>, acc: Dict<string, string>)
    requires |pairs| > 0
    requires forall i | 0 <= i < |pairs| :: pairs[i].0 !in acc.m
    requires Distinct(FieldKeys(pairs))
    ensures forall i | 0 <= i < |pairs| - 1 :: pairs[1..][i].0 !in acc.Put(pairs[0].0, pairs[0].1).m
    ensures Distinct(FieldKeys(pairs[1..]))
  {
    FieldsTail(pairs);
    DistinctTail(FieldKeys(pairs));
    forall i | 0 <= i < |pairs| - 1 ensures pairs[1..][i].0 !in acc.Put(pairs[0].0, pairs[0].1).m {
      assert pairs[1..][i].0 in FieldKeys(pairs[1..]);
      assert pairs[1..][i] == pairs[i + 1];
    }
  }

  /**
   * A response made of `key: value` lines with distinct keys parses back into
   * exactly those pairs, in order.
   */
  lemma ParseRoundTrip<J>(pairs: seq<(string, string)>)
    requires |pairs| >= 1
    requires forall f <- pairs :: WellFormedField(f)
    requires Distinct(FieldKeys(pairs))
    ensures ParseAgentResponse<J>(Join(FieldLines(pairs), "\n"), None).Fields?
    ensures ParseAgentResponse<J>(Join(FieldLines(pairs), "\n"), None).d.keys == FieldKeys(pairs)
    ensures forall f <- pairs :: ParseAgentResponse<J>(Join(FieldLines(pairs), "\n"), None).d.m[f.0] == f.1
  {
    var lines := FieldLines(pairs);
    forall l <- lines ensures '\n' !in l {
      var i :| 0 <= i < |lines| && lines[i] == l;
      assert WellFormedField(pairs[i]);
      assert l == pairs[i].0 + ": " + pairs[i].1;
    }
    JoinSplit(lines, '\n');
    ParseLinesPutAll(pairs, Empty());
    PutAllKeys(pairs, Empty());
    PutAllValues(pairs, Empty());
    assert [] + FieldKeys(pairs) == FieldKeys(pairs);
  }
}

=== FILE: long_term.dfy ===
/**
 * The long-term memory of app/memory/long_term.py: queries and deletions
 * over the `memories` table. `store_memory` and `retrieve_memories` are the
 * table operations of module Db unchanged.
 */
module LongTerm {
  import opened Wrappers
  import opened Text
  import opened Tables
  import opened Db

  /** The `WHERE` of `retrieve_memories_by_content`. */
  function ContentFilter(agentId: string, term: string, memoryType: Option<string>): MemoryRow -> bool {
    (r: MemoryRow) => r.agentId == agentId && Like(r.content, term) && (!Given(memoryType) || r.memoryType == memoryType.value)
  }

  /** `retrieve_memories_by_content`: the agent's memories matching `term`, newest first, at most `limit`. */
  function RetrieveByContent(db: Db, agentId: string, term: string, memoryType: Option<string>, limit: int): (rows: seq<MemoryRow>)
    requires Valid(db)
    ensures IsNewest(db.memories, ContentFilter(agentId, term, memoryType), limit, MemoryId, rows)
    ensures forall r <- rows :: r.agentId == agentId && Like(r.content, term)
  {
    NewestSpec(db.memories, ContentFilter(agentId, term, memoryType), limit, MemoryId);
    Newest(db.memories, ContentFilter(agentId, term, memoryType), limit)
  }

  function WithMemories(db: Db, rows: seq<MemoryRow>): (db': Db)
    requires Valid(db)
    requires forall r <- rows :: r in db.memories
    requires Ascending(rows, MemoryId)
    ensures Valid(db')
    ensures db'.memories == rows && db'.conversations == db.conversations && db'.planning == db.planning
  {
    db.(memories := rows)
  }

  function HasId(id: int): MemoryRow -> bool {
    (r: MemoryRow) => r.id == id
  }

  /** `delete_memory`: the row with that id disappears, every other row stays, in order. */
  function DeleteMemory(db: Db, id: int): (db': Db)
    requires Valid(db)
    ensures Valid(db')
    ensures forall r <- db'.memories :: r in db.memories && r.id != id
    ensures forall r <- db.memories :: r.id != id ==> r in db'.memories
    ensures db'.conversations == db.conversations && db'.planning == db.planning
  {
    DeleteAscending(db.memories, HasId(id), MemoryId);
    WithMemories(db, DeleteWhere(db.memories, HasId(id)))
  }

  /**
   * The rows `clear_memories` deletes: every row when neither filter is
   * given, else the rows of the agent and/or of the type.
   */
  predicate Cleared(r: MemoryRow, agentId: Option<string>, memoryType: Option<string>) {
    (!Given(agentId) || r.agentId == agentId.value) && (!Given(memoryType) || r.memoryType == memoryType.value)
  }

  /** `clear_memories`: delete what the filters select and keep the rest in order. */
  function ClearMemories(db: Db, agentId: Option<string>, memoryType: Option<string>): (db': Db)
    requires Valid(db)
    ensures Valid(db')
    ensures forall r <- db.memories :: r in db'.memories <==> !Cleared(r, agentId, memoryType)
    ensures forall r <- db'.memories :: r in db.memories
    ensures !Given(agentId) && !Given(memoryType) ==> db'.memories == []
    ensures db'.conversations == db.conversations && db'.planning == db.planning
  {
    var p := (r: MemoryRow) => Cleared(r, agentId, memoryType);
    DeleteAscending(db.memories, p, MemoryId);
    var kept := DeleteWhere(db.memories, p);
    SelectNone(db.memories, Not(p));
    WithMemories(db, kept)
  }

  /** The dictionary `get_memory_stats` returns; `byAgent` is absent when an agent was given. */
  datatype MemoryStats = MemoryStats(total: nat, byType: Groups, byAgent: Option<Groups>)

  function TypeOf(r: MemoryRow): string { r.memoryType }
  function AgentOf(r: MemoryRow): string { r.agentId }

  function StatsFilter(agentId: Option<string>): MemoryRow -> bool {
    (r: MemoryRow) => !Given(agentId) || r.agentId == agentId.value
  }

  /**
   * `get_memory_stats`: the number of (the agent's) memories, their counts
   * per type, and the exact count of every agent's memories when no agent
   * was given; the counts of each grouping add up to the total.
   */
  function MemoryStatsOf(db: Db, agentId: Option<string>): (s: MemoryStats)
    ensures s.total == Count(db.memories, StatsFilter(agentId))
    ensures UniqueKeys(s.byType) && Total(s.byType) == s.total
    ensures forall t :: Lookup(s.byType, t) == KeyCount(Column(Select(db.memories, StatsFilter(agentId)), TypeOf), t)
    ensures s.byAgent.Some? <==> !Given(agentId)
    ensures s.byAgent.Some? ==> UniqueKeys(s.byAgent.value) && Total(s.byAgent.value) == s.total
    ensures s.byAgent.Some? ==> forall a :: Lookup(s.byAgent.value, a) == KeyCount(Column(db.memories, AgentOf), a)
  {
    var rows := Select(db.memories, StatsFilter(agentId));
    var byType := GroupCount(Column(rows, TypeOf));
    if Given(agentId) then MemoryStats(|rows|, byType, None)
    else
      SelectSame(db.memories, StatsFilter(agentId), _ => true);
      assert rows == db.memories by { SelectAll(db.memories); }
      MemoryStats(|rows|, byType, Some(GroupCount(Column(db.memories, AgentOf))))
  }

  lemma {:induction false} SelectAll(rows: seq<MemoryRow>)
    ensures Select(rows, _ => true) == rows
  {
    if |rows| > 0 {
      SelectAll(rows[1..]);
      assert rows == [rows[0]] + rows[1..];
    }
  }
}

=== FILE: orchestrator.dfy ===
/**
 * The admin side of app/agents/agent_hub.py: the managed team of four
 * agents, the task records that move from idle through running to
 * finished, the research / planning / execution / critique stages, the
 * keyword quality score, the three-hop discussion and the improve loop.
 *
 * Messages go through the hub of the Router module, so every stage writes
 * its rows to the conversation log exactly as `send_message` does. The
 * team and the task planner exist only once `initialize_team` has run, so
 * they are one optional `Staff` value.
 */
module Orchestrator {
  import opened Wrappers
  import opened Text
  import opened Dicts
  import opened Db
  import opened Agents
  import opened Router
  import opened Quality
  import opened Admin
  import Planner

  // ---------------------------------------------------------------- initialize_team

  /** The id `create_agent` gives an agent created without one. */
  function Hired(hex8: string): string {
    "agent_" + hex8
  }

  /** Different hex strings give different ids. */
  lemma HiredApart(a: string, b: string)
    requires a != b
    ensures Hired(a) != Hired(b)
  {
    assert Hired(a)[6..] == a;
    assert Hired(b)[6..] == b;
  }

  /** The keywords the hub's `create_agent` passes to every constructor on top of the caller's own. */
  const HubKeywords: set<string> := {"agent_id", "name", "auto_save", "is_debug"}

  /** The keyword parameters of a shipped class's constructor. */
  function Parameters(b: Blueprint): set<string>
    requires !b.CustomAgent?
  {
    match b
    case BaseAgent => {"agent_id", "name"}
    case ResearchAgent(_) => {"agent_id", "name", "expertise"}
    case PlanningAgent => HubKeywords
    case ExecutionAgent(_) => {"agent_id", "name", "skills"}
    case CriticAgent => HubKeywords
  }

  /** How many arguments a shipped constructor hands on to `BaseAgent.__init__`, which takes two. */
  function Forwarded(b: Blueprint): nat
    requires !b.CustomAgent?
  {
    if b.PlanningAgent? || b.CriticAgent? then 4 else 2
  }

  /**
   * The class `create_agent` finds for a type name: `BaseAgent` for "base",
   * otherwise the class `<Type>Agent` of module `app.agents.<type>`, which
   * exists for the base module and the four agent kinds. Any other name
   * makes the import or the attribute lookup fail.
   */
  function HubClass(agentType: string): (r: Option<Blueprint>)
    ensures r.Some? ==> !r.value.CustomAgent?
  {
    var t := Lower(agentType);
    if t == "base" then Some(BaseAgent)
    else if t == "research" then Some(ResearchAgent(None))
    else if t == "planning" then Some(PlanningAgent)
    else if t == "execution" then Some(ExecutionAgent(None))
    else if t == "critic" then Some(CriticAgent)
    else None
  }

  /** The type names of the hub's team, and "admin", which its docstring lists but no module defines. */
  lemma HubClasses()
    ensures HubClass("research") == Some(ResearchAgent(None)) && HubClass("planning") == Some(PlanningAgent)
    ensures HubClass("execution") == Some(ExecutionAgent(None)) && HubClass("critic") == Some(CriticAgent)
    ensures HubClass("admin") == None
  {
    assert Lower("research") == "research";
    assert Lower("planning") == "planning";
    assert Lower("execution") == "execution";
    assert Lower("critic") == "critic";
    assert Lower("admin") == "admin";
  }

  /**
   * Calling a shipped class with these keywords: TypeError on a keyword it
   * does not declare, or when it passes more than two arguments up to
   * `BaseAgent.__init__`.
   */
  function Construct(b: Blueprint, keywords: set<string>): (r: Result<()>)
    requires !b.CustomAgent?
    ensures r.Raise? ==> r.error == "TypeError"
    ensures r.Ok? <==> keywords <= Parameters(b) && Forwarded(b) <= 2
  {
    if keywords <= Parameters(b) && Forwarded(b) <= 2 then Ok(()) else Raise("TypeError")
  }

  /** No shipped class accepts the hub's keywords, whatever the caller adds. */
  lemma HubKeywordsRefused(b: Blueprint, extra: set<string>)
    requires !b.CustomAgent?
    ensures Construct(b, HubKeywords + extra).Raise?
  {
    if !b.PlanningAgent? && !b.CriticAgent? {
      assert "auto_save" in HubKeywords + extra && "auto_save" !in Parameters(b);
    }
  }

  /**
   * The end of `create_agent`: a built agent is registered and returned
   * under its generated id; a raise leaves the hub as it was.
   */
  function Enroll(h: Hub, built: Result<()>, b: Blueprint, name: Option<string>, hex8: string, now: nat)
    : (r: (Result<string>, Hub))
    requires Consistent(h) && IsHex8(hex8)
    ensures Consistent(r.1)
    ensures r.0.Raise? <==> built.Raise?
    ensures built.Raise? ==> r.0.error == built.error && r.1 == h
    ensures r.0.Ok? ==> r.0.value == Hired(hex8) && r.1.agents.Get(Hired(hex8)) == Some(NewAgent(b, None, name, hex8, now))
    ensures r.0.Ok? ==> forall k :: k != Hired(hex8) ==> r.1.agents.Get(k) == h.agents.Get(k)
  {
    match built
    case Raise(err) => (Raise(err), h)
    case Ok(_) =>
      var a := NewAgent(b, None, name, hex8, now);
      (Ok(a.id), Register(h, a).1)
  }

  /**
   * The hub's `create_agent` as written, with a generated id: a type name
   * without a class raises ValueError, re-raised from the ImportError or
   * AttributeError; every class that exists is called with `auto_save` and
   * `is_debug` besides the caller's keywords and raises TypeError, which is
   * not caught. So the call always raises and nothing is registered.
   */
  function HubCreate(h: Hub, agentType: string, name: Option<string>, extra: set<string>, hex8: string, now: nat)
    : (r: (Result<string>, Hub))
    requires Consistent(h) && IsHex8(hex8)
    ensures r.0.Raise? && r.1 == h
    ensures r.0.error == if HubClass(agentType).Some? then "TypeError" else "ValueError"
  {
    match HubClass(agentType)
    case None => (Raise("ValueError"), h)
    case Some(b) =>
      HubKeywordsRefused(b, extra);
      Enroll(h, Construct(b, HubKeywords + extra), b, name, hex8, now)
  }

  /** The first call of `initialize_team` raises TypeError, and "admin" is not a type the hub can create. */
  lemma HubCreateRaises(h: Hub, name: Option<string>, extra: set<string>, hex8: string, now: nat)
    requires Consistent(h) && IsHex8(hex8)
    ensures HubCreate(h, "research", Some("Research Agent"), {}, hex8, now) == (Raise("TypeError"), h)
    ensures HubCreate(h, "admin", name, extra, hex8, now) == (Raise("ValueError"), h)
  {
    HubClasses();
  }

  /**
   * Create an agent as the hub's `create_agent` evidently means to, with a
   * generated id, and register it: the class is built with the arguments
   * it declares.
   */
  method Hire(h: Hub, b: Blueprint, name: string, hex8: string, now: nat) returns (id: string, h': Hub)
    requires Consistent(h) && IsHex8(hex8)
    ensures Consistent(h') && h'.db == h.db && id == Hired(hex8)
    ensures h'.agents.Get(id) == Some(NewAgent(b, None, Some(name), hex8, now))
    ensures forall k :: k != id ==> h'.agents.Get(k) == h.agents.Get(k)
  {
    var a := NewAgent(b, None, Some(name), hex8, now);
    id := a.id;
    h' := Register(h, a).1;
  }

  /** The four `create_agent` calls of `initialize_team`, in order. */
  method Recruit(h: Hub, hexes: seq<string>, now: nat) returns (h': Hub)
    requires Consistent(h) && |hexes| == 4 && forall x <- hexes :: IsHex8(x)
    ensures Consistent(h') && h'.db == h.db
    ensures forall k | k != Hired(hexes[0]) && k != Hired(hexes[1]) && k != Hired(hexes[2]) && k != Hired(hexes[3]) ::
      h'.agents.Get(k) == h.agents.Get(k)
    ensures Distinct(hexes) ==>
      && h'.agents.Get(Hired(hexes[0])) == Some(NewAgent(ResearchAgent(None), None, Some(Title(ResearchRole) + " Agent"), hexes[0], now))
      && h'.agents.Get(Hired(hexes[1])) == Some(NewAgent(PlanningAgent, None, Some(Title(PlanningRole) + " Agent"), hexes[1], now))
      && h'.agents.Get(Hired(hexes[2])) == Some(NewAgent(ExecutionAgent(None), None, Some(Title(ExecutionRole) + " Agent"), hexes[2], now))
      && h'.agents.Get(Hired(hexes[3])) == Some(NewAgent(CriticAgent, None, Some(Title(CriticRole) + " Agent"), hexes[3], now))
  {
    var _, h1 := Hire(h, ResearchAgent(None), Title(ResearchRole) + " Agent", hexes[0], now);
    var _, h2 := Hire(h1, PlanningAgent, Title(PlanningRole) + " Agent", hexes[1], now);
    var _, h3 := Hire(h2, ExecutionAgent(None), Title(ExecutionRole) + " Agent", hexes[2], now);
    var _, h4 := Hire(h3, CriticAgent, Title(CriticRole) + " Agent", hexes[3], now);
    h' := h4;
    if Distinct(hexes) {
      HiredApart(hexes[0], hexes[1]);
      HiredApart(hexes[0], hexes[2]);
      HiredApart(hexes[0], hexes[3]);
      HiredApart(hexes[1], hexes[2]);
      HiredApart(hexes[1], hexes[3]);
      HiredApart(hexes[2], hexes[3]);
    }
  }

  /** The team `initialize_team` forms from the agents it creates, with a new, empty task planner. */
  function Team(hexes: seq<string>): Staff
    requires |hexes| == 4
  {
    Staff(Hired(hexes[0]), Hired(hexes[1]), Hired(hexes[2]), Hired(hexes[3]), Dicts.Empty())
  }

  /**
   * `initialize_team`: one research, planning, execution and critic agent
   * under fresh `agent_` ids, registered with the hub, become the managed
   * team, and a new task planner starts empty. With four different hex
   * strings every role is filled by a registered agent of its class,
   * named after the role.
   */
  method InitializeTeam(e: Engine, hexes: seq<string>, now: nat) returns (e': Engine)
    requires Ready(e) && |hexes| == 4 && forall x <- hexes :: IsHex8(x)
    ensures Ready(e') && e'.hub.db == e.hub.db && e'.staff == Some(Team(hexes))
    ensures e'.jobs == e.jobs && e'.assessments == e.assessments && e'.discussions == e.discussions
    ensures forall k | k != Hired(hexes[0]) && k != Hired(hexes[1]) && k != Hired(hexes[2]) && k != Hired(hexes[3]) ::
      e'.hub.agents.Get(k) == e.hub.agents.Get(k)
    ensures Distinct(hexes) ==> Staffed(e')
    ensures Distinct(hexes) ==> forall role: Role :: e'.hub.agents.m[Member(e'.staff.value, role)].name == Title(role) + " Agent"
  {
    var h := Recruit(e.hub, hexes, now);
    e' := e.(hub := h, staff := Some(Team(hexes)));
    if Distinct(hexes) {
      TeamStaffed(hexes, now, e');
    }
  }

  /** A team of fresh agents fills every role with an agent of its class, named after the role. */
  lemma TeamStaffed(hexes: seq<string>, now: nat, e': Engine)
    requires |hexes| == 4 && forall x <- hexes :: IsHex8(x)
    requires e'.staff == Some(Team(hexes))
    requires e'.hub.agents.Get(Hired(hexes[0])) == Some(NewAgent(ResearchAgent(None), None, Some(Title(ResearchRole) + " Agent"), hexes[0], now))
    requires e'.hub.agents.Get(Hired(hexes[1])) == Some(NewAgent(PlanningAgent, None, Some(Title(PlanningRole) + " Agent"), hexes[1], now))
    requires e'.hub.agents.Get(Hired(hexes[2])) == Some(NewAgent(ExecutionAgent(None), None, Some(Title(ExecutionRole) + " Agent"), hexes[2], now))
    requires e'.hub.agents.Get(Hired(hexes[3])) == Some(NewAgent(CriticAgent, None, Some(Title(CriticRole) + " Agent"), hexes[3], now))
    ensures Staffed(e')
    ensures forall role: Role :: e'.hub.agents.m[Member(e'.staff.value, role)].name == Title(role) + " Agent"
  {
  }

  // ---------------------------------------------------------------- create_task

  /** The record a new task starts with. */
  function Fresh(description: string, now: nat): Job {
    Job(description, Idle, now, Dicts.Empty(), None, 0)
  }

  /**
   * `create_task`: the record is stored under `task_` plus eight hex
   * digits, then the task planner records the task under its own id,
   * which the hub discards. Before `initialize_team` there is no planner,
   * and the call raises after storing the record.
   */
  function CreateTask(e: Engine, description: string, creator: Option<string>, hex8: string, uuid: string, now: nat)
    : (r: (Result<string>, Engine))
    requires Ready(e) && IsHex8(hex8) && |uuid| == UuidLength
    ensures Ready(r.1)
    ensures r.1.jobs.Get("task_" + hex8) == Some(Fresh(description, now))
    ensures forall k :: k != "task_" + hex8 ==> r.1.jobs.Get(k) == e.jobs.Get(k)
    ensures r.1.assessments == e.assessments && r.1.discussions == e.discussions && r.1.hub.agents == e.hub.agents
    ensures e.staff.None? <==> r.0 == Raise("AttributeError")
    ensures e.staff.None? ==> r.1.hub == e.hub && r.1.staff == e.staff
    ensures e.staff.Some? ==> r.0 == Ok("task_" + hex8)
    ensures e.staff.Some? ==> r.1.staff.Some? && SameTeam(e.staff.value, r.1.staff.value)
    ensures e.staff.Some? ==>
      var (_, ledger, db) := Planner.CreateTask(e.staff.value.ledger, e.hub.db, description, creator, uuid, now);
      r.1.staff.value.ledger == ledger && r.1.hub.db == db
  {
    var id := "task_" + hex8;
    var e1 := File(e, id, Fresh(description, now));
    if e.staff.None? then (Raise("AttributeError"), e1)
    else
      var (_, ledger, db) := Planner.CreateTask(e.staff.value.ledger, e.hub.db, description, creator, uuid, now);
      (Ok(id), Rebase(e1, db, ledger))
  }

  // ---------------------------------------------------------------- the stages

  /** `admin_id or "system"`: who the stages send as. */
  function Sender(admin: Option<string>): (s: string)
    ensures Given(admin) ==> s == admin.value
  {
    if Given(admin) then admin.value else "system"
  }

  /** `send_message` on the hub: the answer and the rows it writes. */
  method Talk(h: Hub, sender: string, recipient: string, message: string, now: nat) returns (answer: string, h': Hub)
    requires Consistent(h)
    ensures Consistent(h') && SameRoster(h, h') && h'.db.planning == h.db.planning
    ensures answer == Answer(h, sender, recipient, message)
    ensures Logged(h.db.conversations, h'.db.conversations, Trail(h, sender, recipient, message), now)
  {
    SendTrail(h, sender, recipient, message, now);
    var sent := Send(h, sender, recipient, message, now);
    answer, h' := sent.0, sent.1;
  }

  /** `decompose_task(task_id, [note])` on the team's planner; a task it does not hold changes nothing. */
  method Decompose(h: Hub, s: Staff, taskId: string, note: string, now: nat) returns (h': Hub, s': Staff)
    requires Consistent(h) && Apart(s.ledger)
    ensures Consistent(h') && Apart(s'.ledger) && SameTeam(s, s')
    ensures h'.agents == h.agents && h'.db.conversations == h.db.conversations
    ensures taskId !in s.ledger.m ==> h' == h && s' == s
  {
    var (_, ledger, db) := Planner.DecomposeTask(s.ledger, h.db, taskId, [note], now);
    assert forall k <- ledger.m :: k in s.ledger.m;
    h', s' := h.(db := db), s.(ledger := ledger);
  }

  /**
   * A stage with a managed team: send `message` to the stage's managed
   * agent `agent`, then let the planner decompose the task into the single
   * subtask `note`.
   */
  method Stage(h: Hub, s: Staff, taskId: string, agent: string, message: string, note: string, sender: string, now: nat)
    returns (answer: string, h': Hub, s': Staff)
    requires Consistent(h) && Apart(s.ledger)
    ensures Consistent(h') && Apart(s'.ledger) && SameRoster(h, h') && SameTeam(s, s')
    ensures answer == Answer(h, sender, agent, message)
    ensures Logged(h.db.conversations, h'.db.conversations, Trail(h, sender, agent, message), now)
    ensures taskId !in s.ledger.m ==> s' == s && h'.db.planning == h.db.planning
  {
    var h1;
    answer, h1 := Talk(h, sender, agent, message, now);
    h', s' := Decompose(h1, s, taskId, note, now);
  }

  function ResearchAsk(description: string): string { "Research task: " + description }
  function PlanningAsk(description: string): string { "Plan task: " + description }
  function ExecutionAsk(description: string): string { "Execute task: " + description }

  /** The request the critic receives: the three results, then the closing request to evaluate them. */
  function CritiqueRequest(taskId: string, research: string, planning: string, execution: string): string {
    Findings(taskId, research, planning, execution) + Closing
  }

  function Findings(taskId: string, research: string, planning: string, execution: string): string {
    "Critique the following task results:\n\n"
    + "Task ID: " + taskId + "\n"
    + "Research Results:\n" + research + "\n\n"
    + "Planning Results:\n" + planning + "\n\n"
    + "Execution Results:\n" + execution + "\n\n"
  }

  const Closing: string := "Please " + "evaluate" + " the quality, " + "completeness, and accuracy " + "of these results."

  /** The closing sentence asks to "evaluate", in lower case already. */
  lemma ClosingEvaluates()
    ensures Contains(Lower(Closing), "evaluate")
  {
    var a, b, rest := "Please ", "evaluate", " the quality, " + "completeness, and accuracy " + "of these results.";
    assert Closing == (a + b) + rest;
    LowerAppend(a + b, rest);
    LowerAppend(a, b);
    assert Lower(b) == b;
    ContainsAt(b, b, 0);
    ContainsInSuffix(Lower(a), Lower(b), b);
    ContainsInPrefix(Lower(a + b), Lower(rest), b);
  }

  /** Whatever the three results say, the critic is asked to "evaluate" them. */
  lemma RequestEvaluates(taskId: string, research: string, planning: string, execution: string)
    ensures Contains(Lower(CritiqueRequest(taskId, research, planning, execution)), "evaluate")
  {
    var head := Findings(taskId, research, planning, execution);
    LowerAppend(head, Closing);
    ClosingEvaluates();
    ContainsInSuffix(Lower(head), Lower(Closing), "evaluate");
  }

  /** The results of a run, keyed by role. */
  function Collect(research: string, planning: string, execution: string, critique: string): (d: Dict<Role, string>)
    ensures d.Valid() && d.keys == Roles
    ensures d.m[ResearchRole] == research && d.m[PlanningRole] == planning
    ensures d.m[ExecutionRole] == execution && d.m[CriticRole] == critique
  {
    Dict(Roles, map[ResearchRole := research, PlanningRole := planning, ExecutionRole := execution, CriticRole := critique])
  }

  /** The rows the research, planning and execution stages write. */
  function Work(h: Hub, sender: string, s: Staff, description: string): seq<(string, string, string)>
    requires Consistent(h)
  {
    Trail(h, sender, s.research, ResearchAsk(description))
    + Trail(h, sender, s.planning, PlanningAsk(description))
    + Trail(h, sender, s.execution, ExecutionAsk(description))
  }

  /** The research, planning and execution stages, in the order `asyncio.gather` runs them. */
  method Prepare(h: Hub, s: Staff, taskId: string, description: string, sender: string, now: nat)
    returns (research: string, planning: string, execution: string, h': Hub, s': Staff)
    requires Consistent(h) && Apart(s.ledger)
    ensures Consistent(h') && Apart(s'.ledger) && SameRoster(h, h') && SameTeam(s, s')
    ensures research == Answer(h, sender, s.research, ResearchAsk(description))
    ensures planning == Answer(h, sender, s.planning, PlanningAsk(description))
    ensures execution == Answer(h, sender, s.execution, ExecutionAsk(description))
    ensures Logged(h.db.conversations, h'.db.conversations, Work(h, sender, s, description), now)
    ensures taskId !in s.ledger.m ==> s' == s && h'.db.planning == h.db.planning
  {
    var h1, s1, h2, s2;
    research, h1, s1 := Stage(h, s, taskId, s.research, ResearchAsk(description), "Research: " + description, sender, now);
    planning, h2, s2 := Stage(h1, s1, taskId, s1.planning, PlanningAsk(description), "Planning: " + description, sender, now);
    execution, h', s' := Stage(h2, s2, taskId, s2.execution, ExecutionAsk(description), "Execution: " + description, sender, now);
    SameRosterChain(h, h1, h2);
    SameRosterChain(h, h2, h');
    Relay(h, h1, h2, h', sender, s.research, ResearchAsk(description), s.planning, PlanningAsk(description),
      s.execution, ExecutionAsk(description), research, planning, execution, now);
  }

  /** Three messages in a row, each answer and row stated against the hub the first one started from. */
  lemma Relay(h: Hub, h1: Hub, h2: Hub, h3: Hub, sender: string,
              a1: string, m1: string, a2: string, m2: string, a3: string, m3: string,
              r1: string, r2: string, r3: string, now: nat)
    requires Consistent(h) && Consistent(h1) && Consistent(h2) && Consistent(h3)
    requires SameRoster(h, h1) && SameRoster(h1, h2)
    requires r2 == Answer(h1, sender, a2, m2) && r3 == Answer(h2, sender, a3, m3)
    requires Logged(h.db.conversations, h1.db.conversations, Trail(h, sender, a1, m1), now)
    requires Logged(h1.db.conversations, h2.db.conversations, Trail(h1, sender, a2, m2), now)
    requires Logged(h2.db.conversations, h3.db.conversations, Trail(h2, sender, a3, m3), now)
    ensures r2 == Answer(h, sender, a2, m2) && r3 == Answer(h, sender, a3, m3)
    ensures Logged(h.db.conversations, h3.db.conversations, Trail(h, sender, a1, m1) + Trail(h, sender, a2, m2) + Trail(h, sender, a3, m3), now)
  {
    SameRosterChain(h, h1, h2);
    var c0, c1, c2, c3 := h.db.conversations, h1.db.conversations, h2.db.conversations, h3.db.conversations;
    AnswerRoster(h, h1, sender, a2, m2);
    AnswerRoster(h, h2, sender, a3, m3);
    LoggedChain(c0, c1, c2, Trail(h, sender, a1, m1), Trail(h, sender, a2, m2), now);
    LoggedChain(c0, c2, c3, Trail(h, sender, a1, m1) + Trail(h, sender, a2, m2), Trail(h, sender, a3, m3), now);
  }

  /** The request the critic receives after the first three stages with a managed team. */
  function Review(h: Hub, sender: string, s: Staff, taskId: string, description: string): string
    requires Consistent(h)
  {
    CritiqueRequest(taskId,
      Answer(h, sender, s.research, ResearchAsk(description)),
      Answer(h, sender, s.planning, PlanningAsk(description)),
      Answer(h, sender, s.execution, ExecutionAsk(description)))
  }

  /** What the four stages answer with a managed team, each agent answering as the hub's `send_message` does. */
  function Expected(h: Hub, sender: string, s: Staff, taskId: string, description: string): Dict<Role, string>
    requires Consistent(h)
  {
    Collect(
      Answer(h, sender, s.research, ResearchAsk(description)),
      Answer(h, sender, s.planning, PlanningAsk(description)),
      Answer(h, sender, s.execution, ExecutionAsk(description)),
      Answer(h, sender, s.critic, Review(h, sender, s, taskId, description)))
  }

  /** The rows the four stages write with a managed team. */
  function Exchange(h: Hub, sender: string, s: Staff, taskId: string, description: string): seq<(string, string, string)>
    requires Consistent(h)
  {
    Work(h, sender, s, description) + Trail(h, sender, s.critic, Review(h, sender, s, taskId, description))
  }

  /**
   * A registered critic of the shipped class is always asked to
   * "evaluate", so its critique is the fixed answer of that keyword,
   * whatever the other agents said, and it scores one half.
   */
  lemma ShippedReview(h: Hub, sender: string, s: Staff, taskId: string, description: string)
    requires Consistent(h) && s.critic in h.agents.m && h.agents.m[s.critic].kind.Critic?
    ensures Expected(h, sender, s, taskId, description).m[CriticRole] == "I'll evaluate that for you and provide feedback."
    ensures Score(Expected(h, sender, s, taskId, description).m[CriticRole]) == 0.5
  {
    var request := Review(h, sender, s, taskId, description);
    RequestEvaluates(taskId,
      Answer(h, sender, s.research, ResearchAsk(description)),
      Answer(h, sender, s.planning, PlanningAsk(description)),
      Answer(h, sender, s.execution, ExecutionAsk(description)));
    CriticHearsEvaluate(h.agents.m[s.critic], sender, request);
    var critique := Expected(h, sender, s, taskId, description).m[CriticRole];
    assert critique == "I'll evaluate that for you and provide feedback.";
    CriticAnswerNeutral();
  }

  /**
   * The four stages with a managed team, the critique seeing the three
   * answers before it: each result is its agent's answer and the
   * conversation log gains the rows of the four exchanges; a task the
   * planner does not hold leaves the planner and its table as they were.
   */
  method Gather(h: Hub, s: Staff, taskId: string, description: string, sender: string, now: nat)
    returns (results: Dict<Role, string>, h': Hub, s': Staff)
    requires Consistent(h) && Apart(s.ledger)
    ensures Consistent(h') && Apart(s'.ledger) && SameRoster(h, h') && SameTeam(s, s')
    ensures results == Expected(h, sender, s, taskId, description)
    ensures Logged(h.db.conversations, h'.db.conversations, Exchange(h, sender, s, taskId, description), now)
    ensures taskId !in s.ledger.m ==> s' == s && h'.db.planning == h.db.planning
  {
    var r1, r2, r3, h3, s3 := Prepare(h, s, taskId, description, sender, now);
    var request := CritiqueRequest(taskId, r1, r2, r3);
    var c;
    c, h', s' := Stage(h3, s3, taskId, s3.critic, request, "Critique of results", sender, now);
    SameRosterChain(h, h3, h');
    results := Collect(r1, r2, r3, c);
    AnswerRoster(h, h3, sender, s.critic, request);
    LoggedChain(h.db.conversations, h3.db.conversations, h'.db.conversations,
      Work(h, sender, s, description), Trail(h, sender, s.critic, request), now);
  }

  // ---------------------------------------------------------------- evaluate_quality and execute_task

  /** `evaluate_quality`: the score of the critique, stored as the task's one current assessment. */
  function EvaluateQuality(e: Engine, taskId: string, critique: string, now: nat): (r: (real, Engine))
    requires Ready(e)
    ensures Ready(r.1) && r.0 == Score(critique)
    ensures r.1 == e.(assessments := r.1.assessments)
    ensures r.1.assessments.Get(taskId) == Some(Assessment(Score(critique), critique, now))
    ensures forall k :: k != taskId ==> r.1.assessments.Get(k) == e.assessments.Get(k)
  {
    var score := Score(critique);
    (score, Appraise(e, taskId, Assessment(score, critique, now)))
  }

  /** The error `execute_task` answers for an unknown task. */
  function NotFound(taskId: string): string {
    "Task " + taskId + " not found"
  }

  /** The end of a run: score the critique, then store the results and the score and mark the record finished. */
  function Conclude(e: Engine, taskId: string, job: Job, results: Dict<Role, string>, now: nat): (e': Engine)
    requires Ready(e) && taskId in e.jobs.m && results.Valid() && CriticRole in results.m
    ensures Ready(e') && e'.hub == e.hub && e'.staff == e.staff && e'.discussions == e.discussions
    ensures e'.jobs.keys == e.jobs.keys
    ensures e'.jobs.Get(taskId) == Some(Ran(job, results, Score(results.m[CriticRole])))
    ensures forall k :: k != taskId ==> e'.jobs.Get(k) == e.jobs.Get(k)
    ensures e'.assessments.Get(taskId) == Some(Assessment(Score(results.m[CriticRole]), results.m[CriticRole], now))
    ensures forall k :: k != taskId ==> e'.assessments.Get(k) == e.assessments.Get(k)
  {
    var (score, e1) := EvaluateQuality(e, taskId, results.m[CriticRole], now);
    File(e1, taskId, Ran(job, results, score))
  }

  /**
   * `execute_task`: the record is marked running and its iteration count
   * raised, the four stages run, and the record ends finished with the
   * results and the critique's score. Without a managed team every stage
   * answers its fixed text. A hub task id is never a planner id, so the
   * planner and its table are left as they were.
   */
  method ExecuteTask(e: Engine, taskId: string, admin: Option<string>, now: nat) returns (report: Report, e': Engine)
    requires Ready(e)
    ensures Ready(e')
    ensures taskId !in e.jobs.m ==> report == Missing(NotFound(taskId)) && e' == e
    ensures taskId in e.jobs.m ==>
      && report.Report? && report.results.Valid() && report.results.keys == Roles
      && Concluded(e, e', taskId, report.results, now)
      && e'.discussions == e.discussions && e'.staff == e.staff
      && SameRoster(e.hub, e'.hub) && e'.hub.db.planning == e.hub.db.planning
    ensures taskId in e.jobs.m && e.staff.None? ==>
      e'.hub == e.hub && report.results == Collect(
        Unavailable(ResearchRole), Unavailable(PlanningRole), Unavailable(ExecutionRole), Unavailable(CriticRole))
    ensures taskId in e.jobs.m && e.staff.Some? ==>
      && report.results == Expected(e.hub, Sender(admin), e.staff.value, taskId, e.jobs.m[taskId].description)
      && Logged(e.hub.db.conversations, e'.hub.db.conversations,
           Exchange(e.hub, Sender(admin), e.staff.value, taskId, e.jobs.m[taskId].description), now)
  {
    if taskId !in e.jobs.m {
      return Missing(NotFound(taskId)), e;
    }
    var job := e.jobs.m[taskId];
    var e1 := File(e, taskId, job.(state := Running, iterations := job.iterations + 1));
    var results, e2 := Perform(e1, taskId, job.description, admin, now);
    e' := Conclude(e2, taskId, job, results, now);
    report := Report(results);
  }

  /**
   * The stages of `execute_task` for a filed task: the managed team's four
   * answers, or the fixed texts without a team. Only the hub changes; the
   * planner is left alone because a hub task id is never a planner id.
   */
  method Perform(e: Engine, taskId: string, description: string, admin: Option<string>, now: nat)
    returns (results: Dict<Role, string>, e': Engine)
    requires Ready(e) && taskId in e.jobs.m
    ensures Ready(e') && e' == e.(hub := e'.hub)
    ensures results.Valid() && results.keys == Roles
    ensures SameRoster(e.hub, e'.hub) && e'.hub.db.planning == e.hub.db.planning
    ensures e.staff.None? ==>
      e'.hub == e.hub && results == Collect(
        Unavailable(ResearchRole), Unavailable(PlanningRole), Unavailable(ExecutionRole), Unavailable(CriticRole))
    ensures e.staff.Some? ==>
      && results == Expected(e.hub, Sender(admin), e.staff.value, taskId, description)
      && Logged(e.hub.db.conversations, e'.hub.db.conversations,
           Exchange(e.hub, Sender(admin), e.staff.value, taskId, description), now)
  {
    if e.staff.None? {
      results := Collect(Unavailable(ResearchRole), Unavailable(PlanningRole), Unavailable(ExecutionRole), Unavailable(CriticRole));
      e' := e;
    } else {
      assert |taskId| != UuidLength;
      var h, s;
      results, h, s := Gather(e.hub, e.staff.value, taskId, description, Sender(admin), now);
      e' := e.(hub := h, staff := Some(s));
    }
  }

  // ---------------------------------------------------------------- improve_task_results

  /**
   * `execute_task` as the improvement loop calls it, without an admin:
   * the record is finished with one more iteration, and when every
   * critique a run can produce is neutral, its score is one half.
   */
  method Retry(e: Engine, taskId: string, now: nat) returns (e': Engine)
    requires Ready(e) && taskId in e.jobs.m
    ensures Ready(e') && e'.staff == e.staff && SameRoster(e.hub, e'.hub)
    ensures e'.jobs.keys == e.jobs.keys && taskId in e'.jobs.m
    ensures forall k :: k != taskId ==> e'.jobs.Get(k) == e.jobs.Get(k)
    ensures e'.jobs.m[taskId].state == Finished && e'.jobs.m[taskId].iterations == e.jobs.m[taskId].iterations + 1
    ensures Neutral(e) ==> e'.jobs.m[taskId].quality == Some(0.5)
  {
    var report;
    report, e' := ExecuteTask(e, taskId, None, now);
    if e.staff.None? {
      UnavailableNeutral();
    } else if Neutral(e) {
      ShippedReview(e.hub, Sender(None), e.staff.value, taskId, e.jobs.m[taskId].description);
    }
  }

  /**
   * One round of the improvement loop: a discussion, which raises without
   * a team, then another run of the task.
   */
  method Round(e: Engine, taskId: string, hex8: string, now: nat) returns (raised: bool, e': Engine)
    requires Ready(e) && taskId in e.jobs.m
    ensures Ready(e') && e'.staff == e.staff && SameRoster(e.hub, e'.hub)
    ensures e'.jobs.keys == e.jobs.keys && taskId in e'.jobs.m
    ensures forall k :: k != taskId ==> e'.jobs.Get(k) == e.jobs.Get(k)
    ensures raised <==> e.staff.None?
    ensures raised ==> e'.jobs == e.jobs
    ensures !raised ==> e'.jobs.m[taskId].state == Finished && e'.jobs.m[taskId].iterations == e.jobs.m[taskId].iterations + 1
    ensures !raised && Neutral(e) ==> e'.jobs.m[taskId].quality == Some(0.5)
  {
    var outcome;
    outcome, e' := InitiateDiscussion(e, taskId, hex8, now);
    if outcome.Raise? {
      return true, e';
    }
    if Neutral(e) {
      NeutralRoster(e, e');
    }
    var discussed := e';
    e' := Retry(discussed, taskId, now);
    SameRosterChain(e.hub, discussed.hub, e'.hub);
    raised := false;
  }

  function Max(a: int, b: int): int {
    if a < b then b else a
  }

  /**
   * `improve_task_results`: run the task if it has not finished, then
   * discuss and run it again while its score is below `minQuality` and
   * fewer than `maxIterations` runs were made; the answer is the final
   * results. `hexes` stand for the random parts of the discussion ids.
   * Since the shipped critic is always asked to "evaluate", its critique
   * scores one half, so a threshold above one half is never reached and
   * the loop runs to the iteration limit; without a team, the first
   * discussion raises.
   */
  method ImproveTaskResults(e: Engine, taskId: string, minQuality: real, maxIterations: int, hexes: seq<string>, now: nat)
    returns (r: Result<Report>, e': Engine)
    requires Ready(e) && maxIterations <= |hexes|
    ensures Ready(e')
    ensures taskId !in e.jobs.m ==> r == Ok(Missing(NotFound(taskId))) && e' == e
    ensures taskId in e.jobs.m ==>
      && e'.staff == e.staff && SameRoster(e.hub, e'.hub)
      && e'.jobs.keys == e.jobs.keys && taskId in e'.jobs.m && e'.jobs.m[taskId].state == Finished
      && (forall k :: k != taskId ==> e'.jobs.Get(k) == e.jobs.Get(k))
    ensures r.Raise? ==> r == Raise("AttributeError") && e.staff.None?
    ensures taskId in e.jobs.m && r.Ok? ==>
      && r.value == Report(e'.jobs.m[taskId].results)
      && (minQuality <= e'.jobs.m[taskId].quality.value || maxIterations <= e'.jobs.m[taskId].iterations)
    ensures taskId in e.jobs.m && e.jobs.m[taskId].state != Finished && Neutral(e) && 0.5 < minQuality ==>
      && e'.jobs.m[taskId].quality == Some(0.5)
      && (e.staff.Some? ==> r.Ok? && e'.jobs.m[taskId].iterations == Max(maxIterations, e.jobs.m[taskId].iterations + 1))
      && (e.staff.None? ==> (r.Raise? <==> e.jobs.m[taskId].iterations + 1 < maxIterations))
  {
    if taskId !in e.jobs.m {
      return Ok(Missing(NotFound(taskId))), e;
    }
    var unrun := e.jobs.m[taskId].state != Finished;
    e' := e;
    if unrun {
      e' := Retry(e, taskId, now);
    }
    ghost var first := e'.jobs.m[taskId].iterations;
    var pass: nat := 0;
    while e'.jobs.m[taskId].quality.value < minQuality && e'.jobs.m[taskId].iterations < maxIterations
      invariant Ready(e') && e'.staff == e.staff && SameRoster(e.hub, e'.hub)
      invariant e'.jobs.keys == e.jobs.keys && taskId in e'.jobs.m && e'.jobs.m[taskId].state == Finished
      invariant forall k :: k != taskId ==> e'.jobs.Get(k) == e.jobs.Get(k)
      invariant e'.jobs.m[taskId].iterations == first + pass
      invariant pass > 0 ==> e'.jobs.m[taskId].iterations <= maxIterations
      invariant unrun ==> first == e.jobs.m[taskId].iterations + 1
      invariant e.staff.None? ==> pass == 0
      invariant unrun && Neutral(e) ==> e'.jobs.m[taskId].quality == Some(0.5)
      decreases maxIterations - e'.jobs.m[taskId].iterations
    {
      var raised;
      var before := e';
      if Neutral(e) {
        NeutralRoster(e, before);
      }
      raised, e' := Round(before, taskId, hexes[pass], now);
      SameRosterChain(e.hub, before.hub, e'.hub);
      if raised {
        return Raise("AttributeError"), e';
      }
      pass := pass + 1;
    }
    r := Ok(Report(e'.jobs.m[taskId].results));
  }

  // ---------------------------------------------------------------- initiate_discussion

  /** The sender and recipient name of the hub itself in a discussion. */
  const System: string := "system"

  function DiscussionId(hex8: string): string {
    "discussion_" + hex8
  }

  /** The opening of a discussion prompt, up to the critique. */
  function Opening(taskId: string): string {
    "We need to improve the results for task " + taskId + ". "
    + "The critique identified the following issues:\n\n"
  }

  const Invitation: string := "\n\n" + "Let's discuss how to address these issues " + "and improve the results."

  function DiscussionPrompt(taskId: string, critique: string): string {
    Opening(taskId) + critique + Invitation
  }

  /** The prompt of a discussion about a task: its critique, or a placeholder when its results hold none. */
  function Topic(taskId: string, job: Job): string {
    DiscussionPrompt(taskId, job.results.Get(CriticRole).GetOr("No critique available"))
  }

  /** The prompt quotes the task's critique, or the placeholder when there is none. */
  lemma TopicQuotesCritique(taskId: string, job: Job)
    ensures CriticRole in job.results.m ==> Contains(Topic(taskId, job), job.results.m[CriticRole])
    ensures CriticRole !in job.results.m ==> Contains(Topic(taskId, job), "No critique available")
  {
    var critique := job.results.Get(CriticRole).GetOr("No critique available");
    ContainsAt(critique, critique, 0);
    ContainsInSuffix(Opening(taskId), critique, critique);
    ContainsInPrefix(Opening(taskId) + critique, Invitation, critique);
  }

  function PlanningPrompt(research: string): string {
    "Based on the research agent's response:\n\n" + research + "\n\nHow would you improve the plan?"
  }

  function ExecutionPrompt(research: string, planning: string): string {
    "Based on the research and planning responses:\n\n"
    + "Research: " + research + "\n\n"
    + "Planning: " + planning + "\n\n"
    + "How would you improve the execution?"
  }

  /**
   * The six posts of a discussion with a managed team: the prompt to the
   * research agent, then each answer passed on to the next agent, every
   * agent answering as the hub's `send_message` does.
   */
  function Debate(h: Hub, s: Staff, prompt: string, now: nat): seq<Post>
    requires Consistent(h)
  {
    var r1 := Answer(h, System, s.research, prompt);
    var r2 := Answer(h, System, s.planning, PlanningPrompt(r1));
    var r3 := Answer(h, System, s.execution, ExecutionPrompt(r1, r2));
    Hop(System, s.research, prompt, r1, now)
    + Hop(System, s.planning, PlanningPrompt(r1), r2, now)
    + Hop(System, s.execution, ExecutionPrompt(r1, r2), r3, now)
  }

  /** A message to an agent and the agent's reply, as two posts. */
  function Hop(sender: string, recipient: string, message: string, reply: string, now: nat): seq<Post> {
    [Post(sender, recipient, message, now), Post(recipient, sender, reply, now)]
  }

  /** The conversation rows of the same discussion. */
  function DebateTrail(h: Hub, s: Staff, prompt: string): seq<(string, string, string)>
    requires Consistent(h)
  {
    var r1 := Answer(h, System, s.research, prompt);
    var r2 := Answer(h, System, s.planning, PlanningPrompt(r1));
    Trail(h, System, s.research, prompt)
    + Trail(h, System, s.planning, PlanningPrompt(r1))
    + Trail(h, System, s.execution, ExecutionPrompt(r1, r2))
  }

  /** Sender, recipient and text of each post. */
  function Rows(posts: seq<Post>): (rows: seq<(string, string, string)>)
    ensures |rows| == |posts|
    ensures forall i | 0 <= i < |posts| :: rows[i] == (posts[i].sender, posts[i].recipient, posts[i].message)
  {
    seq(|posts|, i requires 0 <= i < |posts| => (posts[i].sender, posts[i].recipient, posts[i].message))
  }

  /**
   * The discussion's posts are exactly the rows the hub logs for it when
   * the three agents are registered; otherwise the hub logs no answer for
   * a missing agent while the discussion still records one.
   */
  lemma DebateMirrorsLog(h: Hub, s: Staff, prompt: string, now: nat)
    requires Consistent(h)
    ensures Rows(Debate(h, s, prompt, now)) == DebateTrail(h, s, prompt)
      <==> s.research in h.agents.m && s.planning in h.agents.m && s.execution in h.agents.m
  {
    var r1 := Answer(h, System, s.research, prompt);
    var r2 := Answer(h, System, s.planning, PlanningPrompt(r1));
    var r3 := Answer(h, System, s.execution, ExecutionPrompt(r1, r2));
    var p1 := Hop(System, s.research, prompt, r1, now);
    var p2 := Hop(System, s.planning, PlanningPrompt(r1), r2, now);
    var p3 := Hop(System, s.execution, ExecutionPrompt(r1, r2), r3, now);
    assert Rows(Debate(h, s, prompt, now)) == Rows(p1) + Rows(p2) + Rows(p3) by {
      RowsAppend(p1 + p2, p3);
      RowsAppend(p1, p2);
    }
    HopRows(h, System, s.research, prompt, now);
    HopRows(h, System, s.planning, PlanningPrompt(r1), now);
    HopRows(h, System, s.execution, ExecutionPrompt(r1, r2), now);
  }

  lemma RowsAppend(a: seq<Post>, b: seq<Post>)
    ensures Rows(a + b) == Rows(a) + Rows(b)
  {
    assert forall i | 0 <= i < |a| :: (a + b)[i] == a[i];
    assert forall i | |a| <= i < |a| + |b| :: (a + b)[i] == b[i - |a|];
  }

  /** A hop's posts are the rows the hub logs for it exactly when the recipient is registered; otherwise one row is logged. */
  lemma HopRows(h: Hub, sender: string, recipient: string, message: string, now: nat)
    requires Consistent(h)
    ensures recipient in h.agents.m ==> Rows(Hop(sender, recipient, message, Answer(h, sender, recipient, message), now)) == Trail(h, sender, recipient, message)
    ensures recipient !in h.agents.m ==> |Trail(h, sender, recipient, message)| == 1
  {
    var rows := Rows(Hop(sender, recipient, message, Answer(h, sender, recipient, message), now));
    assert |rows| == 2 && rows[0] == (sender, recipient, message);
    assert rows[1] == (recipient, sender, Answer(h, sender, recipient, message));
  }

  /** The three messages of a discussion, from the hub itself. */
  method Deliberate(h: Hub, s: Staff, prompt: string, now: nat) returns (posts: seq<Post>, h': Hub)
    requires Consistent(h)
    ensures Consistent(h') && SameRoster(h, h') && h'.db.planning == h.db.planning
    ensures posts == Debate(h, s, prompt, now)
    ensures Logged(h.db.conversations, h'.db.conversations, DebateTrail(h, s, prompt), now)
  {
    var r1, h1 := Talk(h, System, s.research, prompt, now);
    var r2, h2 := Talk(h1, System, s.planning, PlanningPrompt(r1), now);
    var r3, h3 := Talk(h2, System, s.execution, ExecutionPrompt(r1, r2), now);
    SameRosterChain(h, h1, h2);
    SameRosterChain(h, h2, h3);
    Relay(h, h1, h2, h3, System, s.research, prompt, s.planning, PlanningPrompt(r1),
      s.execution, ExecutionPrompt(r1, r2), r1, r2, r3, now);
    posts := Hop(System, s.research, prompt, r1, now)
      + Hop(System, s.planning, PlanningPrompt(r1), r2, now)
      + Hop(System, s.execution, ExecutionPrompt(r1, r2), r3, now);
    h' := h3;
  }

  /**
   * `initiate_discussion`: an unknown task raises before anything is
   * stored. Otherwise the discussion is stored, active, under
   * `discussion_` plus the given hex digits; without a team the first
   * agent lookup raises and the discussion stays active and empty; with
   * one, the research, planning and execution agents each answer in turn
   * and the discussion is concluded.
   */
  method InitiateDiscussion(e: Engine, taskId: string, hex8: string, now: nat) returns (r: Result<string>, e': Engine)
    requires Ready(e)
    ensures Ready(e') && e'.jobs == e.jobs && e'.assessments == e.assessments && e'.staff == e.staff
    ensures SameRoster(e.hub, e'.hub) && e'.hub.db.planning == e.hub.db.planning
    ensures taskId !in e.jobs.m ==> r == Raise("KeyError") && e' == e
    ensures taskId in e.jobs.m ==> forall k :: k != DiscussionId(hex8) ==> e'.discussions.Get(k) == e.discussions.Get(k)
    ensures taskId in e.jobs.m && e.staff.None? ==>
      && r == Raise("AttributeError") && e'.hub == e.hub
      && e'.discussions.Get(DiscussionId(hex8)) == Some(Discussion(taskId, Topic(taskId, e.jobs.m[taskId]), [], now, true, None))
    ensures taskId in e.jobs.m && e.staff.Some? ==>
      && r == Ok(DiscussionId(hex8))
      && e'.discussions.Get(DiscussionId(hex8)) == Some(Discussion(taskId, Topic(taskId, e.jobs.m[taskId]),
           Debate(e.hub, e.staff.value, Topic(taskId, e.jobs.m[taskId]), now), now, false, Some(now)))
      && Logged(e.hub.db.conversations, e'.hub.db.conversations,
           DebateTrail(e.hub, e.staff.value, Topic(taskId, e.jobs.m[taskId])), now)
  {
    if taskId !in e.jobs.m {
      return Raise("KeyError"), e;
    }
    var id := DiscussionId(hex8);
    var prompt := Topic(taskId, e.jobs.m[taskId]);
    if e.staff.None? {
      return Raise("AttributeError"), Open(e, id, Discussion(taskId, prompt, [], now, true, None));
    }
    var posts, h := Deliberate(e.hub, e.staff.value, prompt, now);
    e' := Open(e.(hub := h), id, Discussion(taskId, prompt, posts, now, false, Some(now)));
    r := Ok(id);
  }
}

=== FILE: planner.dfy ===
/**
 * The task ledger of app/planning/task_planner.py: tasks by id, each with
 * its subtasks and its assignments, and a planning row in the shared
 * database for every change. Work is handed out through the message hub.
 * Every call reads the clock once, as `now`; `uuid4()` is the parameter
 * `uuid`.
 */
module Planner {
  import opened Wrappers
  import opened Text
  import opened Dicts
  import opened Db
  import opened Router

  datatype Subtask = Subtask(
    id: string, description: string, status: string, createdAt: nat,
    agent: Option<string>, assignedAt: Option<nat>, completedAt: Option<nat>)

  datatype Assignment = Assignment(status: string, assignedAt: nat)

  datatype Task = Task(
    description: string, creator: Option<string>, status: string,
    subtasks: seq<Subtask>, assignments: Dict<string, Assignment>,
    createdAt: nat, updatedAt: Option<nat>)

  /** `self.tasks`: task id to task, in creation order. */
  type Tasks = Dict<string, Task>

  predicate Sound(ts: Tasks) {
    ts.Valid() && forall k <- ts.m :: ts.m[k].assignments.Valid()
  }

  // ---------------------------------------------------------------- the planning log

  /** What a planning row records, apart from its id and timestamps. */
  datatype Note = Note(taskId: string, agentId: Option<string>, planType: string, content: string, status: string)

  function NoteOf(r: PlanningRow): Note {
    Note(r.taskId, r.agentId, r.planType, r.content, r.status)
  }

  /** `after` is `before` followed by one row per note, in order, all created `now`. */
  predicate Noted(before: seq<PlanningRow>, after: seq<PlanningRow>, notes: seq<Note>, now: nat) {
    && |after| == |before| + |notes|
    && after[..|before|] == before
    && (forall i | 0 <= i < |notes| :: NoteOf(after[|before| + i]) == notes[i] && after[|before| + i].createdAt == now)
  }

  lemma NotedChain(a: seq<PlanningRow>, b: seq<PlanningRow>, c: seq<PlanningRow>, n1: seq<Note>, n2: seq<Note>, now: nat)
    requires Noted(a, b, n1, now) && Noted(b, c, n2, now)
    ensures Noted(a, c, n1 + n2, now)
  {
    assert c[..|a|] == c[..|b|][..|a|];
    forall i | 0 <= i < |n1 + n2|
      ensures NoteOf(c[|a| + i]) == (n1 + n2)[i] && c[|a| + i].createdAt == now
    {
      if i < |n1| {
        assert c[|a| + i] == c[..|b|][|a| + i];
      } else {
        assert c[|a| + i] == c[|b| + (i - |n1|)];
      }
    }
  }

  /** Only the planning table changed. */
  predicate PlanningOnly(db: Db, db': Db) {
    db'.memories == db.memories && db'.conversations == db.conversations && db'.tables == db.tables
  }

  /** `record_planning` of one note. */
  function Record(db: Db, n: Note, now: nat): (db': Db)
    requires Valid(db)
    ensures Valid(db') && PlanningOnly(db, db')
    ensures Noted(db.planning, db'.planning, [n], now)
  {
    var db' := RecordPlanning(db, n.taskId, n.agentId, n.planType, n.content, n.status, now).1;
    assert db'.planning[..|db.planning|] == db.planning;
    db'
  }

  lemma HeadTail<T>(s: seq<T>)
    requires |s| > 0
    ensures [s[0]] + s[1..] == s
  {
  }

  /** `record_planning` of each note in turn. */
  function RecordAll(db: Db, notes: seq<Note>, now: nat): (db': Db)
    requires Valid(db)
    ensures Valid(db') && PlanningOnly(db, db')
    ensures Noted(db.planning, db'.planning, notes, now)
    decreases |notes|
  {
    if |notes| == 0 then
      assert db.planning[..|db.planning|] == db.planning;
      db
    else
      var db1 := Record(db, notes[0], now);
      var db2 := RecordAll(db1, notes[1..], now);
      NotedChain(db.planning, db1.planning, db2.planning, [notes[0]], notes[1..], now);
      HeadTail(notes);
      db2
  }

  /** The row `update_task_status` writes. */
  function StatusNote(taskId: string, status: string): Note {
    Note(taskId, Some("system"), "status_update", "Status updated to: " + status, status)
  }

  // ---------------------------------------------------------------- tasks

  /** The ledger with task `id` replaced by `t`. */
  function SetTask(ts: Tasks, id: string, t: Task): (ts': Tasks)
    requires Sound(ts) && id in ts.m && t.assignments.Valid()
    ensures Sound(ts') && ts'.keys == ts.keys && ts'.m == ts.m[id := t]
  {
    ts.Put(id, t)
  }

  /** `create_task`: a fresh task with no subtasks and no assignments, and its `task_creation` row. */
  function CreateTask(ts: Tasks, db: Db, description: string, creator: Option<string>, uuid: string, now: nat)
    : (r: (string, Tasks, Db))
    requires Sound(ts) && Valid(db)
    ensures r.0 == uuid
    ensures Sound(r.1) && Valid(r.2) && PlanningOnly(db, r.2)
    ensures r.1.Get(uuid) == Some(Task(description, creator, "created", [], Empty(), now, None))
    ensures forall k :: k != uuid ==> r.1.Get(k) == ts.Get(k)
    ensures uuid !in ts.m ==> r.1.keys == ts.keys + [uuid]
    ensures Noted(db.planning, r.2.planning, [Note(uuid, creator, "task_creation", description, DefaultStatus)], now)
  {
    var t := Task(description, creator, "created", [], Empty(), now, None);
    PutValid(ts, uuid, t);
    (uuid, ts.Put(uuid, t), Record(db, Note(uuid, creator, "task_creation", description, DefaultStatus), now))
  }

  /** `update_task_status`: a known task takes the status and a `status_update` row; an unknown id changes nothing. */
  function UpdateTaskStatus(ts: Tasks, db: Db, taskId: string, status: string, now: nat): (r: (bool, Tasks, Db))
    requires Sound(ts) && Valid(db)
    ensures r.0 <==> taskId in ts.m
    ensures Sound(r.1) && Valid(r.2) && PlanningOnly(db, r.2) && r.1.keys == ts.keys
    ensures !r.0 ==> r.1 == ts && r.2 == db
    ensures r.0 ==> r.1.m == ts.m[taskId := ts.m[taskId].(status := status, updatedAt := Some(now))]
    ensures r.0 ==> Noted(db.planning, r.2.planning, [StatusNote(taskId, status)], now)
  {
    if taskId in ts.m then
      (true, SetTask(ts, taskId, ts.m[taskId].(status := status, updatedAt := Some(now))),
       Record(db, StatusNote(taskId, status), now))
    else (false, ts, db)
  }

  /** `get_task_status`. */
  function TaskStatus(ts: Tasks, taskId: string): Option<string> {
    if taskId in ts.m then Some(ts.m[taskId].status) else None
  }

  /** Reading a status back after setting it gives that status, and no other task's status moves. */
  lemma UpdateThenStatus(ts: Tasks, db: Db, taskId: string, status: string, now: nat, other: string)
    requires Sound(ts) && Valid(db) && taskId in ts.m && other != taskId
    ensures TaskStatus(UpdateTaskStatus(ts, db, taskId, status, now).1, taskId) == Some(status)
    ensures TaskStatus(UpdateTaskStatus(ts, db, taskId, status, now).1, other) == TaskStatus(ts, other)
  {
  }

  // ---------------------------------------------------------------- subtasks

  /** The id of the `i`-th subtask made by one `decompose_task` call. */
  function SubtaskId(taskId: string, i: nat): string {
    taskId + "_subtask_" + NatToString(i)
  }

  function NewSubtasks(taskId: string, descs: seq<string>, now: nat): seq<Subtask> {
    seq(|descs|, i requires 0 <= i < |descs| => Subtask(SubtaskId(taskId, i), descs[i], "created", now, None, None, None))
  }

  function SubtaskNotes(taskId: string, descs: seq<string>): seq<Note> {
    seq(|descs|, i requires 0 <= i < |descs| => Note(SubtaskId(taskId, i), Some("system"), "subtask", descs[i], DefaultStatus))
  }

  /**
   * `decompose_task`: an unknown id gives `[]` and changes nothing; a known
   * one gains one "created" subtask per description, numbered from 0 in
   * this call, each with its `subtask` row, and the new ids come back in order.
   */
  function DecomposeTask(ts: Tasks, db: Db, taskId: string, descs: seq<string>, now: nat): (r: (seq<string>, Tasks, Db))
    requires Sound(ts) && Valid(db)
    ensures Sound(r.1) && Valid(r.2) && PlanningOnly(db, r.2) && r.1.keys == ts.keys
    ensures taskId !in ts.m ==> r == ([], ts, db)
    ensures taskId in ts.m ==> |r.0| == |descs| && forall i | 0 <= i < |descs| :: r.0[i] == taskId + "_subtask_" + NatToString(i)
    ensures taskId in ts.m ==>
      r.1.m == ts.m[taskId := ts.m[taskId].(subtasks := ts.m[taskId].subtasks + NewSubtasks(taskId, descs, now))]
    ensures taskId in ts.m ==> Noted(db.planning, r.2.planning, SubtaskNotes(taskId, descs), now)
  {
    if taskId !in ts.m then ([], ts, db)
    else
      var t := ts.m[taskId];
      (seq(|descs|, i requires 0 <= i < |descs| => SubtaskId(taskId, i)),
       SetTask(ts, taskId, t.(subtasks := t.subtasks + NewSubtasks(taskId, descs, now))),
       RecordAll(db, SubtaskNotes(taskId, descs), now))
  }

  /** One call never repeats an id. */
  lemma DecomposeIdsDistinct(ts: Tasks, db: Db, taskId: string, descs: seq<string>, now: nat)
    requires Sound(ts) && Valid(db)
    ensures Distinct(DecomposeTask(ts, db, taskId, descs, now).0)
  {
    var ids := DecomposeTask(ts, db, taskId, descs, now).0;
    forall i, j | 0 <= i < j < |ids| ensures ids[i] != ids[j] {
      if ids[i] == ids[j] {
        var p := taskId + "_subtask_";
        assert NatToString(i) == ids[i][|p|..] && NatToString(j) == ids[j][|p|..];
        NatToStringInjective(i, j);
      }
    }
  }

  /** Numbering restarts with every call: decomposing twice lists the first id twice. */
  lemma DecomposeTwiceRepeats(ts: Tasks, db: Db, taskId: string, d1: seq<string>, d2: seq<string>, now: nat, later: nat)
    requires Sound(ts) && Valid(db) && taskId in ts.m && |d1| > 0 && |d2| > 0
    ensures var (ids1, ts1, db1) := DecomposeTask(ts, db, taskId, d1, now);
            var (ids2, ts2, _) := DecomposeTask(ts1, db1, taskId, d2, later);
            && ids1[0] == ids2[0]
            && var ss := ts2.m[taskId].subtasks;
               var n := |ts.m[taskId].subtasks|;
               n + |d1| < |ss| && ss[n].id == ss[n + |d1|].id
  {
    var (ids1, ts1, db1) := DecomposeTask(ts, db, taskId, d1, now);
    var n := |ts.m[taskId].subtasks|;
    var ss := DecomposeTask(ts1, db1, taskId, d2, later).1.m[taskId].subtasks;
    assert ss == ts.m[taskId].subtasks + NewSubtasks(taskId, d1, now) + NewSubtasks(taskId, d2, later);
    assert ss[n] == NewSubtasks(taskId, d1, now)[0];
    assert ss[n + |d1|] == NewSubtasks(taskId, d2, later)[0];
  }

  /** The list position Python reads for index `i` of a list of length `n`: negative indices count from the end. */
  function Slot(n: nat, i: int): int {
    if i < 0 then n + i else i
  }

  /**
   * `assign_subtask`: an unknown task or an index at or past the end gives
   * `False`; the length guard lets a negative index through, which reads
   * from the end and raises `IndexError` below `-len`. Otherwise the
   * subtask takes the agent and status "assigned", whatever it had, and one
   * `assignment` row is written.
   */
  function AssignSubtask(ts: Tasks, db: Db, taskId: string, index: int, agentId: string, now: nat)
    : (r: (Result<bool>, Tasks, Db))
    requires Sound(ts) && Valid(db)
    ensures Sound(r.1) && Valid(r.2) && PlanningOnly(db, r.2) && r.1.keys == ts.keys
    ensures taskId !in ts.m || index >= |ts.m[taskId].subtasks| ==> r == (Ok(false), ts, db)
    ensures taskId in ts.m && index < -|ts.m[taskId].subtasks| ==> r == (Raise("IndexError"), ts, db)
    ensures taskId in ts.m && -|ts.m[taskId].subtasks| <= index < |ts.m[taskId].subtasks| ==>
      var t := ts.m[taskId];
      var j := Slot(|t.subtasks|, index);
      && r.0 == Ok(true)
      && r.1.m == ts.m[taskId := t.(subtasks := t.subtasks[j := t.subtasks[j].(agent := Some(agentId), status := "assigned", assignedAt := Some(now))])]
      && Noted(db.planning, r.2.planning,
               [Note(t.subtasks[j].id, Some(agentId), "assignment", "Subtask " + t.subtasks[j].id + " assigned to Agent " + agentId, DefaultStatus)], now)
  {
    if taskId !in ts.m || index >= |ts.m[taskId].subtasks| then (Ok(false), ts, db)
    else if index < -|ts.m[taskId].subtasks| then (Raise("IndexError"), ts, db)
    else
      var t := ts.m[taskId];
      var j := Slot(|t.subtasks|, index);
      var s := t.subtasks[j];
      var db' := Record(db, Note(s.id, Some(agentId), "assignment", "Subtask " + s.id + " assigned to Agent " + agentId, DefaultStatus), now);
      (Ok(true), SetTask(ts, taskId, t.(subtasks := t.subtasks[j := s.(agent := Some(agentId), status := "assigned", assignedAt := Some(now))])), db')
  }

  /** `get_subtask_status`: the same guard and the same negative indexing as `assign_subtask`, `None` for the refused cases. */
  function SubtaskStatus(ts: Tasks, taskId: string, index: int): (r: Result<Option<string>>)
    ensures taskId !in ts.m || index >= |ts.m[taskId].subtasks| ==> r == Ok(None)
    ensures taskId in ts.m && index < -|ts.m[taskId].subtasks| ==> r == Raise("IndexError")
  {
    if taskId !in ts.m || index >= |ts.m[taskId].subtasks| then Ok(None)
    else if index < -|ts.m[taskId].subtasks| then Raise("IndexError")
    else Ok(Some(ts.m[taskId].subtasks[Slot(|ts.m[taskId].subtasks|, index)].status))
  }

  /** An assignment that succeeds is read back as "assigned" at the same index, negative or not. */
  lemma AssignThenStatus(ts: Tasks, db: Db, taskId: string, index: int, agentId: string, now: nat)
    requires Sound(ts) && Valid(db)
    requires AssignSubtask(ts, db, taskId, index, agentId, now).0 == Ok(true)
    ensures SubtaskStatus(AssignSubtask(ts, db, taskId, index, agentId, now).1, taskId, index) == Ok(Some("assigned"))
  {
  }

  // ---------------------------------------------------------------- assignments

  /** `assign_task`: a known task (re)writes the agent's assignment and logs it; an unknown id gives `False`. */
  function AssignTask(ts: Tasks, db: Db, taskId: string, agentId: string, now: nat): (r: (bool, Tasks, Db))
    requires Sound(ts) && Valid(db)
    ensures r.0 <==> taskId in ts.m
    ensures Sound(r.1) && Valid(r.2) && PlanningOnly(db, r.2) && r.1.keys == ts.keys
    ensures !r.0 ==> r.1 == ts && r.2 == db
    ensures r.0 ==>
      var t := ts.m[taskId];
      var t' := r.1.m[taskId];
      && r.1.m == ts.m[taskId := t']
      && t' == t.(assignments := t'.assignments)
      && t'.assignments.Get(agentId) == Some(Assignment("assigned", now))
      && (forall a :: a != agentId ==> t'.assignments.Get(a) == t.assignments.Get(a))
      && (agentId in t.assignments.m ==> t'.assignments.keys == t.assignments.keys)
      && (agentId !in t.assignments.m ==> t'.assignments.keys == t.assignments.keys + [agentId])
    ensures r.0 ==> Noted(db.planning, r.2.planning,
                          [Note(taskId, Some(agentId), "assignment", "Task " + taskId + " assigned to Agent " + agentId, DefaultStatus)], now)
  {
    if taskId !in ts.m then (false, ts, db)
    else
      var t := ts.m[taskId];
      PutValid(t.assignments, agentId, Assignment("assigned", now));
      var db' := Record(db, Note(taskId, Some(agentId), "assignment", "Task " + taskId + " assigned to Agent " + agentId, DefaultStatus), now);
      (true, SetTask(ts, taskId, t.(assignments := t.assignments.Put(agentId, Assignment("assigned", now)))), db')
  }

  // ---------------------------------------------------------------- execution

  /**
   * `execute_task`: an unknown or unassigned task gives an error text and
   * changes nothing. Otherwise the first agent assigned is sent the
   * description, the task goes to "in_progress" and then "completed", and
   * the two status rows and an `execution` row carrying the answer follow.
   */
  function ExecuteTask(ts: Tasks, h: Hub, taskId: string, now: nat): (r: (string, Tasks, Hub))
    requires Sound(ts) && Consistent(h)
    ensures Sound(r.1) && Consistent(r.2) && SameRoster(h, r.2) && r.1.keys == ts.keys
    ensures taskId !in ts.m ==> r == ("Task " + taskId + " not found", ts, h)
    ensures taskId in ts.m && ts.m[taskId].assignments.keys == [] ==>
      r == ("Task " + taskId + " has not been assigned to any agent", ts, h)
    ensures taskId in ts.m && ts.m[taskId].assignments.keys != [] ==>
      var t := ts.m[taskId];
      var agent := t.assignments.keys[0];
      var message := "Execute task: " + t.description;
      && r.0 == Answer(h, "system", agent, message)
      && r.1.m == ts.m[taskId := t.(status := "completed", updatedAt := Some(now))]
      && Logged(h.db.conversations, r.2.db.conversations, Trail(h, "system", agent, message), now)
      && Noted(h.db.planning, r.2.db.planning,
               [StatusNote(taskId, "in_progress"), StatusNote(taskId, "completed"), Note(taskId, Some(agent), "execution", r.0, "completed")], now)
  {
    if taskId !in ts.m then ("Task " + taskId + " not found", ts, h)
    else if ts.m[taskId].assignments.keys == [] then ("Task " + taskId + " has not been assigned to any agent", ts, h)
    else RunTask(ts, h, taskId, now)
  }

  /** The body of `execute_task` once the task is known and assigned. */
  function RunTask(ts: Tasks, h: Hub, taskId: string, now: nat): (r: (string, Tasks, Hub))
    requires Sound(ts) && Consistent(h) && taskId in ts.m && ts.m[taskId].assignments.keys != []
    ensures Sound(r.1) && Consistent(r.2) && SameRoster(h, r.2) && r.1.keys == ts.keys
    ensures var t := ts.m[taskId];
      var agent := t.assignments.keys[0];
      var message := "Execute task: " + t.description;
      && r.0 == Answer(h, "system", agent, message)
      && r.1.m == ts.m[taskId := t.(status := "completed", updatedAt := Some(now))]
      && Logged(h.db.conversations, r.2.db.conversations, Trail(h, "system", agent, message), now)
      && Noted(h.db.planning, r.2.db.planning,
               [StatusNote(taskId, "in_progress"), StatusNote(taskId, "completed"), Note(taskId, Some(agent), "execution", r.0, "completed")], now)
  {
    var t := ts.m[taskId];
    var agent := t.assignments.keys[0];
    var message := "Execute task: " + t.description;
    var p1 := Mark(ts, h, taskId, "in_progress", now);
    var s := Send(p1.1, "system", agent, message, now);
    var p2 := Mark(p1.0, s.1, taskId, "completed", now);
    var db4 := Record(p2.1.db, Note(taskId, Some(agent), "execution", s.0, "completed"), now);
    SendTrail(p1.1, "system", agent, message, now);
    RunTaskLogs(h, p1.1, s.1, p2.1, db4, agent, message, s.0,
                StatusNote(taskId, "in_progress"), StatusNote(taskId, "completed"),
                Note(taskId, Some(agent), "execution", s.0, "completed"), now);
    var done := t.(status := "completed", updatedAt := Some(now));
    assert p1.0.m[taskId].(status := "completed", updatedAt := Some(now)) == done;
    UpdateTwice(ts.m, taskId, p1.0.m[taskId], done);
    (s.0, p2.0, p2.1.(db := db4))
  }

  lemma UpdateTwice<K, V>(m: map<K, V>, k: K, a: V, b: V)
    ensures m[k := a][k := b] == m[k := b]
  {
  }

  /** `update_task_status` of a known task, threaded through the hub's database. */
  function Mark(ts: Tasks, h: Hub, taskId: string, status: string, now: nat): (r: (Tasks, Hub))
    requires Sound(ts) && Consistent(h) && taskId in ts.m
    ensures Sound(r.0) && r.0.keys == ts.keys && r.0.m == ts.m[taskId := ts.m[taskId].(status := status, updatedAt := Some(now))]
    ensures Consistent(r.1) && r.1.agents == h.agents && PlanningOnly(h.db, r.1.db)
    ensures Noted(h.db.planning, r.1.db.planning, [StatusNote(taskId, status)], now)
  {
    var u := UpdateTaskStatus(ts, h.db, taskId, status, now);
    (u.1, h.(db := u.2))
  }

  /** The logs of `execute_task`: a status row, the send, a status row and the execution row. */
  lemma RunTaskLogs(h: Hub, h1: Hub, h2: Hub, h3: Hub, db4: Db, agent: string, message: string, answer: string,
                    n1: Note, n2: Note, n3: Note, now: nat)
    requires Consistent(h) && Consistent(h1) && h1.agents == h.agents && PlanningOnly(h.db, h1.db)
    requires Noted(h.db.planning, h1.db.planning, [n1], now)
    requires answer == Answer(h1, "system", agent, message)
    requires Logged(h1.db.conversations, h2.db.conversations, Trail(h1, "system", agent, message), now)
    requires h2.db.planning == h1.db.planning
    requires PlanningOnly(h2.db, h3.db) && Noted(h2.db.planning, h3.db.planning, [n2], now)
    requires PlanningOnly(h3.db, db4) && Noted(h3.db.planning, db4.planning, [n3], now)
    ensures answer == Answer(h, "system", agent, message)
    ensures Logged(h.db.conversations, db4.conversations, Trail(h, "system", agent, message), now)
    ensures Noted(h.db.planning, db4.planning, [n1, n2, n3], now)
  {
    assert Trail(h1, "system", agent, message) == Trail(h, "system", agent, message);
    NotedChain(h2.db.planning, h3.db.planning, db4.planning, [n2], [n3], now);
    NotedChain(h.db.planning, h1.db.planning, db4.planning, [n1], [n2] + [n3], now);
    assert [n1] + ([n2] + [n3]) == [n1, n2, n3];
  }

  /**
   * `execute_subtask`: a refused index gives "Subtask not found" (or
   * `IndexError` below `-len`), an unassigned subtask an error text.
   * Otherwise its agent is sent the description, the subtask ends
   * "completed", and one `execution` row is written; no status row.
   */
  function ExecuteSubtask(ts: Tasks, h: Hub, taskId: string, index: int, now: nat): (r: (Result<string>, Tasks, Hub))
    requires Sound(ts) && Consistent(h)
    ensures Sound(r.1) && Consistent(r.2) && SameRoster(h, r.2) && r.1.keys == ts.keys
    ensures taskId !in ts.m || index >= |ts.m[taskId].subtasks| ==> r == (Ok("Subtask not found"), ts, h)
    ensures taskId in ts.m && index < -|ts.m[taskId].subtasks| ==> r == (Raise("IndexError"), ts, h)
    ensures taskId in ts.m && -|ts.m[taskId].subtasks| <= index < |ts.m[taskId].subtasks| ==>
      var t := ts.m[taskId];
      var j := Slot(|t.subtasks|, index);
      var s := t.subtasks[j];
      && (s.agent == None ==> r == (Ok("Subtask " + s.id + " has not been assigned to any agent"), ts, h))
      && (s.agent.Some? ==>
            var message := "Execute subtask: " + s.description;
            && r.0 == Ok(Answer(h, "system", s.agent.value, message))
            && r.1.m == ts.m[taskId := t.(subtasks := t.subtasks[j := s.(status := "completed", completedAt := Some(now))])]
            && Logged(h.db.conversations, r.2.db.conversations, Trail(h, "system", s.agent.value, message), now)
            && Noted(h.db.planning, r.2.db.planning, [Note(s.id, s.agent, "execution", r.0.value, "completed")], now))
  {
    if taskId !in ts.m || index >= |ts.m[taskId].subtasks| then (Ok("Subtask not found"), ts, h)
    else if index < -|ts.m[taskId].subtasks| then (Raise("IndexError"), ts, h)
    else
      var t := ts.m[taskId];
      var j := Slot(|t.subtasks|, index);
      var s := t.subtasks[j];
      if s.agent == None then (Ok("Subtask " + s.id + " has not been assigned to any agent"), ts, h)
      else
        var message := "Execute subtask: " + s.description;
        var (response, h1) := Send(h, "system", s.agent.value, message, now);
        SendTrail(h, "system", s.agent.value, message, now);
        var db2 := Record(h1.db, Note(s.id, s.agent, "execution", response, "completed"), now);
        (Ok(response), SetTask(ts, taskId, t.(subtasks := t.subtasks[j := s.(status := "completed", completedAt := Some(now))])), h1.(db := db2))
  }

  // ---------------------------------------------------------------- queries

  /** The ids of the subtasks in `ss` assigned to the agent, in order. */
  function Claimed(ss: seq<Subtask>, agentId: string): seq<string> {
    if |ss| == 0 then []
    else Claimed(ss[..|ss| - 1], agentId) + (if ss[|ss| - 1].agent == Some(agentId) then [ss[|ss| - 1].id] else [])
  }

  /** What one task contributes to `get_agent_tasks`: its id if the agent is an assignee, then its claimed subtasks. */
  function TaskShare(t: Task, taskId: string, agentId: string): seq<string> {
    (if agentId in t.assignments.m then [taskId] else []) + Claimed(t.subtasks, agentId)
  }

  /** The reference listing over the tasks `ks`, in order. */
  function AgentTasks(ts: Tasks, ks: seq<string>, agentId: string): seq<string>
    requires forall i | 0 <= i < |ks| :: ks[i] in ts.m
  {
    if |ks| == 0 then []
    else AgentTasks(ts, ks[..|ks| - 1], agentId) + TaskShare(ts.m[ks[|ks| - 1]], ks[|ks| - 1], agentId)
  }

  /** The inner loop of `get_agent_tasks`: append the ids of the subtasks the agent holds. */
  method AppendClaimed(acc: seq<string>, ss: seq<Subtask>, agentId: string) returns (ids: seq<string>)
    ensures ids == acc + Claimed(ss, agentId)
  {
    ids := acc;
    var j := 0;
    while j < |ss|
      invariant 0 <= j <= |ss|
      invariant ids == acc + Claimed(ss[..j], agentId)
    {
      if ss[j].agent == Some(agentId) {
        ids := ids + [ss[j].id];
      }
      ClaimedSnoc(ss, j, agentId);
      j := j + 1;
    }
    assert ss[..j] == ss;
  }

  /** `get_agent_tasks`: the two nested loops of the source. */
  method GetAgentTasks(ts: Tasks, agentId: string) returns (ids: seq<string>)
    requires Sound(ts)
    ensures ids == AgentTasks(ts, ts.keys, agentId)
  {
    ids := [];
    var i := 0;
    while i < |ts.keys|
      invariant 0 <= i <= |ts.keys|
      invariant ids == AgentTasks(ts, ts.keys[..i], agentId)
    {
      var k := ts.keys[i];
      var t := ts.m[k];
      ghost var before := ids;
      if agentId in t.assignments.m {
        ids := ids + [k];
      }
      ids := AppendClaimed(ids, t.subtasks, agentId);
      assert ids == before + TaskShare(t, k, agentId);
      AgentTasksSnoc(ts, ts.keys, i, agentId);
      i := i + 1;
    }
    assert ts.keys[..i] == ts.keys;
  }

  lemma ClaimedSnoc(ss: seq<Subtask>, j: nat, agentId: string)
    requires j < |ss|
    ensures Claimed(ss[..j + 1], agentId) == Claimed(ss[..j], agentId) + (if ss[j].agent == Some(agentId) then [ss[j].id] else [])
  {
    assert ss[..j + 1][..j] == ss[..j];
  }

  lemma AgentTasksSnoc(ts: Tasks, ks: seq<string>, i: nat, agentId: string)
    requires i < |ks| && forall j | 0 <= j < |ks| :: ks[j] in ts.m
    ensures AgentTasks(ts, ks[..i + 1], agentId) == AgentTasks(ts, ks[..i], agentId) + TaskShare(ts.m[ks[i]], ks[i], agentId)
  {
    assert ks[..i + 1][..i] == ks[..i];
  }

  lemma {:induction false} ClaimedMembers(ss: seq<Subtask>, agentId: string, x: string)
    ensures x in Claimed(ss, agentId) <==> exists j | 0 <= j < |ss| :: ss[j].agent == Some(agentId) && ss[j].id == x
  {
    if |ss| > 0 {
      var init := ss[..|ss| - 1];
      ClaimedMembers(init, agentId, x);
      if exists j | 0 <= j < |ss| :: ss[j].agent == Some(agentId) && ss[j].id == x {
        var j :| 0 <= j < |ss| && ss[j].agent == Some(agentId) && ss[j].id == x;
        if j < |ss| - 1 {
          assert init[j] == ss[j];
        }
      }
      if x in Claimed(init, agentId) {
        var j :| 0 <= j < |init| && init[j].agent == Some(agentId) && init[j].id == x;
        assert ss[j] == init[j];
      }
    }
  }

  /** Who has the agent: a task is listed iff the agent is among its assignees or holds one of its subtasks. */
  lemma {:induction false} AgentTasksMembers(ts: Tasks, ks: seq<string>, agentId: string, x: string)
    requires forall i | 0 <= i < |ks| :: ks[i] in ts.m
    ensures x in AgentTasks(ts, ks, agentId) <==>
      exists k <- ks :: (k == x && agentId in ts.m[k].assignments.m) || x in Claimed(ts.m[k].subtasks, agentId)
  {
    if |ks| > 0 {
      var init := ks[..|ks| - 1];
      var last := ks[|ks| - 1];
      AgentTasksMembers(ts, init, agentId, x);
      assert forall k <- ks :: k in init || k == last;
      assert forall k <- init :: k in ks;
    }
  }

  /** An agent given a task finds it among its tasks. */
  lemma AssignThenListed(ts: Tasks, db: Db, taskId: string, agentId: string, now: nat)
    requires Sound(ts) && Valid(db) && taskId in ts.m
    ensures var ts' := AssignTask(ts, db, taskId, agentId, now).1;
            taskId in AgentTasks(ts', ts'.keys, agentId)
  {
    var ts' := AssignTask(ts, db, taskId, agentId, now).1;
    AgentTasksMembers(ts', ts'.keys, agentId, taskId);
  }
}

=== FILE: quality.dfy ===
/**
 * The quality heuristic of `evaluate_quality` in app/agents/agent_hub.py:
 * how many of six praising and six critical keywords occur in the
 * lower-cased critique, and the share of praise among the hits.
 */
module Quality {
  import opened Text
  import opened Agents

  const Positive: seq<string> := ["excellent", "good", "complete", "accurate", "thorough", "comprehensive"]
  const Negative: seq<string> := ["incomplete", "inaccurate", "poor", "missing", "inadequate", "insufficient"]

  /** How many of `keywords` occur in `text`, each counted once. */
  function Hits(keywords: seq<string>, text: string): (n: nat)
    ensures n <= |keywords|
    ensures n == 0 <==> forall k <- keywords :: !Contains(text, k)
  {
    if |keywords| == 0 then 0
    else
      assert forall k <- keywords :: k == keywords[0] || k in keywords[1..];
      (if Contains(text, keywords[0]) then 1 else 0) + Hits(keywords[1..], text)
  }

  function Praise(critique: string): nat {
    Hits(Positive, Lower(critique))
  }

  function Blame(critique: string): nat {
    Hits(Negative, Lower(critique))
  }

  /** The score: the share of praising keywords among the keywords found, one half when none is found. */
  function Score(critique: string): (s: real)
    ensures 0.0 <= s <= 1.0
  {
    var p := Praise(critique);
    var n := Blame(critique);
    if p + n == 0 then 0.5
    else
      ShareBounds(p, n);
      p as real / (p + n) as real
  }

  lemma ShareBounds(p: nat, n: nat)
    requires p + n > 0
    ensures 0.0 <= p as real / (p + n) as real <= 1.0
  {
    var t := (p + n) as real;
    var q := p as real / t;
    assert q * t == p as real;
  }

  /** What the share of `p` in `p + n` reveals about `p` and `n`. */
  lemma Share(p: nat, n: nat)
    requires p + n > 0
    ensures p as real / (p + n) as real == 0.5 <==> p == n
    ensures p as real / (p + n) as real == 1.0 <==> n == 0
    ensures p as real / (p + n) as real == 0.0 <==> p == 0
  {
    var t := (p + n) as real;
    var q := p as real / t;
    assert q * t == p as real;
    if p == n {
      MulCancel(q, 0.5, t);
    }
    if n == 0 {
      MulCancel(q, 1.0, t);
    }
    if p == 0 {
      MulCancel(q, 0.0, t);
    }
  }

  lemma MulCancel(x: real, y: real, t: real)
    requires t != 0.0 && x * t == y * t
    ensures x == y
  {
    assert (x - y) * t == 0.0;
  }

  /** The score is one half exactly when praise and blame balance, including when there is neither. */
  lemma ScoreNeutral(critique: string)
    ensures Score(critique) == 0.5 <==> Praise(critique) == Blame(critique)
  {
    var p := Praise(critique);
    var n := Blame(critique);
    if p + n > 0 {
      Share(p, n);
    }
  }

  /** The score is 1 exactly when only praise is found. */
  lemma ScoreOne(critique: string)
    ensures Score(critique) == 1.0 <==> Blame(critique) == 0 && Praise(critique) > 0
  {
    var p := Praise(critique);
    var n := Blame(critique);
    if p + n > 0 {
      Share(p, n);
    }
  }

  /** `t` occurs wherever a text containing `t` inside it occurs. */
  lemma ContainsPart(s: string, u: string, t: string)
    requires Contains(s, u + t)
    ensures Contains(s, t)
  {
    var w := u + t;
    var i :| OccursAt(s, w, i);
    assert OccursAt(s, w, i);
    assert s[i + |u|..i + |w|] == s[i..i + |w|][|u|..];
    assert w[|u|..] == t;
    ContainsAt(s, t, i + |u|);
  }

  /**
   * A score of 0 needs blame and no praise at all; and since "incomplete"
   * and "inaccurate" contain "complete" and "accurate", such a critique
   * uses neither of them either.
   */
  lemma ScoreZero(critique: string)
    ensures Score(critique) == 0.0 <==> Praise(critique) == 0 && Blame(critique) > 0
    ensures Score(critique) == 0.0 ==> !Contains(Lower(critique), "incomplete") && !Contains(Lower(critique), "inaccurate")
  {
    var p := Praise(critique);
    var n := Blame(critique);
    if p + n > 0 {
      Share(p, n);
    }
    if p == 0 {
      NoPraiseNoIn(Lower(critique));
    }
  }

  /** A text with no praising keyword cannot hold "incomplete" or "inaccurate". */
  lemma NoPraiseNoIn(text: string)
    requires Hits(Positive, text) == 0
    ensures !Contains(text, "incomplete") && !Contains(text, "inaccurate")
  {
    if Contains(text, "incomplete") {
      assert "incomplete" == "in" + "complete";
      ContainsPart(text, "in", "complete");
    }
    if Contains(text, "inaccurate") {
      assert "inaccurate" == "in" + "accurate";
      ContainsPart(text, "in", "accurate");
    }
  }

  // ---------------------------------------------------------------- texts without keywords

  predicate NoKeyword(text: string) {
    forall k <- Positive + Negative :: !Contains(text, k)
  }

  lemma NoKeywordNeutral(critique: string)
    requires NoKeyword(Lower(critique))
    ensures Praise(critique) == 0 && Blame(critique) == 0 && Score(critique) == 0.5
  {
    assert forall k <- Positive :: k in Positive + Negative;
    assert forall k <- Negative :: k in Positive + Negative;
  }

  /** No keyword holds a space, so none can reach across one. */
  lemma NoKeywordSpaced(a: string, b: string)
    requires NoKeyword(Lower(a)) && NoKeyword(Lower(b))
    ensures NoKeyword(Lower(a + " " + b))
  {
    LowerAppend(a + " ", b);
    LowerAppend(a, " ");
    assert Lower(a + " " + b) == Lower(a) + [' '] + Lower(b);
    forall k <- Positive + Negative ensures !Contains(Lower(a + " " + b), k) {
      assert ' ' !in k;
      if Contains(Lower(a + " " + b), k) {
        ContainsAcross(Lower(a), ' ', Lower(b), k);
      }
    }
  }

  /**
   * A word lacking 'x', 'm', 'q' and 's', lacking one letter `d` that both
   * "good" and "thorough" hold, lacking one letter `c` of "accurate" and
   * not holding "poor" contains no keyword.
   */
  lemma CleanWord(w: string, d: char, c: char)
    requires Lower(w) == w
    requires 'x' !in w && 'm' !in w && 'q' !in w && 's' !in w
    requires d in "go" && d !in w
    requires c in "accurate" && c !in w
    requires !Contains(w, "poor")
    ensures NoKeyword(Lower(w))
  {
    forall k <- Positive + Negative ensures !Contains(w, k) {
      if k == "excellent" {
        NotContainsByChar(w, k, 'x');
      } else if k in ["good", "thorough"] {
        NotContainsByChar(w, k, d);
      } else if k in ["complete", "comprehensive", "incomplete", "missing"] {
        NotContainsByChar(w, k, 'm');
      } else if k == "inadequate" {
        NotContainsByChar(w, k, 'q');
      } else if k == "insufficient" {
        NotContainsByChar(w, k, 's');
      } else if k in ["accurate", "inaccurate"] {
        NotContainsByChar(w, k, c);
      }
    }
  }

  /** A lower-case word without 'p' and the letters `CleanWord` asks for contains no keyword. */
  lemma PlainWord(w: string, d: char, c: char)
    requires Lower(w) == w
    requires 'x' !in w && 'm' !in w && 'q' !in w && 's' !in w && 'p' !in w
    requires d in "go" && d !in w
    requires c in "accurate" && c !in w
    ensures NoKeyword(Lower(w))
  {
    NotContainsByChar(w, "poor", 'p');
    CleanWord(w, d, c);
  }

  // The words of the fixed answers, one lemma each: every one evaluates `Lower` on a literal,
  // and four of those in one proof exceed what the solver allows.

  lemma IllClean()
    ensures NoKeyword(Lower("I'll"))
  {
    assert Lower("I'll") == "i'll";
    PlainWord("i'll", 'g', 'a');
  }

  lemma EvaluateClean()
    ensures NoKeyword(Lower("evaluate"))
  {
    PlainWord("evaluate", 'g', 'c');
  }

  lemma ThatClean()
    ensures NoKeyword(Lower("that"))
  {
    PlainWord("that", 'g', 'c');
  }

  lemma ForClean()
    ensures NoKeyword(Lower("for"))
  {
    PlainWord("for", 'g', 'c');
  }

  lemma YouClean()
    ensures NoKeyword(Lower("you"))
  {
    PlainWord("you", 'g', 'c');
  }

  lemma AndClean()
    ensures NoKeyword(Lower("and"))
  {
    PlainWord("and", 'g', 'c');
  }

  lemma FeedbackClean()
    ensures NoKeyword(Lower("feedback."))
  {
    PlainWord("feedback.", 'g', 'u');
  }

  lemma AgentClean()
    ensures NoKeyword(Lower("agent"))
  {
    PlainWord("agent", 'o', 'c');
  }

  lemma NotClean()
    ensures NoKeyword(Lower("not"))
  {
    PlainWord("not", 'g', 'a');
  }

  lemma AvailableClean()
    ensures NoKeyword(Lower("available"))
  {
    PlainWord("available", 'g', 'c');
  }

  lemma CriticClean()
    ensures NoKeyword(Lower("Critic"))
  {
    assert Lower("Critic") == "critic";
    PlainWord("critic", 'g', 'a');
  }

  lemma CriticAnswerOpening()
    ensures NoKeyword(Lower("I'll evaluate"))
  {
    IllClean();
    EvaluateClean();
    assert "I'll evaluate" == "I'll" + " " + "evaluate";
    NoKeywordSpaced("I'll", "evaluate");
  }

  lemma CriticAnswerMiddle()
    ensures NoKeyword(Lower("that for you"))
  {
    ThatClean();
    ForClean();
    YouClean();
    assert "that for you" == "that" + " " + ("for" + " " + "you");
    NoKeywordSpaced("for", "you");
    NoKeywordSpaced("that", "for" + " " + "you");
  }

  /** "provide" holds every letter of "poor" but not the word. */
  lemma ProvideClean()
    ensures NoKeyword(Lower("provide"))
  {
    assert !Contains("provide", "poor") by {
      forall i | 0 <= i <= 3 ensures !OccursAt("provide", "poor", i) {
        if OccursAt("provide", "poor", i) {
          OccursAtIndex("provide", "poor", i, 1);
          OccursAtIndex("provide", "poor", i, 2);
        }
      }
    }
    CleanWord("provide", 'g', 'c');
  }

  lemma ProvideFeedback()
    ensures NoKeyword(Lower("provide feedback."))
  {
    ProvideClean();
    FeedbackClean();
    assert "provide feedback." == "provide" + " " + "feedback.";
    NoKeywordSpaced("provide", "feedback.");
  }

  lemma CriticAnswerClosing()
    ensures NoKeyword(Lower("and provide feedback."))
  {
    AndClean();
    ProvideFeedback();
    assert "and provide feedback." == "and" + " " + "provide feedback.";
    NoKeywordSpaced("and", "provide feedback.");
  }

  lemma CriticAnswerFront()
    ensures NoKeyword(Lower("I'll evaluate that for you"))
  {
    CriticAnswerOpening();
    CriticAnswerMiddle();
    assert "I'll evaluate that for you" == "I'll evaluate" + " " + "that for you";
    NoKeywordSpaced("I'll evaluate", "that for you");
  }

  lemma CriticAnswerWords()
    ensures NoKeyword(Lower("I'll evaluate that for you and provide feedback."))
  {
    CriticAnswerFront();
    CriticAnswerClosing();
    assert "I'll evaluate that for you and provide feedback." == "I'll evaluate that for you" + " " + "and provide feedback.";
    NoKeywordSpaced("I'll evaluate that for you", "and provide feedback.");
  }

  /** The critic's answer to a request to evaluate scores one half. */
  lemma CriticAnswerNeutral()
    ensures Score(Rules(Critic(Dicts.Empty()))[0].1) == 0.5
    ensures Score("I'll evaluate that for you and provide feedback.") == 0.5
  {
    assert Rules(Critic(Dicts.Empty()))[0].1 == "I'll evaluate that for you and provide feedback.";
    CriticAnswerWords();
    NoKeywordNeutral("I'll evaluate that for you and provide feedback.");
  }

  lemma NotAvailableWords()
    ensures NoKeyword(Lower("agent" + " " + ("not" + " " + "available")))
  {
    AgentClean();
    NotClean();
    AvailableClean();
    NoKeywordSpaced("not", "available");
    NoKeywordSpaced("agent", "not" + " " + "available");
  }

  /** What a stage without a critic answers scores one half. */
  lemma CriticNotAvailableNeutral()
    ensures Score("Critic" + " agent not available") == 0.5
  {
    CriticClean();
    NotAvailableWords();
    assert "Critic" + " agent not available" == "Critic" + " " + ("agent" + " " + ("not" + " " + "available"));
    NoKeywordSpaced("Critic", "agent" + " " + ("not" + " " + "available"));
    NoKeywordNeutral("Critic" + " agent not available");
  }
}

=== FILE: router.dfy ===
/**
 * The message hub of app/communication/agent_hub.py, whose registry and
 * messaging methods app/agents/agent_hub.py repeats: agents registered by
 * id over the shared database. A message is delivered by the recipient's
 * `receive_message`, and both directions are recorded as conversation rows.
 * Every call reads the clock once, as `now`.
 */
module Router {
  import opened Wrappers
  import opened Text
  import opened Dicts
  import opened ShortTerm
  import opened Db
  import opened Agents
  import Tables
  import Conversation

  /** The hub: the registered agents by id, and the database it records conversations in. */
  datatype Hub = Hub(agents: Dict<string, Agent>, db: Db)

  /** Every agent is registered under its own id, and the stores are well formed. */
  predicate Consistent(h: Hub) {
    && h.agents.Valid()
    && (forall k <- h.agents.m :: h.agents.m[k].id == k && WellFormed(h.agents.m[k]))
    && Valid(h.db)
  }

  /** `h'` registers the same agents, in the same order, each of the same kind. */
  ghost predicate SameRoster(h: Hub, h': Hub) {
    && h'.agents.keys == h.agents.keys
    && h'.agents.m.Keys == h.agents.m.Keys
    && (forall k <- h.agents.m :: h'.agents.m[k].id == h.agents.m[k].id && h'.agents.m[k].kind == h.agents.m[k].kind)
  }

  lemma SameRosterChain(h: Hub, h1: Hub, h2: Hub)
    requires SameRoster(h, h1) && SameRoster(h1, h2)
    ensures SameRoster(h, h2)
  {
  }

  /** The database only gained memories; its planning table is untouched. */
  predicate Grows(db: Db, db': Db) {
    && |db.memories| <= |db'.memories| && db'.memories[..|db.memories|] == db.memories
    && db'.planning == db.planning
  }

  lemma GrowsChain(db: Db, db1: Db, db2: Db)
    requires Grows(db, db1) && Grows(db1, db2)
    ensures Grows(db, db2)
  {
    assert db2.memories[..|db.memories|] == db2.memories[..|db1.memories|][..|db.memories|];
  }

  // ---------------------------------------------------------------- the conversation log

  /** What a conversation row says: sender, recipient, message. */
  function Said(r: ConversationRow): (string, string, string) {
    (r.sender, r.recipient, r.message)
  }

  /** `after` is `before` followed by one row per message, in order, all stamped `now`. */
  predicate Logged(before: seq<ConversationRow>, after: seq<ConversationRow>, msgs: seq<(string, string, string)>, now: nat) {
    && |after| == |before| + |msgs|
    && after[..|before|] == before
    && (forall i | 0 <= i < |msgs| :: Said(after[|before| + i]) == msgs[i] && after[|before| + i].at == now)
  }

  lemma LoggedChain(a: seq<ConversationRow>, b: seq<ConversationRow>, c: seq<ConversationRow>,
                    m1: seq<(string, string, string)>, m2: seq<(string, string, string)>, now: nat)
    requires Logged(a, b, m1, now) && Logged(b, c, m2, now)
    ensures Logged(a, c, m1 + m2, now)
  {
    assert c[..|a|] == c[..|b|][..|a|];
    forall i | 0 <= i < |m1 + m2|
      ensures Said(c[|a| + i]) == (m1 + m2)[i] && c[|a| + i].at == now
    {
      if i < |m1| {
        assert c[|a| + i] == c[..|b|][|a| + i];
      } else {
        assert c[|a| + i] == c[|b| + (i - |m1|)];
      }
    }
  }

  lemma RecordLogged(db: Db, sender: string, recipient: string, message: string, now: nat)
    requires Valid(db)
    ensures Logged(db.conversations, RecordConversation(db, sender, recipient, message, now).1.conversations,
                   [(sender, recipient, message)], now)
  {
    var after := RecordConversation(db, sender, recipient, message, now).1.conversations;
    assert after[..|db.conversations|] == db.conversations;
  }

  /** An answer depends only on the agent's id and kind, never on its short-term memory. */
  lemma ReplyOfKind(a: Agent, b: Agent, sender: string, message: string)
    requires a.id == b.id && a.kind == b.kind
    ensures Reply(a, sender, message) == Reply(b, sender, message)
  {
  }

  /** The two rows of one delivery: the message, then the reply tagged with `tag`. */
  function Exchange(agents: Dict<string, Agent>, sender: string, k: string, message: string, tag: string): seq<(string, string, string)>
    requires k in agents.m
  {
    [(sender, k, message), (k, sender, tag + Reply(agents.m[k], sender, message))]
  }

  /** The rows of delivering `message` to each of `ks` in turn. */
  function Exchanges(agents: Dict<string, Agent>, sender: string, ks: seq<string>, message: string, tag: string): seq<(string, string, string)>
    requires forall k <- ks :: k in agents.m
  {
    if |ks| == 0 then [] else Exchange(agents, sender, ks[0], message, tag) + Exchanges(agents, sender, ks[1..], message, tag)
  }

  lemma {:induction false} ExchangesRoster(h: Hub, h': Hub, sender: string, ks: seq<string>, message: string, tag: string)
    requires SameRoster(h, h')
    requires forall k <- ks :: k in h.agents.m
    ensures Exchanges(h'.agents, sender, ks, message, tag) == Exchanges(h.agents, sender, ks, message, tag)
  {
    if |ks| > 0 {
      ReplyOfKind(h'.agents.m[ks[0]], h.agents.m[ks[0]], sender, message);
      ExchangesRoster(h, h', sender, ks[1..], message, tag);
    }
  }

  // ---------------------------------------------------------------- registry

  /** `register_agent`: an agent with a non-empty id is stored under it (replacing any namesake), else refused. */
  function Register(h: Hub, a: Agent): (r: (bool, Hub))
    requires Consistent(h) && WellFormed(a)
    ensures Consistent(r.1) && r.1.db == h.db
    ensures r.0 <==> a.id != ""
    ensures r.0 ==> r.1.agents.Get(a.id) == Some(a) && forall k :: k != a.id ==> r.1.agents.Get(k) == h.agents.Get(k)
    ensures r.0 && a.id !in h.agents.m ==> r.1.agents.keys == h.agents.keys + [a.id]
    ensures !r.0 ==> r.1 == h
  {
    if a.id != "" then
      PutValid(h.agents, a.id, a);
      (true, h.(agents := h.agents.Put(a.id, a)))
    else (false, h)
  }

  /** `unregister_agent` (and `delete_agent`): only a registered id is removed, the rest keep their order. */
  function Unregister(h: Hub, id: string): (r: (bool, Hub))
    requires Consistent(h)
    ensures Consistent(r.1) && r.1.db == h.db
    ensures r.0 <==> id in h.agents.m
    ensures r.1.agents.Get(id) == None
    ensures forall k :: k != id ==> r.1.agents.Get(k) == h.agents.Get(k)
    ensures r.1.agents.keys == Without(h.agents.keys, id)
  {
    RemoveValid(h.agents, id);
    if id in h.agents.m then (true, h.(agents := h.agents.Remove(id)))
    else
      WithoutAbsent(h.agents.keys, id);
      (false, h)
  }

  /** Registering a new agent and unregistering it again gives back the hub as it was. */
  lemma RegisterUnregister(h: Hub, a: Agent)
    requires Consistent(h) && WellFormed(a)
    requires a.id != "" && a.id !in h.agents.m
    ensures Unregister(Register(h, a).1, a.id) == (true, h)
  {
    var h1 := Register(h, a).1;
    WithoutLast(h.agents.keys, a.id);
    assert h1.agents.m - {a.id} == h.agents.m;
  }

  // ---------------------------------------------------------------- messages

  /** The hub with the agent under `k` replaced by `a'` (same id and kind) and the database by `db'`. */
  function Replace(h: Hub, k: string, a': Agent, db': Db): (h': Hub)
    requires Consistent(h) && k in h.agents.m && Valid(db')
    requires a'.id == k && a'.kind == h.agents.m[k].kind && WellFormed(a')
    ensures Consistent(h') && SameRoster(h, h') && h'.db == db'
    ensures h'.agents.m[k] == a'
    ensures forall j <- h.agents.m :: j != k ==> h'.agents.m[j] == h.agents.m[j]
  {
    PutValid(h.agents, k, a');
    Hub(h.agents.Put(k, a'), db')
  }

  /** The log of one delivery: the message row, the rows the agent does not write, the answer row. */
  lemma DeliverLogged(db: Db, db1: Db, db2: Db, db3: Db, sender: string, recipient: string, message: string, answer: string, now: nat)
    requires Valid(db) && Valid(db2)
    requires db1 == RecordConversation(db, sender, recipient, message, now).1
    requires db2.conversations == db1.conversations && Grows(db1, db2)
    requires db3 == RecordConversation(db2, recipient, sender, answer, now).1
    ensures Logged(db.conversations, db3.conversations, [(sender, recipient, message), (recipient, sender, answer)], now)
    ensures Grows(db, db3)
  {
    RecordLogged(db, sender, recipient, message, now);
    RecordLogged(db2, recipient, sender, answer, now);
    LoggedChain(db.conversations, db2.conversations, db3.conversations,
                [(sender, recipient, message)], [(recipient, sender, answer)], now);
    GrowsChain(db, db1, db2);
  }

  /** One delivery to a registered agent: record the message, let it answer, record the tagged answer. */
  function Deliver(h: Hub, sender: string, recipient: string, message: string, tag: string, now: nat): (r: (string, Hub))
    requires Consistent(h) && recipient in h.agents.m
    ensures Consistent(r.1) && SameRoster(h, r.1) && Grows(h.db, r.1.db)
    ensures r.0 == Reply(h.agents.m[recipient], sender, message)
    ensures Logged(h.db.conversations, r.1.db.conversations, Exchange(h.agents, sender, recipient, message, tag), now)
  {
    var a := h.agents.m[recipient];
    var db1 := RecordConversation(h.db, sender, recipient, message, now).1;
    var (response, a', db2) := ReceiveMessage(a, db1, sender, message, now);
    var db3 := RecordConversation(db2, recipient, sender, tag + response, now).1;
    DeliverLogged(h.db, db1, db2, db3, sender, recipient, message, tag + response, now);
    (response, Replace(h, recipient, a', db3))
  }

  /**
   * `send_message`: the message is recorded whatever happens; a registered
   * recipient answers and its answer is recorded too, an unknown one gets
   * an error text back.
   */
  function Send(h: Hub, sender: string, recipient: string, message: string, now: nat): (r: (string, Hub))
    requires Consistent(h)
    ensures Consistent(r.1) && SameRoster(h, r.1) && Grows(h.db, r.1.db)
    ensures recipient !in h.agents.m ==> (
      && r.0 == "Agent " + recipient + " not found"
      && r.1.agents == h.agents
      && Logged(h.db.conversations, r.1.db.conversations, [(sender, recipient, message)], now))
    ensures recipient in h.agents.m ==> (
      && r.0 == Reply(h.agents.m[recipient], sender, message)
      && Logged(h.db.conversations, r.1.db.conversations, [(sender, recipient, message), (recipient, sender, r.0)], now))
  {
    if recipient in h.agents.m then
      var (response, h') := Deliver(h, sender, recipient, message, "", now);
      assert "" + response == response;
      (response, h')
    else
      RecordLogged(h.db, sender, recipient, message, now);
      ("Agent " + recipient + " not found", h.(db := RecordConversation(h.db, sender, recipient, message, now).1))
  }

  /** What `send_message` answers, read off the hub before the call. */
  function Answer(h: Hub, sender: string, recipient: string, message: string): string
    requires Consistent(h)
  {
    if recipient in h.agents.m then Reply(h.agents.m[recipient], sender, message)
    else "Agent " + recipient + " not found"
  }

  /** The rows `send_message` writes: the message, then the answer when someone is there to give one. */
  function Trail(h: Hub, sender: string, recipient: string, message: string): seq<(string, string, string)>
    requires Consistent(h)
  {
    if recipient in h.agents.m then [(sender, recipient, message), (recipient, sender, Answer(h, sender, recipient, message))]
    else [(sender, recipient, message)]
  }

  /** Agents of the same ids and kinds answer alike, so the answer and the rows only depend on the roster. */
  lemma AnswerRoster(h: Hub, h': Hub, sender: string, recipient: string, message: string)
    requires Consistent(h) && Consistent(h') && SameRoster(h, h')
    ensures Answer(h', sender, recipient, message) == Answer(h, sender, recipient, message)
    ensures Trail(h', sender, recipient, message) == Trail(h, sender, recipient, message)
  {
    if recipient in h.agents.m {
      ReplyOfKind(h'.agents.m[recipient], h.agents.m[recipient], sender, message);
    }
  }

  lemma SendTrail(h: Hub, sender: string, recipient: string, message: string, now: nat)
    requires Consistent(h)
    ensures Send(h, sender, recipient, message, now).0 == Answer(h, sender, recipient, message)
    ensures Logged(h.db.conversations, Send(h, sender, recipient, message, now).1.db.conversations,
                   Trail(h, sender, recipient, message), now)
  {
  }

  /** Who a multicast reaches: registered, and not skipped. */
  predicate Reached(skip: seq<string>, registered: set<string>, k: string) {
    k !in skip && k in registered
  }

  /** The members a multicast reaches, in order, repeats kept. */
  function Reachable(members: seq<string>, skip: seq<string>, registered: set<string>): (ks: seq<string>)
    ensures forall k <- ks :: k in members && Reached(skip, registered, k)
    ensures forall k <- members :: Reached(skip, registered, k) ==> k in ks
  {
    if |members| == 0 then []
    else if Reached(skip, registered, members[0]) then [members[0]] + Reachable(members[1..], skip, registered)
    else Reachable(members[1..], skip, registered)
  }

  /**
   * The loop shared by `broadcast_message` and `send_group_message`: each
   * member that is reached gets the message, and its answer is stored in
   * the responses under its id (a repeated member answers twice, the later
   * answer kept). What it answers and logs is stated by the lemmas below.
   */
  function Multicast(h: Hub, sender: string, members: seq<string>, skip: seq<string>, message: string, tag: string,
                     responses: Dict<string, string>, now: nat): (r: (Dict<string, string>, Hub))
    requires Consistent(h) && responses.Valid()
    ensures Consistent(r.1) && SameRoster(h, r.1) && Grows(h.db, r.1.db)
    ensures r.0.Valid()
    decreases |members|
  {
    if |members| == 0 then
      (responses, h)
    else if Reached(skip, h.agents.m.Keys, members[0]) then
      var (response, h1) := Deliver(h, sender, members[0], message, tag, now);
      PutValid(responses, members[0], response);
      var r := Multicast(h1, sender, members[1..], skip, message, tag, responses.Put(members[0], response), now);
      SameRosterChain(h, h1, r.1);
      GrowsChain(h.db, h1.db, r.1.db);
      r
    else
      Multicast(h, sender, members[1..], skip, message, tag, responses, now)
  }

  /**
   * The replies a multicast collects, as a reference without the hub's
   * bookkeeping: each member reached answers as its registered agent does.
   */
  function Answers(h: Hub, sender: string, members: seq<string>, skip: seq<string>, message: string,
                   acc: map<string, string>): map<string, string>
    decreases |members|
  {
    if |members| == 0 then acc
    else if Reached(skip, h.agents.m.Keys, members[0]) then
      Answers(h, sender, members[1..], skip, message, acc[members[0] := Reply(h.agents.m[members[0]], sender, message)])
    else Answers(h, sender, members[1..], skip, message, acc)
  }

  /** The replies depend only on who is registered and of what kind. */
  lemma {:induction false} AnswersRoster(h: Hub, h1: Hub, sender: string, members: seq<string>, skip: seq<string>, message: string,
                                         acc: map<string, string>)
    requires SameRoster(h, h1)
    ensures Answers(h1, sender, members, skip, message, acc) == Answers(h, sender, members, skip, message, acc)
    decreases |members|
  {
    if |members| > 0 {
      var k := members[0];
      if Reached(skip, h.agents.m.Keys, k) {
        ReplyOfKind(h1.agents.m[k], h.agents.m[k], sender, message);
        AnswersRoster(h, h1, sender, members[1..], skip, message, acc[k := Reply(h.agents.m[k], sender, message)]);
      } else {
        AnswersRoster(h, h1, sender, members[1..], skip, message, acc);
      }
    }
  }

  /** The multicast collects exactly the reference replies. */
  lemma {:induction false} MulticastIsAnswers(h: Hub, sender: string, members: seq<string>, skip: seq<string>, message: string, tag: string,
                                              responses: Dict<string, string>, now: nat)
    requires Consistent(h) && responses.Valid()
    ensures Multicast(h, sender, members, skip, message, tag, responses, now).0.m == Answers(h, sender, members, skip, message, responses.m)
    decreases |members|
  {
    if |members| > 0 {
      var k := members[0];
      if Reached(skip, h.agents.m.Keys, k) {
        var (response, h1) := Deliver(h, sender, k, message, tag, now);
        PutValid(responses, k, response);
        var acc := responses.Put(k, response);
        MulticastIsAnswers(h1, sender, members[1..], skip, message, tag, acc, now);
        AnswersRoster(h, h1, sender, members[1..], skip, message, acc.m);
      } else {
        MulticastIsAnswers(h, sender, members[1..], skip, message, tag, responses, now);
      }
    }
  }

  /** The reference replies: the members reached, each with its own reply, and the earlier entries otherwise. */
  lemma {:induction false} AnswersSpec(h: Hub, sender: string, members: seq<string>, skip: seq<string>, message: string,
                                       acc: map<string, string>)
    ensures var d := Answers(h, sender, members, skip, message, acc);
      && (forall k :: k in d <==> k in acc || (k in members && Reached(skip, h.agents.m.Keys, k)))
      && (forall k <- d :: d[k] == if k in members && Reached(skip, h.agents.m.Keys, k) then Reply(h.agents.m[k], sender, message) else acc[k])
    decreases |members|
  {
    if |members| > 0 {
      var ks := h.agents.m.Keys;
      var k := members[0];
      assert forall j :: j in members <==> j == k || j in members[1..];
      if Reached(skip, ks, k) {
        AnswersSpec(h, sender, members[1..], skip, message, acc[k := Reply(h.agents.m[k], sender, message)]);
      } else {
        AnswersSpec(h, sender, members[1..], skip, message, acc);
      }
    }
  }

  /** The members answered are those reached, each with its own reply; earlier responses are kept otherwise. */
  lemma MulticastAnswers(h: Hub, sender: string, members: seq<string>, skip: seq<string>, message: string, tag: string,
                         responses: Dict<string, string>, now: nat)
    requires Consistent(h) && responses.Valid()
    ensures var d := Multicast(h, sender, members, skip, message, tag, responses, now).0;
      && (forall k :: k in d.m <==> k in responses.m || (k in members && Reached(skip, h.agents.m.Keys, k)))
      && (forall k <- d.m :: d.m[k] == if k in members && Reached(skip, h.agents.m.Keys, k) then Reply(h.agents.m[k], sender, message) else responses.m[k])
  {
    MulticastIsAnswers(h, sender, members, skip, message, tag, responses, now);
    AnswersSpec(h, sender, members, skip, message, responses.m);
  }

  /** The log gains the two rows of each delivery, in the order of the members reached. */
  lemma {:induction false} MulticastLog(h: Hub, sender: string, members: seq<string>, skip: seq<string>, message: string, tag: string,
                                        responses: Dict<string, string>, now: nat)
    requires Consistent(h) && responses.Valid()
    ensures Logged(h.db.conversations, Multicast(h, sender, members, skip, message, tag, responses, now).1.db.conversations,
                   Exchanges(h.agents, sender, Reachable(members, skip, h.agents.m.Keys), message, tag), now)
    decreases |members|
  {
    if |members| == 0 {
      assert h.db.conversations[..|h.db.conversations|] == h.db.conversations;
    } else if Reached(skip, h.agents.m.Keys, members[0]) {
      var (response, h1) := Deliver(h, sender, members[0], message, tag, now);
      PutValid(responses, members[0], response);
      MulticastLog(h1, sender, members[1..], skip, message, tag, responses.Put(members[0], response), now);
      var r := Multicast(h1, sender, members[1..], skip, message, tag, responses.Put(members[0], response), now);
      MulticastStep(h, h1, r.1, sender, members, skip, message, tag, now);
    } else {
      MulticastLog(h, sender, members[1..], skip, message, tag, responses, now);
      assert Reachable(members, skip, h.agents.m.Keys) == Reachable(members[1..], skip, h.agents.m.Keys);
    }
  }

  /** Members listed once, and not answered before, are answered in the order listed. */
  lemma {:induction false} MulticastOrder(h: Hub, sender: string, members: seq<string>, skip: seq<string>, message: string, tag: string,
                                          responses: Dict<string, string>, now: nat)
    requires Consistent(h) && responses.Valid()
    requires Distinct(members) && forall k <- members :: k !in responses.m
    ensures Multicast(h, sender, members, skip, message, tag, responses, now).0.keys
      == responses.keys + Reachable(members, skip, h.agents.m.Keys)
    decreases |members|
  {
    if |members| > 0 {
      var ks := h.agents.m.Keys;
      var k := members[0];
      DistinctTail(members);
      if Reached(skip, ks, k) {
        var (response, h1) := Deliver(h, sender, k, message, tag, now);
        PutValid(responses, k, response);
        var acc := responses.Put(k, response);
        assert acc.keys == responses.keys + [k];
        assert forall j <- members[1..] :: j !in acc.m;
        MulticastOrder(h1, sender, members[1..], skip, message, tag, acc, now);
        assert Multicast(h, sender, members, skip, message, tag, responses, now).0
          == Multicast(h1, sender, members[1..], skip, message, tag, acc, now).0;
        assert h1.agents.m.Keys == ks;
        var rest := Reachable(members[1..], skip, ks);
        assert Reachable(members, skip, ks) == [k] + rest;
        AppendAssoc(responses.keys, [k], rest);
      } else {
        MulticastOrder(h, sender, members[1..], skip, message, tag, responses, now);
        assert Multicast(h, sender, members, skip, message, tag, responses, now).0
          == Multicast(h, sender, members[1..], skip, message, tag, responses, now).0;
        assert Reachable(members, skip, ks) == Reachable(members[1..], skip, ks);
      }
    } else {
      assert Multicast(h, sender, members, skip, message, tag, responses, now).0 == responses;
      assert responses.keys + [] == responses.keys;
    }
  }

  lemma AppendAssoc<K>(a: seq<K>, b: seq<K>, c: seq<K>)
    ensures (a + b) + c == a + (b + c)
  {
  }

  lemma DistinctTail<K>(s: seq<K>)
    requires |s| > 0 && Distinct(s)
    ensures s[0] !in s[1..] && Distinct(s[1..])
  {
    forall j | 0 <= j < |s[1..]| ensures s[1..][j] != s[0] {
      assert s[1..][j] == s[1 + j];
    }
  }

  /** The log of a multicast whose first member is reached: that delivery, then the rest. */
  lemma MulticastStep(h: Hub, h1: Hub, h2: Hub, sender: string, members: seq<string>, skip: seq<string>,
                      message: string, tag: string, now: nat)
    requires Consistent(h) && |members| > 0 && Reached(skip, h.agents.m.Keys, members[0])
    requires SameRoster(h, h1)
    requires Logged(h.db.conversations, h1.db.conversations, Exchange(h.agents, sender, members[0], message, tag), now)
    requires Logged(h1.db.conversations, h2.db.conversations,
                    Exchanges(h1.agents, sender, Reachable(members[1..], skip, h1.agents.m.Keys), message, tag), now)
    ensures Logged(h.db.conversations, h2.db.conversations,
                   Exchanges(h.agents, sender, Reachable(members, skip, h.agents.m.Keys), message, tag), now)
  {
    var rest := Reachable(members[1..], skip, h.agents.m.Keys);
    ExchangesRoster(h, h1, sender, rest, message, tag);
    assert Reachable(members, skip, h.agents.m.Keys) == [members[0]] + rest;
    assert ([members[0]] + rest)[1..] == rest;
    LoggedChain(h.db.conversations, h1.db.conversations, h2.db.conversations,
                Exchange(h.agents, sender, members[0], message, tag), Exchanges(h.agents, sender, rest, message, tag), now);
  }

  /** The list `broadcast_message` leaves in `exclude_ids`: the given one (or a new one) with the sender appended if absent. */
  function Excluded(exclude: Option<seq<string>>, sender: string): (ex: seq<string>)
    ensures forall k :: k in ex <==> k == sender || (exclude.Some? && k in exclude.value)
    ensures exclude.Some? ==> |exclude.value| <= |ex| && ex[..|exclude.value|] == exclude.value
    ensures exclude.Some? && sender in exclude.value ==> ex == exclude.value
  {
    var given := if exclude.Some? then exclude.value else [];
    if sender in given then given else given + [sender]
  }

  /**
   * `broadcast_message`: every registered agent not excluded, in
   * registration order, gets the message; the responses map each of them
   * to its answer. Also returns the mutated exclusion list.
   */
  function Broadcast(h: Hub, sender: string, message: string, exclude: Option<seq<string>>, now: nat)
    : (r: (Dict<string, string>, seq<string>, Hub))
    requires Consistent(h)
    ensures r.1 == Excluded(exclude, sender)
    ensures Consistent(r.2) && SameRoster(h, r.2) && Grows(h.db, r.2.db)
    ensures r.0.Valid()
    ensures forall k :: k in r.0.m <==> k in h.agents.m && k !in r.1
    ensures sender !in r.0.m
    ensures r.0.keys == Reachable(h.agents.keys, r.1, h.agents.m.Keys)
    ensures forall k <- r.0.m :: r.0.m[k] == Reply(h.agents.m[k], sender, message)
    ensures Logged(h.db.conversations, r.2.db.conversations, Exchanges(h.agents, sender, r.0.keys, message, ""), now)
  {
    var ex := Excluded(exclude, sender);
    var (responses, h') := Multicast(h, sender, h.agents.keys, ex, message, "", Dicts.Empty(), now);
    MulticastAnswers(h, sender, h.agents.keys, ex, message, "", Dicts.Empty(), now);
    MulticastLog(h, sender, h.agents.keys, ex, message, "", Dicts.Empty(), now);
    MulticastOrder(h, sender, h.agents.keys, ex, message, "", Dicts.Empty(), now);
    (responses, ex, h')
  }

  /** The hub's `get_conversation_history`: the agent's rows when an agent is given, else every row; newest first. */
  function History(h: Hub, agentId: Option<string>, limit: int): (rows: seq<ConversationRow>)
    requires Consistent(h)
    ensures Given(agentId) ==> Tables.IsNewest(h.db.conversations, Involves(agentId.value), limit, ConversationId, rows)
    ensures !Given(agentId) ==> Tables.IsNewest(h.db.conversations, Conversation.Everything(), limit, ConversationId, rows)
  {
    if Given(agentId) then ConversationHistory(h.db, agentId.value, limit)
    else Conversation.AllConversations(h.db, limit)
  }

  // ---------------------------------------------------------------- groups

  function GroupKey(groupId: string): string {
    "group:" + groupId
  }

  /** The prefix a group message and every answer to it carry in the log. */
  function GroupTag(name: string): string {
    "[Group: " + name + "] "
  }

  /** `a` has a live short-term entry under `key`. */
  predicate Holds(a: Agent, key: string, now: int) {
    key in a.cache.m && Live(a.cache.m[key], now)
  }

  /** Position `j` is the first from `i` on, in registration order, whose agent holds `key`. */
  ghost predicate FirstHolder(h: Hub, key: string, i: int, j: int, now: int)
    requires Consistent(h)
  {
    && 0 <= i <= j < |h.agents.keys|
    && Holds(h.agents.m[h.agents.keys[j]], key, now)
    && (forall l | i <= l < j :: !Holds(h.agents.m[h.agents.keys[l]], key, now))
  }

  /**
   * The search loop of `send_group_message`: ask each agent from position
   * `i` on for `key` and stop at the first value. A stale entry met on the
   * way is deleted by the lookup, which is why the hub comes back too.
   */
  function SearchGroup(h: Hub, key: string, i: nat, now: int): (r: (Option<Memo>, Hub))
    requires Consistent(h) && i <= |h.agents.keys|
    ensures Consistent(r.1) && SameRoster(h, r.1) && r.1.db == h.db
    ensures r.0.None? <==> forall j | i <= j < |h.agents.keys| :: !Holds(h.agents.m[h.agents.keys[j]], key, now)
    ensures r.0.Some? ==> exists j :: FirstHolder(h, key, i, j, now) && r.0.value == h.agents.m[h.agents.keys[j]].cache.m[key].value
    decreases |h.agents.keys| - i
  {
    if i == |h.agents.keys| then (None, h)
    else
      var id := h.agents.keys[i];
      var a := h.agents.m[id];
      var (found, c) := ShortTerm.Get(a.cache, key, now);
      if found.Some? then
        assert FirstHolder(h, key, i, i, now);
        (found, h)
      else
        var h1 := Replace(h, id, a.(cache := c), h.db);
        SearchStep(h, h1, key, i, now);
        SearchGroup(h1, key, i + 1, now)
  }

  /** After the agent at `i` is found not to hold `key`, the search from `i + 1` decides the one from `i`. */
  lemma SearchStep(h: Hub, h1: Hub, key: string, i: nat, now: int)
    requires Consistent(h) && Consistent(h1) && i < |h.agents.keys|
    requires !Holds(h.agents.m[h.agents.keys[i]], key, now)
    requires h1.agents.keys == h.agents.keys && h1.agents.m.Keys == h.agents.m.Keys
    requires forall k <- h.agents.m :: k != h.agents.keys[i] ==> h1.agents.m[k] == h.agents.m[k]
    ensures forall j :: FirstHolder(h1, key, i + 1, j, now) ==>
      FirstHolder(h, key, i, j, now) && h1.agents.m[h1.agents.keys[j]] == h.agents.m[h.agents.keys[j]]
    ensures (forall j | i + 1 <= j < |h1.agents.keys| :: !Holds(h1.agents.m[h1.agents.keys[j]], key, now))
      <==> (forall j | i <= j < |h.agents.keys| :: !Holds(h.agents.m[h.agents.keys[j]], key, now))
  {
    SearchStepFound(h, h1, key, i, now);
    SearchStepMissed(h, h1, key, i, now);
  }

  /** The agents after `i` are the same in both hubs. */
  lemma SearchStepSame(h: Hub, h1: Hub, i: nat)
    requires Consistent(h) && Consistent(h1) && i < |h.agents.keys|
    requires h1.agents.keys == h.agents.keys && h1.agents.m.Keys == h.agents.m.Keys
    requires forall k <- h.agents.m :: k != h.agents.keys[i] ==> h1.agents.m[k] == h.agents.m[k]
    ensures forall j | i < j < |h.agents.keys| :: h1.agents.m[h.agents.keys[j]] == h.agents.m[h.agents.keys[j]]
  {
    var ks := h.agents.keys;
    forall j | i < j < |ks| ensures h1.agents.m[ks[j]] == h.agents.m[ks[j]] {
      assert ks[j] != ks[i];
    }
  }

  lemma SearchStepFound(h: Hub, h1: Hub, key: string, i: nat, now: int)
    requires Consistent(h) && Consistent(h1) && i < |h.agents.keys|
    requires !Holds(h.agents.m[h.agents.keys[i]], key, now)
    requires h1.agents.keys == h.agents.keys && h1.agents.m.Keys == h.agents.m.Keys
    requires forall k <- h.agents.m :: k != h.agents.keys[i] ==> h1.agents.m[k] == h.agents.m[k]
    ensures forall j :: FirstHolder(h1, key, i + 1, j, now) ==>
      FirstHolder(h, key, i, j, now) && h1.agents.m[h1.agents.keys[j]] == h.agents.m[h.agents.keys[j]]
  {
    SearchStepSame(h, h1, i);
  }

  lemma SearchStepMissed(h: Hub, h1: Hub, key: string, i: nat, now: int)
    requires Consistent(h) && Consistent(h1) && i < |h.agents.keys|
    requires !Holds(h.agents.m[h.agents.keys[i]], key, now)
    requires h1.agents.keys == h.agents.keys && h1.agents.m.Keys == h.agents.m.Keys
    requires forall k <- h.agents.m :: k != h.agents.keys[i] ==> h1.agents.m[k] == h.agents.m[k]
    ensures (forall j | i + 1 <= j < |h1.agents.keys| :: !Holds(h1.agents.m[h1.agents.keys[j]], key, now))
      <==> (forall j | i <= j < |h.agents.keys| :: !Holds(h.agents.m[h.agents.keys[j]], key, now))
  {
    SearchStepSame(h, h1, i);
  }

  /** The answer to a group message naming a group nobody holds. */
  function GroupNotFound(groupId: string): (d: Dict<string, string>)
    ensures d.Valid() && d.m == map["error" := "Group " + groupId + " not found"]
  {
    Dict(["error"], map["error" := "Group " + groupId + " not found"])
  }

  /**
   * `create_group`: the group `group_<hex8>` is stored, without expiry, in
   * the short-term memory of its first member, provided that member is
   * registered; otherwise nothing happens and there is no id.
   */
  function CreateGroup(h: Hub, name: string, ids: seq<string>, hex8: string, now: nat): (r: (Option<string>, Hub))
    requires Consistent(h) && IsHex8(hex8)
    ensures Consistent(r.1) && SameRoster(h, r.1) && r.1.db == h.db
    ensures r.0.Some? <==> |ids| > 0 && ids[0] in h.agents.m
    ensures r.0.Some? ==> (
      && r.0.value == "group_" + hex8
      && r.1.agents.m[ids[0]].cache.Get(GroupKey(r.0.value)) == Some(Entry(GroupInfo(name, ids, now), now, None))
      && (forall k :: k != GroupKey(r.0.value) ==> r.1.agents.m[ids[0]].cache.Get(k) == h.agents.m[ids[0]].cache.Get(k))
      && (forall k <- h.agents.m :: k != ids[0] ==> r.1.agents.m[k] == h.agents.m[k]))
    ensures r.0.None? ==> r.1 == h
  {
    var groupId := "group_" + hex8;
    if |ids| > 0 && ids[0] in h.agents.m then
      var a := h.agents.m[ids[0]];
      var (_, c) := Add(a.cache, GroupKey(groupId), GroupInfo(name, ids, now), None, now);
      (Some(groupId), Replace(h, ids[0], a.(cache := c), h.db))
    else (None, h)
  }

  /**
   * `send_group_message`: find the group; when nobody holds it the answer
   * is an error entry, when the value found is not a group reading its
   * members fails, and otherwise every registered member other than the
   * sender gets the message tagged with the group name.
   */
  function SendGroupMessage(h: Hub, sender: string, groupId: string, message: string, now: nat)
    : (r: (Result<Dict<string, string>>, Hub))
    requires Consistent(h)
    ensures Consistent(r.1) && SameRoster(h, r.1) && Grows(h.db, r.1.db)
    ensures var found := SearchGroup(h, GroupKey(groupId), 0, now).0;
      && (found.None? ==> r.0 == Ok(GroupNotFound(groupId)) && r.1.db == h.db)
      && (found.Some? && !found.value.GroupInfo? ==> r.0 == Raise("KeyError") && r.1.db == h.db)
      && (found.Some? && found.value.GroupInfo? ==>
            r.0.Ok? && GroupDelivered(h, r.0.value, r.1, sender, found.value.name, found.value.members, message, now))
  {
    var (found, h1) := SearchGroup(h, GroupKey(groupId), 0, now);
    match found
    case None => (Ok(GroupNotFound(groupId)), h1)
    case Some(GroupInfo(name, members, _)) =>
      var (responses, h2) := GroupDelivery(h, h1, sender, name, members, message, now);
      (Ok(responses), h2)
    case Some(_) => (Raise("KeyError"), h1)
  }

  /**
   * What delivering `message` to group `name` leaves: every registered
   * member other than the sender answers the tagged message, and the log
   * gains the two rows of each delivery, in member order.
   */
  ghost predicate GroupDelivered(h: Hub, responses: Dict<string, string>, h': Hub, sender: string, name: string,
                                 members: seq<string>, message: string, now: nat)
  {
    && responses.Valid()
    && (forall k :: k in responses.m <==> k in members && k != sender && k in h.agents.m)
    && (forall k <- responses.m :: responses.m[k] == Reply(h.agents.m[k], sender, GroupTag(name) + message))
    && Logged(h.db.conversations, h'.db.conversations,
              Exchanges(h.agents, sender, Reachable(members, [sender], h.agents.m.Keys), GroupTag(name) + message, GroupTag(name)), now)
  }

  /** The delivery loop of `send_group_message`, run on the hub the search left behind. */
  function GroupDelivery(h: Hub, h1: Hub, sender: string, name: string, members: seq<string>, message: string, now: nat)
    : (r: (Dict<string, string>, Hub))
    requires Consistent(h) && Consistent(h1) && SameRoster(h, h1) && h1.db == h.db
    ensures Consistent(r.1) && SameRoster(h, r.1) && Grows(h.db, r.1.db)
    ensures GroupDelivered(h, r.0, r.1, sender, name, members, message, now)
  {
    var text := GroupTag(name) + message;
    var (responses, h2) := Multicast(h1, sender, members, [sender], text, GroupTag(name), Dicts.Empty(), now);
    MulticastAnswers(h1, sender, members, [sender], text, GroupTag(name), Dicts.Empty(), now);
    MulticastLog(h1, sender, members, [sender], text, GroupTag(name), Dicts.Empty(), now);
    assert h1.agents.m.Keys == h.agents.m.Keys;
    ExchangesRoster(h, h1, sender, Reachable(members, [sender], h.agents.m.Keys), text, GroupTag(name));
    forall k <- responses.m ensures Reply(h1.agents.m[k], sender, text) == Reply(h.agents.m[k], sender, text) {
      ReplyOfKind(h1.agents.m[k], h.agents.m[k], sender, text);
    }
    SameRosterChain(h, h1, h2);
    (responses, h2)
  }

  /** When exactly one agent holds `key`, the search finds that agent's value. */
  lemma OnlyHolder(h: Hub, key: string, id: string, now: int)
    requires Consistent(h) && id in h.agents.m && Holds(h.agents.m[id], key, now)
    requires forall k <- h.agents.m :: k != id ==> !Holds(h.agents.m[k], key, now)
    ensures SearchGroup(h, key, 0, now).0 == Some(h.agents.m[id].cache.m[key].value)
  {
    var ks := h.agents.keys;
    assert id in ks;
    var p :| 0 <= p < |ks| && ks[p] == id;
    assert Holds(h.agents.m[ks[p]], key, now);
    var r := SearchGroup(h, key, 0, now);
    assert r.0.Some?;
    forall l | 0 <= l < |ks| && l != p ensures !Holds(h.agents.m[ks[l]], key, now) {
      assert ks[l] != id && ks[l] in h.agents.m;
    }
    var j :| FirstHolder(h, key, 0, j, now) && r.0.value == h.agents.m[ks[j]].cache.m[key].value;
    assert j == p;
  }

  /**
   * A group just created is the one the next group message finds, at any
   * later time, provided no agent held an entry under its key before.
   */
  lemma CreateThenFind(h: Hub, name: string, ids: seq<string>, hex8: string, now: nat, later: nat)
    requires Consistent(h) && IsHex8(hex8)
    requires |ids| > 0 && ids[0] in h.agents.m
    requires forall k <- h.agents.m :: GroupKey("group_" + hex8) !in h.agents.m[k].cache.m
    ensures var h' := CreateGroup(h, name, ids, hex8, now).1;
      SearchGroup(h', GroupKey("group_" + hex8), 0, later).0 == Some(GroupInfo(name, ids, now))
  {
    var key := GroupKey("group_" + hex8);
    var h' := CreateGroup(h, name, ids, hex8, now).1;
    assert h'.agents.m[ids[0]].cache.m[key] == Entry(GroupInfo(name, ids, now), now, None);
    forall k <- h'.agents.m | k != ids[0] ensures !Holds(h'.agents.m[k], key, later) {
      assert h'.agents.m[k] == h.agents.m[k];
    }
    OnlyHolder(h', key, ids[0], later);
  }
}

=== FILE: short_term.dfy ===
/**
 * An agent's short-term memory (app/memory/short_term.py): a dictionary of
 * values stamped with the time they were stored and an optional time-to-live.
 * `time.time()` is the parameter `now`; the background sweeping thread is
 * not modelled, only the sweep it calls.
 */
module ShortTerm {
  import opened Wrappers
  import opened Dicts

  /** `SHORT_TERM_MEMORY_TTL` of app/config.py, in seconds. */
  const DefaultTtl: int := 3600

  datatype Entry<V> = Entry(value: V, stamp: int, ttl: Option<int>)

  type Cache<V> = Dict<string, Entry<V>>

  /** What `get` and `get_all` still return: no time-to-live, or younger than it. */
  predicate Live<V>(e: Entry<V>, now: int) {
    e.ttl.None? || now - e.stamp < e.ttl.value
  }

  /** What `clear_expired` removes: a time-to-live that the age strictly exceeds. */
  predicate Expired<V>(e: Entry<V>, now: int) {
    e.ttl.Some? && now - e.stamp > e.ttl.value
  }

  /** The keys of `keys` whose entries satisfy `keep`, in their original order. */
  function Filter<V>(keys: seq<string>, m: map<string, Entry<V>>, keep: Entry<V> -> bool): (r: seq<string>)
    requires forall i | 0 <= i < |keys| :: keys[i] in m
    ensures forall k <- r :: k in keys && keep(m[k])
    ensures forall k <- keys :: keep(m[k]) ==> k in r
    ensures |r| <= |keys|
  {
    if |keys| == 0 then []
    else
      var init := Filter(keys[..|keys| - 1], m, keep);
      var last := keys[|keys| - 1];
      assert forall k <- keys :: k in keys[..|keys| - 1] || k == last;
      if keep(m[last]) then init + [last] else init
  }

  lemma FilterSnoc<V>(keys: seq<string>, m: map<string, Entry<V>>, keep: Entry<V> -> bool, i: nat)
    requires i < |keys| && forall j | 0 <= j < |keys| :: keys[j] in m
    ensures Filter(keys[..i + 1], m, keep) == Filter(keys[..i], m, keep) + (if keep(m[keys[i]]) then [keys[i]] else [])
  {
    assert keys[..i + 1][..i] == keys[..i];
  }

  lemma {:induction false} FilterDistinct<V>(keys: seq<string>, m: map<string, Entry<V>>, keep: Entry<V> -> bool)
    requires forall i | 0 <= i < |keys| :: keys[i] in m
    requires Distinct(keys)
    ensures Distinct(Filter(keys, m, keep))
  {
    if |keys| > 0 {
      var init := keys[..|keys| - 1];
      FilterDistinct(init, m, keep);
      var last := keys[|keys| - 1];
      assert last !in init by {
        forall j | 0 <= j < |init| ensures init[j] != last {
          assert init[j] == keys[j];
        }
      }
      var f := Filter(init, m, keep);
      if keep(m[last]) {
        var r := f + [last];
        forall i, j | 0 <= i < j < |r| ensures r[i] != r[j] {
          if j < |f| {
            assert r[i] == f[i] && r[j] == f[j];
          } else {
            assert r[i] in f;
          }
        }
      }
    }
  }

  function Empty<V>(): (c: Cache<V>)
    ensures c.Valid() && c.m == map[]
  {
    Dicts.Empty()
  }

  /** `add`: store `value` under `key`, stamped `now`; it always reports success. */
  function Add<V>(c: Cache<V>, key: string, value: V, ttl: Option<int>, now: int): (r: (bool, Cache<V>))
    requires c.Valid()
    ensures r.0
    ensures r.1.Valid()
    ensures r.1.Get(key) == Some(Entry(value, now, ttl))
    ensures forall k :: k != key ==> r.1.Get(k) == c.Get(k)
  {
    PutValid(c, key, Entry(value, now, ttl));
    (true, c.Put(key, Entry(value, now, ttl)))
  }

  /**
   * `get`: the value when the entry is live; an entry found stale is deleted
   * on the way, so the call also returns the new memory.
   */
  function Get<V>(c: Cache<V>, key: string, now: int): (r: (Option<V>, Cache<V>))
    requires c.Valid()
    ensures r.1.Valid()
    ensures r.0.Some? <==> key in c.m && Live(c.m[key], now)
    ensures r.0.Some? ==> r.0.value == c.m[key].value && r.1 == c
    ensures r.0.None? ==> r.1 == c.Remove(key)
  {
    RemoveValid(c, key);
    if key in c.m then
      if Live(c.m[key], now) then (Some(c.m[key].value), c) else (None, c.Remove(key))
    else (None, c.Remove(key))
  }

  /** `update`: replace the value of a present key, restamping it when `resetTtl`. */
  function Update<V>(c: Cache<V>, key: string, value: V, resetTtl: bool, now: int): (r: (bool, Cache<V>))
    requires c.Valid()
    ensures r.1.Valid()
    ensures r.0 <==> key in c.m
    ensures !r.0 ==> r.1 == c
    ensures r.0 ==> r.1.keys == c.keys
    ensures r.0 ==> r.1.Get(key) == Some(Entry(value, if resetTtl then now else c.m[key].stamp, c.m[key].ttl))
    ensures forall k :: k != key ==> r.1.Get(k) == c.Get(k)
  {
    if key in c.m then
      var e := c.m[key];
      var e' := Entry(value, if resetTtl then now else e.stamp, e.ttl);
      PutValid(c, key, e');
      (true, c.Put(key, e'))
    else (false, c)
  }

  /** `delete`: whether the key was present, and the memory without it. */
  function Delete<V>(c: Cache<V>, key: string): (r: (bool, Cache<V>))
    requires c.Valid()
    ensures r.0 <==> key in c.m
    ensures r.1.Valid() && key !in r.1.m
    ensures forall k :: k != key ==> r.1.Get(k) == c.Get(k)
  {
    RemoveValid(c, key);
    (key in c.m, c.Remove(key))
  }

  /** `get_all`: the live values, in insertion order. */
  function GetAll<V>(c: Cache<V>, now: int): (d: Dict<string, V>)
    requires c.Valid()
    ensures d.Valid()
    ensures forall k :: k in d.m <==> k in c.m && Live(c.m[k], now)
    ensures forall k <- d.m :: d.m[k] == c.m[k].value
    ensures d.keys == Filter(c.keys, c.m, e => Live(e, now))
  {
    var keys := Filter(c.keys, c.m, e => Live(e, now));
    FilterDistinct(c.keys, c.m, e => Live(e, now));
    Dict(keys, map k | k in c.m && Live(c.m[k], now) :: c.m[k].value)
  }

  /** `__len__`: the number of live entries (nothing is deleted). */
  function Len<V>(c: Cache<V>, now: int): (n: nat)
    requires c.Valid()
    ensures n == |set k | k in c.m && Live(c.m[k], now)|
  {
    var d := GetAll(c, now);
    SizeCounts(d);
    assert d.m.Keys == set k | k in c.m && Live(c.m[k], now);
    |d.keys|
  }

  /**
   * `__contains__`, which goes through `get` and so may delete a stale entry.
   * It tests the value against `None`, so the values are given as `Option`s,
   * `None` standing for a stored Python `None`.
   */
  function Has<X>(c: Cache<Option<X>>, key: string, now: int): (r: (bool, Cache<Option<X>>))
    requires c.Valid()
    ensures r.0 <==> key in c.m && Live(c.m[key], now) && c.m[key].value.Some?
    ensures r.1.Valid()
    ensures key in c.m && Live(c.m[key], now) ==> r.1 == c
    ensures !(key in c.m && Live(c.m[key], now)) ==> r.1 == c.Remove(key) && key !in r.1.m
  {
    var (v, c') := Get(c, key, now);
    (v.Some? && v.value.Some?, c')
  }

  /** A key stored with the value `None` is never reported as contained, even while live. */
  lemma NoneStoredNotContained<X>(c: Cache<Option<X>>, key: string, ttl: Option<int>, t: int, later: int)
    requires c.Valid()
    ensures Get(Add(c, key, None, ttl, t).1, key, later).0.Some? <==> ttl.None? || later - t < ttl.value
    ensures !Has(Add(c, key, None, ttl, t).1, key, later).0
  {
  }

  /**
   * `clear_expired`: drop every entry whose age exceeds its time-to-live and
   * count them; the survivors keep their order and contents.
   */
  method ClearExpired<V>(c: Cache<V>, now: int) returns (count: nat, c': Cache<V>)
    requires c.Valid()
    ensures c'.Valid()
    ensures forall k :: k in c'.m <==> k in c.m && !Expired(c.m[k], now)
    ensures forall k <- c'.m :: c'.m[k] == c.m[k]
    ensures c'.keys == Filter(c.keys, c.m, e => !Expired(e, now))
    ensures count + |c'.keys| == |c.keys|
  {
    var kept: seq<string> := [];
    var i := 0;
    count := 0;
    while i < |c.keys|
      invariant 0 <= i <= |c.keys|
      invariant kept == Filter(c.keys[..i], c.m, e => !Expired(e, now))
      invariant count + |kept| == i
    {
      var k := c.keys[i];
      FilterSnoc(c.keys, c.m, e => !Expired(e, now), i);
      if Expired(c.m[k], now) {
        count := count + 1;
      } else {
        kept := kept + [k];
      }
      i := i + 1;
    }
    assert c.keys[..i] == c.keys;
    FilterDistinct(c.keys, c.m, e => !Expired(e, now));
    c' := Dict(kept, map k | k in c.m && !Expired(c.m[k], now) :: c.m[k]);
  }

  /** A memory stored without a time-to-live is returned whatever the clock says. */
  lemma AddThenGetForever<V>(c: Cache<V>, key: string, value: V, t: int, later: int)
    requires c.Valid()
    ensures Get(Add(c, key, value, None, t).1, key, later).0 == Some(value)
  {
  }

  /**
   * A memory stored with time-to-live `ttl` is returned exactly while its age
   * is below `ttl`; in particular a zero time-to-live is never returned.
   */
  lemma AddThenGetWithTtl<V>(c: Cache<V>, key: string, value: V, ttl: int, t: int, later: int)
    requires c.Valid()
    ensures Get(Add(c, key, value, Some(ttl), t).1, key, later).0.Some? <==> later - t < ttl
  {
  }

  /**
   * `get` and `clear_expired` disagree at the boundary: an entry whose age
   * equals its time-to-live is no longer returned, yet the sweep keeps it.
   */
  lemma BoundaryEntrySurvivesSweep<V>(e: Entry<V>, now: int)
    requires e.ttl == Some(now - e.stamp)
    ensures !Live(e, now) && !Expired(e, now)
  {
  }

  /** Every entry the sweep keeps but `get` would not return is exactly at the boundary. */
  lemma SweepAndGetAgreeOffBoundary<V>(e: Entry<V>, now: int)
    requires e.ttl.None? || now - e.stamp != e.ttl.value
    ensures Live(e, now) <==> !Expired(e, now)
  {
  }
}

=== FILE: tables.dfy ===
/**
 * The relational operations the SQLite queries of the system use, on a table
 * held as the sequence of its rows in insertion order: `WHERE` is a
 * selection, `ORDER BY … DESC` is newest first, `LIMIT` is a prefix,
 * `DELETE … WHERE` keeps the complement, and `GROUP BY … COUNT(*)` counts.
 */
module Tables {

  /** Row identities grow along the table (AUTOINCREMENT, rows kept in insertion order). */
  predicate Ascending<R>(rows: seq<R>, idOf: R -> int) {
    forall i, j | 0 <= i < j < |rows| :: idOf(rows[i]) < idOf(rows[j])
  }

  predicate Descending<R>(rows: seq<R>, idOf: R -> int) {
    forall i, j | 0 <= i < j < |rows| :: idOf(rows[i]) > idOf(rows[j])
  }

  /** `SELECT … WHERE p`, in table order. */
  function Select<R>(rows: seq<R>, p: R -> bool): (r: seq<R>)
    ensures |r| <= |rows|
    ensures forall x <- r :: x in rows && p(x)
    ensures forall x <- rows :: p(x) ==> x in r
  {
    if |rows| == 0 then []
    else if p(rows[0]) then [rows[0]] + Select(rows[1..], p)
    else Select(rows[1..], p)
  }

  /** Two conditions that agree on every row select the same rows. */
  lemma {:induction false} SelectSame<R>(rows: seq<R>, p: R -> bool, q: R -> bool)
    requires forall x :: p(x) == q(x)
    ensures Select(rows, p) == Select(rows, q)
  {
    if |rows| > 0 {
      SelectSame(rows[1..], p, q);
    }
  }

  /** `SELECT COUNT(*) … WHERE p`. */
  function Count<R>(rows: seq<R>, p: R -> bool): nat {
    |Select(rows, p)|
  }

  /** `DELETE … WHERE p`: the rows that do not match, in table order. */
  function DeleteWhere<R>(rows: seq<R>, p: R -> bool): (r: seq<R>)
    ensures forall x <- r :: x in rows && !p(x)
    ensures forall x <- rows :: !p(x) ==> x in r
  {
    Select(rows, Not(p))
  }

  lemma {:induction false} SelectNone<R>(rows: seq<R>, p: R -> bool)
    ensures (forall x <- rows :: !p(x)) ==> Select(rows, p) == []
  {
    if |rows| > 0 {
      SelectNone(rows[1..], p);
    }
  }

  function Not<R>(p: R -> bool): R -> bool {
    x => !p(x)
  }

  lemma DeleteAscending<R>(rows: seq<R>, p: R -> bool, idOf: R -> int)
    requires Ascending(rows, idOf)
    ensures Ascending(DeleteWhere(rows, p), idOf)
  {
    SelectAscending(rows, Not(p), idOf);
  }

  lemma {:induction false} SelectAscending<R>(rows: seq<R>, p: R -> bool, idOf: R -> int)
    requires Ascending(rows, idOf)
    ensures Ascending(Select(rows, p), idOf)
  {
    if |rows| > 0 {
      var rest := rows[1..];
      SelectAscending(rest, p, idOf);
      if p(rows[0]) {
        var s := Select(rest, p);
        var r := [rows[0]] + s;
        forall i, j | 0 <= i < j < |r| ensures idOf(r[i]) < idOf(r[j]) {
          if i > 0 {
            assert r[i] == s[i - 1] && r[j] == s[j - 1];
          } else {
            assert r[j] in rest;
            var k :| 0 <= k < |rest| && rest[k] == r[j];
            assert rows[k + 1] == r[j];
          }
        }
      }
    }
  }

  /** A selection splits the table: what matches plus what is deleted is every row. */
  lemma {:induction false} SelectPartition<R>(rows: seq<R>, p: R -> bool)
    ensures Count(rows, p) + |DeleteWhere(rows, p)| == |rows|
  {
    if |rows| > 0 {
      SelectPartition(rows[1..], p);
    }
  }

  function Reverse<R>(s: seq<R>): (r: seq<R>)
    ensures |r| == |s|
    ensures forall i :: 0 <= i < |s| ==> r[i] == s[|s| - 1 - i]
  {
    seq(|s|, i requires 0 <= i < |s| => s[|s| - 1 - i])
  }

  /** SQLite's `LIMIT n`, where a negative `n` means no limit. */
  function Limit<R>(rows: seq<R>, n: int): (r: seq<R>)
    ensures |r| == if 0 <= n < |rows| then n else |rows|
    ensures r == rows[..|r|]
  {
    if 0 <= n < |rows| then rows[..n] else rows
  }

  /** `SELECT … WHERE p ORDER BY <insertion time> DESC LIMIT n`. */
  function Newest<R>(rows: seq<R>, p: R -> bool, n: int): seq<R> {
    Limit(Reverse(Select(rows, p)), n)
  }

  lemma ReverseAscending<R>(s: seq<R>, idOf: R -> int)
    requires Ascending(s, idOf)
    ensures Descending(Reverse(s), idOf)
  {
    var r := Reverse(s);
    forall i, j | 0 <= i < j < |r| ensures idOf(r[i]) > idOf(r[j]) {
      assert r[i] == s[|s| - 1 - i] && r[j] == s[|s| - 1 - j];
    }
  }

  lemma KeptIfInPrefix<R>(s: seq<R>, r: seq<R>, k: int)
    requires |r| <= |s| && r == Reverse(s)[..|r|]
    requires 0 <= k < |s| && |s| - 1 - k < |r|
    ensures s[k] in r
  {
    assert r[|s| - 1 - k] == s[k];
  }

  /** In a newest-first prefix, every matching row left out is older than every row kept. */
  lemma OmittedAreOlder<R>(s: seq<R>, r: seq<R>, idOf: R -> int)
    requires Ascending(s, idOf)
    requires |r| <= |s| && r == Reverse(s)[..|r|]
    ensures forall x <- s, y <- r :: x !in r ==> idOf(x) < idOf(y)
  {
    forall x <- s, y <- r | x !in r ensures idOf(x) < idOf(y) {
      var k :| 0 <= k < |s| && s[k] == x;
      var i :| 0 <= i < |r| && r[i] == y;
      if |s| - 1 - k < |r| {
        KeptIfInPrefix(s, r, k);
      }
      assert y == s[|s| - 1 - i];
    }
  }

  /**
   * What a newest-first query promises: only matching rows, newest first,
   * as many as the limit allows, and every matching row left out is older
   * than every row returned.
   */
  ghost predicate IsNewest<R>(rows: seq<R>, p: R -> bool, n: int, idOf: R -> int, r: seq<R>) {
    && (forall x <- r :: x in rows && p(x))
    && Descending(r, idOf)
    && |r| == (if 0 <= n < Count(rows, p) then n else Count(rows, p))
    && (forall x <- rows, y <- r :: p(x) && x !in r ==> idOf(x) < idOf(y))
  }

  lemma NewestSpec<R>(rows: seq<R>, p: R -> bool, n: int, idOf: R -> int)
    requires Ascending(rows, idOf)
    ensures IsNewest(rows, p, n, idOf, Newest(rows, p, n))
  {
    var s := Select(rows, p);
    SelectAscending(rows, p, idOf);
    ReverseAscending(s, idOf);
    var r := Newest(rows, p, n);
    assert forall x <- r :: x in s;
    OmittedAreOlder(s, r, idOf);
  }

  /** The result of a `GROUP BY` count: (key, count) pairs. */
  type Groups = seq<(string, nat)>

  /** Number of occurrences of `k` in `ks`. */
  function KeyCount(ks: seq<string>, k: string): nat {
    if |ks| == 0 then 0 else (if ks[0] == k then 1 else 0) + KeyCount(ks[1..], k)
  }

  /** The count a grouping holds for `k`, zero when `k` has no group. */
  function Lookup(g: Groups, k: string): nat {
    if |g| == 0 then 0 else if g[0].0 == k then g[0].1 else Lookup(g[1..], k)
  }

  /** The sum of the counts of a grouping. */
  function Total(g: Groups): nat {
    if |g| == 0 then 0 else g[0].1 + Total(g[1..])
  }

  /** Each key has at most one group. */
  predicate UniqueKeys(g: Groups) {
    forall i, j | 0 <= i < j < |g| :: g[i].0 != g[j].0
  }

  lemma UniqueCons(x: (string, nat), rest: Groups)
    requires UniqueKeys(rest) && forall i | 0 <= i < |rest| :: rest[i].0 != x.0
    ensures UniqueKeys([x] + rest)
  {
    var r := [x] + rest;
    forall i, j | 0 <= i < j < |r| ensures r[i].0 != r[j].0 {
      assert r[j] == rest[j - 1];
      if i > 0 {
        assert r[i] == rest[i - 1];
      }
    }
  }

  /** One more row under key `k`: its group grows by one, or a new group starts. */
  function Bump(g: Groups, k: string): (r: Groups)
    requires UniqueKeys(g)
    ensures UniqueKeys(r)
    ensures forall j :: Lookup(r, j) == Lookup(g, j) + (if j == k then 1 else 0)
    ensures forall i | 0 <= i < |r| :: r[i].0 == k || exists i' | 0 <= i' < |g| :: g[i'].0 == r[i].0
    ensures Total(r) == Total(g) + 1
  {
    if |g| == 0 then [(k, 1)]
    else if g[0].0 == k then
      assert forall j :: j != k ==> Lookup(g, j) == Lookup(g[1..], j);
      [(k, g[0].1 + 1)] + g[1..]
    else
      var rest := Bump(g[1..], k);
      var r := [g[0]] + rest;
      forall i | 0 <= i < |rest| ensures rest[i].0 != g[0].0 {
        if rest[i].0 != k {
          var i' :| 0 <= i' < |g[1..]| && g[1..][i'].0 == rest[i].0;
          assert g[1 + i'].0 == rest[i].0;
        }
      }
      UniqueCons(g[0], rest);
      forall i | 0 <= i < |r| ensures r[i].0 == k || exists i' | 0 <= i' < |g| :: g[i'].0 == r[i].0 {
        if i > 0 && r[i].0 != k {
          assert r[i] == rest[i - 1];
          var i' :| 0 <= i' < |g[1..]| && g[1..][i'].0 == r[i].0;
          assert g[1 + i'].0 == r[i].0;
        }
      }
      r
  }

  /**
   * `SELECT key, COUNT(*) … GROUP BY key` over the keys of the selected rows:
   * one group per distinct key holding its number of rows, so the group counts
   * add up to the number of rows.
   */
  function GroupCount(ks: seq<string>): (g: Groups)
    ensures UniqueKeys(g)
    ensures forall k :: Lookup(g, k) == KeyCount(ks, k)
    ensures Total(g) == |ks|
  {
    if |ks| == 0 then [] else Bump(GroupCount(ks[1..]), ks[0])
  }

  /** The key column of a table. */
  function Column<R, K>(rows: seq<R>, key: R -> K): (ks: seq<K>)
    ensures |ks| == |rows|
    ensures forall i :: 0 <= i < |rows| ==> ks[i] == key(rows[i])
  {
    seq(|rows|, i requires 0 <= i < |rows| => key(rows[i]))
  }
}

=== FILE: text.dfy ===
/**
 * The few Python string operations the system relies on, over `seq<char>`.
 * Case mapping, `isspace` and `isdigit` are modelled on ASCII only.
 */
module Text {

  /** `str.isspace` on ASCII: space, \t \n \v \f \r, and the separators \x1c to \x1f. */
  predicate IsSpace(c: char) {
    c == ' ' || (9 <= c as int <= 13) || (28 <= c as int <= 31)
  }

  /** `str.isdigit` on ASCII. */
  predicate IsDigit(c: char) {
    '0' <= c <= '9'
  }

  /** A lower-case hexadecimal digit, as `uuid4().hex` produces. */
  predicate IsHexDigit(c: char) {
    IsDigit(c) || 'a' <= c <= 'f'
  }

  /** What `uuid.uuid4().hex[:8]` returns: eight lower-case hex digits. */
  predicate IsHex8(s: string) {
    |s| == 8 && forall i :: 0 <= i < |s| ==> IsHexDigit(s[i])
  }

  function LowerChar(c: char): char {
    if 'A' <= c <= 'Z' then (c as int + 32) as char else c
  }

  function UpperChar(c: char): char {
    if 'a' <= c <= 'z' then (c as int - 32) as char else c
  }

  /** `str.lower()` on ASCII. */
  function Lower(s: string): (r: string)
    ensures |r| == |s|
    ensures forall i :: 0 <= i < |s| ==> r[i] == LowerChar(s[i])
  {
    seq(|s|, i requires 0 <= i < |s| => LowerChar(s[i]))
  }

  lemma LowerAppend(a: string, b: string)
    ensures Lower(a + b) == Lower(a) + Lower(b)
  {
    assert |Lower(a + b)| == |Lower(a) + Lower(b)|;
    forall i | 0 <= i < |a + b|
      ensures Lower(a + b)[i] == (Lower(a) + Lower(b))[i]
    {
      if i < |a| {
        assert (a + b)[i] == a[i];
      } else {
        assert (a + b)[i] == b[i - |a|];
      }
    }
  }

  /** `str.capitalize()` on ASCII: first character upper case, the rest lower case. */
  function Capitalize(s: string): string {
    if |s| == 0 then "" else [UpperChar(s[0])] + Lower(s[1..])
  }

  /** `s.startswith(t)`. */
  predicate StartsWith(s: string, t: string) {
    |t| <= |s| && s[..|t|] == t
  }

  /** `t` occurs in `s` starting at position `i`. */
  predicate OccursAt(s: string, t: string, i: int) {
    0 <= i <= |s| - |t| && s[i..i + |t|] == t
  }

  /** `t in s` for strings: `t` occurs as a contiguous substring of `s`. */
  predicate Contains(s: string, t: string) {
    exists i | 0 <= i <= |s| - |t| :: OccursAt(s, t, i)
  }

  lemma ContainsAt(s: string, t: string, i: int)
    requires OccursAt(s, t, i)
    ensures Contains(s, t)
  {
  }

  lemma OccursAtIndex(s: string, t: string, i: int, j: int)
    requires OccursAt(s, t, i) && 0 <= j < |t|
    ensures s[i + j] == t[j]
  {
    assert s[i..i + |t|][j] == t[j];
  }

  lemma StartsWithContains(s: string, t: string)
    requires StartsWith(s, t)
    ensures Contains(s, t)
  {
    ContainsAt(s, t, 0);
  }

  lemma ContainsInSuffix(a: string, b: string, t: string)
    requires Contains(b, t)
    ensures Contains(a + b, t)
  {
    var i :| OccursAt(b, t, i);
    assert OccursAt(b, t, i);
    assert (a + b)[|a| + i..|a| + i + |t|] == b[i..i + |t|];
    ContainsAt(a + b, t, |a| + i);
  }

  lemma ContainsInPrefix(a: string, b: string, t: string)
    requires Contains(a, t)
    ensures Contains(a + b, t)
  {
    var i :| OccursAt(a, t, i);
    assert OccursAt(a, t, i);
    assert (a + b)[i..i + |t|] == a[i..i + |t|];
    ContainsAt(a + b, t, i);
  }

  /**
   * SQLite's `s LIKE '%t%'` for a term without `%` or `_`: `t` occurs in
   * `s` when ASCII letters are compared without regard to case.
   */
  predicate Like(s: string, t: string) {
    Contains(Lower(s), Lower(t))
  }

  lemma LowerLower(s: string)
    ensures Lower(Lower(s)) == Lower(s)
  {
  }

  /** An exact occurrence is a match. */
  lemma LikeSubstring(s: string, t: string)
    requires Contains(s, t)
    ensures Like(s, t)
  {
    var i :| 0 <= i <= |s| - |t| && OccursAt(s, t, i);
    forall j | 0 <= j < |t|
      ensures Lower(s)[i..i + |t|][j] == Lower(t)[j]
    {
      OccursAtIndex(s, t, i, j);
    }
    ContainsAt(Lower(s), Lower(t), i);
  }

  /** The case of the letters on either side does not matter. */
  lemma LikeIgnoresCase(s: string, t: string)
    ensures Like(s, t) == Like(Lower(s), t) == Like(s, Lower(t))
  {
    LowerLower(s);
    LowerLower(t);
  }

  /** A string lacking one of the characters of `t` cannot contain `t`. */
  lemma NotContainsByChar(s: string, t: string, c: char)
    requires c in t && c !in s
    ensures !Contains(s, t)
  {
  }

  /** An occurrence of `t` cannot straddle a character that `t` does not contain. */
  lemma ContainsAcross(a: string, x: char, b: string, t: string)
    requires x !in t
    requires Contains(a + [x] + b, t)
    ensures Contains(a, t) || Contains(b, t)
  {
    var s := a + [x] + b;
    var i :| OccursAt(s, t, i);
    assert OccursAt(s, t, i);
    if i + |t| <= |a| {
      assert a[i..i + |t|] == s[i..i + |t|];
      ContainsAt(a, t, i);
    } else {
      if i <= |a| {
        OccursAtIndex(s, t, i, |a| - i);
      }
      assert b[i - |a| - 1..i - |a| - 1 + |t|] == s[i..i + |t|];
      ContainsAt(b, t, i - |a| - 1);
    }
  }

  /** Number of whitespace characters at the start of `s`. */
  function LeadingSpaces(s: string): (k: nat)
    ensures k <= |s|
    ensures forall i :: 0 <= i < k ==> IsSpace(s[i])
    ensures k == |s| || !IsSpace(s[k])
  {
    if |s| > 0 && IsSpace(s[0]) then 1 + LeadingSpaces(s[1..]) else 0
  }

  /** Number of whitespace characters at the end of `s`. */
  function TrailingSpaces(s: string): (k: nat)
    ensures k <= |s|
    ensures forall i :: |s| - k <= i < |s| ==> IsSpace(s[i])
    ensures k == |s| || !IsSpace(s[|s| - 1 - k])
  {
    if |s| > 0 && IsSpace(s[|s| - 1]) then 1 + TrailingSpaces(s[..|s| - 1]) else 0
  }

  /** Neither starts nor ends with whitespace. */
  predicate Trimmed(s: string) {
    |s| == 0 || (!IsSpace(s[0]) && !IsSpace(s[|s| - 1]))
  }

  /** `str.strip()`: `s` without its leading and trailing whitespace. */
  function Strip(s: string): (r: string)
    ensures Trimmed(r)
    ensures |r| <= |s|
    ensures forall c <- r :: c in s
  {
    var a := LeadingSpaces(s);
    var b := TrailingSpaces(s[a..]);
    s[a..|s| - b]
  }

  lemma StripTrimmed(s: string)
    requires Trimmed(s)
    ensures Strip(s) == s
  {
  }

  /** Stripping removes whitespace put in front of a trimmed string. */
  lemma StripAfterSpace(s: string)
    requires Trimmed(s)
    ensures Strip(" " + s) == s
  {
    assert (" " + s)[1..] == s;
  }

  /** A string starting with a non-space character keeps that character first when stripped. */
  lemma StripKeepsFirst(s: string)
    requires |s| > 0 && !IsSpace(s[0])
    ensures |Strip(s)| > 0 && Strip(s)[0] == s[0]
  {
    assert LeadingSpaces(s) == 0;
  }

  /** Python's `s[:n]`, where a negative `n` counts from the end. */
  function PyPrefix(s: string, n: int): (r: string)
    ensures |r| <= |s| && r == s[..|r|]
    ensures 0 <= n ==> |r| == if n < |s| then n else |s|
  {
    if n >= 0 then (if n < |s| then s[..n] else s)
    else if |s| + n > 0 then s[..|s| + n] else ""
  }

  /** Position of the first `c` in `s`. */
  function IndexOf(s: string, c: char): (i: nat)
    requires c in s
    ensures i < |s| && s[i] == c && c !in s[..i]
  {
    if s[0] == c then 0
    else
      var j := IndexOf(s[1..], c);
      assert s[..1 + j] == [s[0]] + s[1..][..j];
      1 + j
  }

  /** The first occurrence is the one with none before it. */
  lemma IndexOfAt(s: string, c: char, j: nat)
    requires j < |s| && s[j] == c && c !in s[..j]
    ensures IndexOf(s, c) == j
  {
    var i := IndexOf(s, c);
    assert forall x | 0 <= x < j :: s[..j][x] == s[x];
    assert forall x | 0 <= x < i :: s[..i][x] == s[x];
  }

  /** `s.split(sep)` for a one-character separator. */
  function Split(s: string, sep: char): (parts: seq<string>)
    ensures |parts| >= 1
    decreases |s|
  {
    if sep in s then
      var i := IndexOf(s, sep);
      [s[..i]] + Split(s[i + 1..], sep)
    else [s]
  }

  /** `sep.join(parts)`. */
  function Join(parts: seq<string>, sep: string): string {
    if |parts| == 0 then ""
    else if |parts| == 1 then parts[0]
    else parts[0] + sep + Join(parts[1..], sep)
  }

  lemma SplitNoSep(s: string, sep: char)
    requires sep !in s
    ensures Split(s, sep) == [s]
  {
  }

  /** Splitting peels off everything up to the first separator. */
  lemma SplitFirst(a: string, sep: char, b: string)
    requires sep !in a
    ensures Split(a + [sep] + b, sep) == [a] + Split(b, sep)
  {
    var s := a + [sep] + b;
    assert s[|a|] == sep;
    var i := IndexOf(s, sep);
    assert s[..i] == a;
    assert s[i + 1..] == b;
  }

  /** The pieces of a split contain no separator, and joining them back gives the input. */
  lemma {:induction false} SplitJoin(s: string, sep: char)
    ensures Join(Split(s, sep), [sep]) == s
    ensures forall p :: p in Split(s, sep) ==> sep !in p
    decreases |s|
  {
    if sep in s {
      var i := IndexOf(s, sep);
      var rest := s[i + 1..];
      SplitJoin(rest, sep);
      assert s == s[..i] + [sep] + rest;
      SplitFirst(s[..i], sep, rest);
    }
  }

  /** A character absent from `s` is absent from every piece of its split. */
  lemma {:induction false} SplitNoChar(s: string, sep: char, c: char)
    requires c !in s
    ensures forall p <- Split(s, sep) :: c !in p
    decreases |s|
  {
    if sep in s {
      var i := IndexOf(s, sep);
      SplitNoChar(s[i + 1..], sep, c);
      assert forall p <- Split(s, sep) :: p == s[..i] || p in Split(s[i + 1..], sep);
    }
  }

  /** Splitting a join of separator-free pieces gives the pieces back. */
  lemma {:induction false} JoinSplit(parts: seq<string>, sep: char)
    requires |parts| >= 1
    requires forall p <- parts :: sep !in p
    ensures Split(Join(parts, [sep]), sep) == parts
  {
    if |parts| == 1 {
      SplitNoSep(parts[0], sep);
    } else {
      JoinSplit(parts[1..], sep);
      SplitFirst(parts[0], sep, Join(parts[1..], [sep]));
    }
  }

  /** Lines each followed by a newline, as text built by repeated `+= "…\n"` is. */
  function Terminated(lines: seq<string>): string {
    if |lines| == 0 then "" else lines[0] + "\n" + Terminated(lines[1..])
  }

  lemma {:induction false} TerminatedAppend(a: seq<string>, b: seq<string>)
    ensures Terminated(a + b) == Terminated(a) + Terminated(b)
  {
    if |a| > 0 {
      assert (a + b)[1..] == a[1..] + b;
      TerminatedAppend(a[1..], b);
    } else {
      assert a + b == b;
    }
  }

  /** Newline-terminated lines split back into the lines, plus the empty piece after the last newline. */
  lemma {:induction false} TerminatedSplit(lines: seq<string>)
    requires forall l <- lines :: '\n' !in l
    ensures Split(Terminated(lines), '\n') == lines + [""]
  {
    if |lines| == 0 {
      SplitNoSep("", '\n');
    } else {
      var rest := lines[1..];
      assert forall l <- rest :: l in lines;
      TerminatedSplit(rest);
      TerminatedSplitCons(lines);
      calc {
        Split(Terminated(lines), '\n');
        [lines[0]] + Split(Terminated(rest), '\n');
        [lines[0]] + (rest + [""]);
        { assert lines == [lines[0]] + rest; }
        lines + [""];
      }
    }
  }

  /** Newline-terminated text starts with its first line. */
  lemma TerminatedFirst(lines: seq<string>)
    requires |lines| > 0
    ensures StartsWith(Terminated(lines), lines[0])
  {
    var t := Terminated(lines[1..]);
    assert Terminated(lines) == lines[0] + ("\n" + t);
  }

  /** Every line occurs in the newline-terminated text. */
  lemma {:induction false} TerminatedContains(lines: seq<string>, i: int)
    requires 0 <= i < |lines|
    ensures Contains(Terminated(lines), lines[i])
  {
    var t := Terminated(lines[1..]);
    assert Terminated(lines) == (lines[0] + "\n") + t;
    if i == 0 {
      TerminatedFirst(lines);
      StartsWithContains(Terminated(lines), lines[0]);
    } else {
      assert lines[1..][i - 1] == lines[i];
      TerminatedContains(lines[1..], i - 1);
      ContainsInSuffix(lines[0] + "\n", t, lines[i]);
    }
  }

  lemma TerminatedSplitCons(lines: seq<string>)
    requires |lines| > 0 && '\n' !in lines[0]
    ensures Split(Terminated(lines), '\n') == [lines[0]] + Split(Terminated(lines[1..]), '\n')
  {
    var t := Terminated(lines[1..]);
    assert Terminated(lines) == lines[0] + ['\n'] + t;
    SplitFirst(lines[0], '\n', t);
  }

  function DigitChar(d: nat): char
    requires d < 10
  {
    ('0' as int + d) as char
  }

  /** `str(n)` for a non-negative integer. */
  function NatToString(n: nat): (r: string)
    ensures |r| >= 1
    ensures forall i :: 0 <= i < |r| ==> IsDigit(r[i])
    decreases n
  {
    if n < 10 then [DigitChar(n)] else NatToString(n / 10) + [DigitChar(n % 10)]
  }

  /** `int(s)` for a string of decimal digits. */
  function DigitsValue(s: string): nat
    requires forall i :: 0 <= i < |s| ==> IsDigit(s[i])
  {
    if |s| == 0 then 0
    else
      assert IsDigit(s[|s| - 1]);
      10 * DigitsValue(s[..|s| - 1]) + (s[|s| - 1] as int - '0' as int)
  }

  /** Rendering a number and reading it back gives the number: `int(str(n)) == n`. */
  lemma {:induction false} NatToStringRoundTrip(n: nat)
    ensures DigitsValue(NatToString(n)) == n
    decreases n
  {
    if n >= 10 {
      NatToStringRoundTrip(n / 10);
      var s := NatToString(n);
      assert s[..|s| - 1] == NatToString(n / 10);
    }
  }

  lemma NatToStringInjective(m: nat, n: nat)
    requires NatToString(m) == NatToString(n)
    ensures m == n
  {
    NatToStringRoundTrip(m);
    NatToStringRoundTrip(n);
  }
}

=== FILE: wrappers.dfy ===
/** Optional values and results shared by every module of the model. */
module Wrappers {

  /** Python's `None` or a value. */
  datatype Option<+T> = None | Some(value: T) {

    /** The value, or `default` when there is none (Python's `x or default` on an optional). */
    function GetOr(default: T): T {
      match this
      case Some(v) => v
      case None => default
    }
  }

  /** Python's truthiness of an optional string: present and not empty. */
  predicate Given(o: Option<string>) {
    o.Some? && |o.value| > 0
  }

  /** A value, or the message of the exception the source raises instead. */
  datatype Result<+T> = Ok(value: T) | Raise(error: string)
}
